=== FILE: README.md ===
# InsideX notification backend, modelled in Dafny

This project models the Firebase functions that send InsideX's notifications:

- **Language resolution and email templates.** `normalizeLanguage` and the eight template modules: OTP, welcome, password reset, subscription started, subscription expired, payment failed, trial ending and plan changed. Each template is a table of four languages (`en`, `tr`, `ru`, `hi`) with an English fallback. Its HTML keeps, in document order, the heading and the body elements that carry the template's parameters, with their neighbours where the source promises them (the OTP expiry and note, the reset link text and note, the plan-change boxes, the started mail's closing question). Signatures, the payment-failed alert box and closing paragraph, and the trial-ending highlight box and cancel paragraph are left out, as are CSS and footers.
- **Push notifications** (`onPushNotificationCreated`). This covers:
  - validation of the `push_notifications` document
  - the FCM topic condition built from the language, tier and platform facets
  - what the condition means for a device's topic set
  - the fan-out plan: the `all_users` topic, one message per language, or a shared condition
  - the counting that decides `sent` / `failed` / `error`, and the log record
- **Subscription emails** (`onRevenueCatEvent`, `checkTrialEnding`). This covers:
  - the event filter
  - the idempotency marker and the 24-hour billing cooldown, both of which fail open
  - plan names and tiers
  - the plan-change deferral
  - the daily trial-ending scan, with its reminder key built from tomorrow's UTC date
- **The transactional mail path** of `functions/index.js`. This covers:
  - the `mail_queue` sender, with its address pattern and type allow-list
  - the daily per-address limit
  - OTP rate limiting and the hourly cleanup
  - the custom password reset
  - `checkEmailExists`
- **The device-logout callable**, with its check order, its exact-match language pick and the soft handling of expired tokens.

Every handler is a pure function. Its inputs are:

- the triggering document or request
- snapshots of the store reads it makes (`Snapshot<T>`: a value, or `Unavailable` for a read that throws)
- the clock (`now`, in milliseconds)
- the answers of the external services: FCM sends, SMTP delivery, Firebase Auth lookups, and the locale date formatter

Its result is the list of writes and the reply the handler makes.

Modules follow the source files:

| module | file |
|---|---|
| `Wrappers` | (shared) |
| `Strings` | (shared) |
| `Languages` | `templates/index.js` |
| `Markup` | (shared) |
| `OtpTemplate` | `templates/otp.js` |
| `WelcomeTemplate` | `templates/welcome.js` |
| `PasswordResetTemplate` | `templates/passwordReset.js` |
| `SubscriptionStartedTemplate` | `templates/subscriptionStarted.js` |
| `SubscriptionExpiredTemplate` | `templates/subscriptionExpired.js` |
| `PaymentFailedTemplate` | `templates/paymentFailed.js` |
| `TrialEndingTemplate` | `templates/trialEnding.js` |
| `PlanChangedTemplate` | `templates/planChanged.js` |
| `PushNotifications` | `pushNotifications.js` |
| `Calendar` | the ISO date used by `subscriptionEmails.js` |
| `SubscriptionEmails` | `subscriptionEmails.js` |
| `MailQueue` | `index.js` |
| `DeviceLogout` | `deviceLogout.js` |

Behaviours of the code that the model keeps on purpose:

- The per-language push path ANDs every requested tier, while the shared condition ORs them (`LanguagePathAndsTiers`).
- The purchase mail tests `period_type` against `TRIAL`, but the trial scan tests it against `trial` (`TrialSpellingsDiffer`).
- The truncation to five condition clauses can never fire (`TruncationNeverFires`).
- `password_reset` documents are sent with no subject and no body.
- A password reset for a profile without a `name` greets `undefined`.
- The device-logout callable does not fold case, unlike the mail handlers (`UppercaseLanguageGetsEnglish`).
- `otp_verifications` documents are keyed by address, so the OTP rate limit's query can find at most one record per address and the limit of five never triggers (`KeyedByAddressNeverLimited`). This holds whenever the client stores each record's `email` field equal to its document id. The client is not part of this model, so this is an observation rather than a finding.

## Model

| member | source | states |
|---|---|---|
| Languages.LangOf | functions/templates/index.js:9 | a code maps to a language exactly when it is one of the four supported codes, and back to the same code |
| Languages.CodeRoundTrip | functions/templates/index.js:9 | every language's code resolves to that language, and only its code does |
| Languages.NormalizeLanguage | functions/templates/index.js:17-23 | the result is always supported; an absent or empty value gives `en`; otherwise the lower-cased, trimmed value if supported, else `en` |
| Languages.SupportedIsNormal | functions/templates/index.js:21-22 | lower-casing and trimming leave a supported code unchanged |
| Languages.NormalizeFixesSupported | functions/templates/index.js:17-23 | every supported code normalises to itself |
| Languages.NormalizeIdempotent | functions/templates/index.js:17-23 | normalising a normalised code changes nothing |
| Languages.NormalizeTrimsAndLowers | functions/templates/index.js:21 | ` TR ` normalises to `tr` |
| Languages.ExactLanguage | functions/deviceLogout.js:72-75 | the language only when it is exactly a supported code, else `en` |
| Languages.ExactLanguageIsCaseSensitive | functions/deviceLogout.js:72-75 | `TR` is English for the callable but Turkish after `normalizeLanguage` |
| OtpTemplate.GetOtpTemplate | functions/templates/otp.js:85-234 | a supported key gives its own entry, any other key the English one |
| OtpTemplate.HtmlEmbedsUserNameAndCode | functions/templates/otp.js:88-119 | the body greets the user by name and holds the code in the code box |
| OtpTemplate.HtmlDeterminesCode | functions/templates/otp.js:88-119 | two bodies for different codes differ: the code can be read back |
| WelcomeTemplate.GetWelcomeTemplate | functions/templates/welcome.js:92-229 | a supported key gives its own entry, any other key the English one |
| WelcomeTemplate.HtmlEmbedsUserName | functions/templates/welcome.js:95-123 | the body greets the user by name |
| PasswordResetTemplate.GetPasswordResetTemplate | functions/templates/passwordReset.js:90-243 | a supported key gives its own entry, any other key the English one |
| PasswordResetTemplate.HtmlEmbedsLinkTwice | functions/templates/passwordReset.js:93-125 | the link is the button's target and is repeated as text, and the user is greeted by name |
| SubscriptionStartedTemplate.GetSubscriptionStartedTemplate | functions/templates/subscriptionStarted.js:77-233 | a supported key gives its own entry, any other key the English one |
| SubscriptionStartedTemplate.SubjectNamesPlan | functions/templates/subscriptionStarted.js:79 | the subject contains the plan name |
| SubscriptionStartedTemplate.HtmlNamesPlanTwice | functions/templates/subscriptionStarted.js:80-113 | the plan name appears in the heading and in the activation sentence |
| SubscriptionStartedTemplate.HtmlTrialBranch | functions/templates/subscriptionStarted.js:98-101 | the trial flag chooses between the trial-end sentence and the billing-date sentence, each showing the date |
| SubscriptionExpiredTemplate.GetSubscriptionExpiredTemplate | functions/templates/subscriptionExpired.js:115-255 | a supported key gives its own entry, any other key the English one |
| SubscriptionExpiredTemplate.HtmlEmbedsUserAndPlan | functions/templates/subscriptionExpired.js:118-148 | the body greets the user and names the expired plan |
| PaymentFailedTemplate.GetPaymentFailedTemplate | functions/templates/paymentFailed.js:115-267 | a supported key gives its own entry, any other key the English one |
| PaymentFailedTemplate.HtmlEmbedsUserAndPlan | functions/templates/paymentFailed.js:118-151 | the body greets the user and names the plan whose payment failed |
| TrialEndingTemplate.GetTrialEndingTemplate | functions/templates/trialEnding.js:115-267 | a supported key gives its own entry, any other key the English one |
| TrialEndingTemplate.HtmlEmbedsPlanAndDate | functions/templates/trialEnding.js:118-151 | the body greets the user and names the plan and the expiry date |
| PlanChangedTemplate.GetPlanChangedTemplate | functions/templates/planChanged.js:115-287 | a supported key gives its own entry, any other key the English one |
| PlanChangedTemplate.HtmlShowsPlanTransition | functions/templates/planChanged.js:134-139 | the body shows the old plan, an arrow and the new plan |
| PlanChangedTemplate.DeferredShowsEffectiveDate | functions/templates/planChanged.js:140-143 | a deferred change shows the effective date in the info box |
| PlanChangedTemplate.ImmediateIgnoresEffectiveDate | functions/templates/planChanged.js:140-143 | an immediate change shows the "now active" box and does not depend on the date |
| PushNotifications.GetLocalizedContent | functions/pushNotifications.js:102-107 | a truthy entry for the language wins; otherwise a truthy English entry; otherwise the title is `InsideX` and the body empty; the title is never empty |
| PushNotifications.FallsBackToEnglish | functions/pushNotifications.js:102-107 | without a truthy entry for the language, title and body are those of `en`; without either, the title is `InsideX` and the body empty |
| PushNotifications.ValidationError | functions/pushNotifications.js:112-149 | no error exactly for a well-formed document; each of the six checks, in source order, reports its own message when the earlier ones pass: no data, no title, no body, no audience, `Invalid audience: <audience>`, no user id for an individual target |
| PushNotifications.ReportsFirstFailure | functions/pushNotifications.js:117-140 | a document with neither titles nor bodies reports only the missing titles; an unknown audience is named in the error |
| PushNotifications.Filter | functions/pushNotifications.js:41-43 | a value survives exactly when it was present and passes the filter |
| PushNotifications.FilterAppend | functions/pushNotifications.js:41-43 | filtering a concatenation filters each part and keeps them in order, so survivors keep the input order |
| PushNotifications.FilterRejectsAll | functions/pushNotifications.js:41-43 | a filter that rejects every value leaves nothing |
| PushNotifications.Cnf | functions/pushNotifications.js:37-83 | at most three clauses are collected, none of them empty |
| PushNotifications.BuildTopicCondition | functions/pushNotifications.js:33-97 | no condition exactly for a missing target, the `all` audience, or no surviving facet value |
| PushNotifications.TruncationNeverFires | functions/pushNotifications.js:89-94 | fewer than five clauses are ever collected, so truncation never applies |
| PushNotifications.ClauseShape | functions/pushNotifications.js:45-51 | one value gives a bare clause, several a parenthesised disjunction |
| PushNotifications.MatchesAppend | functions/pushNotifications.js:96 | joining clauses with `&&` requires every part |
| PushNotifications.MatchesFacetClause | functions/pushNotifications.js:41-81 | a facet's clause admits a device exactly when it holds one of the facet's surviving topics |
| PushNotifications.ConditionMeaning | functions/pushNotifications.js:33-97 | the shared condition admits a device exactly when each facet with surviving values admits it |
| PushNotifications.MsgConditionRendersCnf | functions/pushNotifications.js:272-290 | the per-language condition string is the conjunction of single-topic clauses |
| PushNotifications.MsgConditionMeaning | functions/pushNotifications.js:272-290 | the per-language condition admits a device only if it holds the language topic and every selected tier and platform topic |
| PushNotifications.LanguagePathAndsTiers | functions/pushNotifications.js:274-280 | with tiers `free` and `lite`, a free-tier English device matches the shared condition but not the per-language one |
| PushNotifications.MessageData | functions/pushNotifications.js:237-241 | the custom data is kept except where overridden by the notification id, the type (default `general`) and, on condition paths, the language |
| PushNotifications.TopicPlan | functions/pushNotifications.js:218-382 | one English `all_users` message without a condition; one message per valid language on the language path; one message per shared language otherwise |
| PushNotifications.PlanLanguagesAreValid | functions/pushNotifications.js:268-269 | every language-tagged message carries a valid language |
| PushNotifications.EmptyPlan | functions/pushNotifications.js:263-337 | nothing is attempted exactly when a condition exists but the requested languages are all invalid |
| PushNotifications.InvalidLanguagesReachEveryone | functions/pushNotifications.js:41-53 | a target with only invalid languages has no condition and goes to `all_users` |
| PushNotifications.Accepted | functions/pushNotifications.js:322-329 | the accepted count is the number of attempt indices the service accepted; it equals the attempts exactly when all were accepted and is positive exactly when one was |
| PushNotifications.CountSends | functions/pushNotifications.js:322-329 | the loop computes the tally: success plus failure equals the attempts; success counts the accepted attempts; no failure exactly when every attempt was accepted |
| PushNotifications.Tally | functions/pushNotifications.js:322-329 | success is the number of accepted attempts, failure the rest; no failure exactly when every attempt was accepted |
| PushNotifications.SendToIndividual | functions/pushNotifications.js:154-213 | an unknown user or a missing token is an error with nothing sent; otherwise one message to the user's active token in the user's language, or English, without a `lang` entry; an accepted send is `sent` with counts 1/0, a rejected one is an error with the service's message |
| PushNotifications.SendViaTopic | functions/pushNotifications.js:218-382 | the sends are the fan-out plan; on the `all_users` path an accepted send is `sent` with counts 1/0 and a rejected one an error; on the condition paths the counts are the tally, `sent` exactly when some attempt was accepted, and the log holds the condition |
| PushNotifications.OnPushNotificationCreated | functions/pushNotifications.js:388-454 | an invalid document gets `error` with the validation message and nothing is sent; status is `sent` exactly when some send succeeded; counts add up; the sends are the fan-out plan and the counts its tally on the condition paths; one `all_users` message whose rejection is an error; one message to the user's token on the individual path; the log's condition is `individual:<uid>`, or the condition, or `topic:all_users` |
| PushNotifications.AllRejected | functions/pushNotifications.js:407-453 | when the service rejects everything, the `all_users` path ends in `error` and the condition paths in `failed` with every attempt counted as a failure |
| PushNotifications.InvalidAudienceIsQuoted | functions/pushNotifications.js:137-141 | an `Invalid audience` error quotes the document's own audience, which is not one of the six |
| PushNotifications.IndividualFailures | functions/pushNotifications.js:165-174 | an unknown user or a user without a device token ends in `error` with no send |
| PushNotifications.PartialFailureStillSent | functions/pushNotifications.js:322-329 | on condition paths one accepted send makes the status `sent`, and every planned message is attempted |
| Calendar.DateOfRoundTrip | functions/subscriptionEmails.js:527 | every day number names a valid date that counts back to the same day |
| Calendar.DayNumberRoundTrip | functions/subscriptionEmails.js:527 | every valid date is the date of its own day number |
| Calendar.IsoDateShape | functions/subscriptionEmails.js:527 | dates up to year 9999 print as `YYYY-MM-DD` |
| Calendar.EpochDate | functions/subscriptionEmails.js:527 | the epoch is 1970-01-01 |
| Calendar.TomorrowIsNextDay | functions/subscriptionEmails.js:485-486 | a day after `now` falls on the day number after `now`'s |
| Calendar.TomorrowWindow | functions/subscriptionEmails.js:489-493 | a time lies between tomorrow's start and end exactly when its day number is one past today's |
| SubscriptionEmails.GetPlanName | functions/subscriptionEmails.js:95-108 | no product gives `InsideX`; the id is cut at the first `:`; a known id is named in the language, else in English; an unknown id is its cleaned id |
| SubscriptionEmails.PlanNameIgnoresSuffix | functions/subscriptionEmails.js:99 | a store suffix after `:` does not change the name |
| SubscriptionEmails.KnownPlanIsLocalised | functions/subscriptionEmails.js:50-54 | `insidex_standard_yearly` is `Standard Yıllık` in Turkish |
| SubscriptionEmails.KnownPlanFallsBackToEnglish | functions/subscriptionEmails.js:107 | an unsupported language gets the English plan name |
| SubscriptionEmails.LeadingColonGivesEmptyName | functions/subscriptionEmails.js:99-104 | an id starting with `:` cleans to the empty name |
| SubscriptionEmails.GetTierFromProductId | functions/subscriptionEmails.js:115-119 | `standard` exactly when the id contains `standard`; `lite` exactly when it contains `lite` but not `standard`; else `free` |
| SubscriptionEmails.CatalogueTiers | functions/subscriptionEmails.js:50-54 | each catalogue product gets the tier its name suggests |
| SubscriptionEmails.StandardTakesPrecedence | functions/subscriptionEmails.js:116-117 | an id naming both tiers is standard |
| SubscriptionEmails.GetUserData | functions/subscriptionEmails.js:65-87 | data exactly for an existing user; the email as stored; the name when truthy, else `User`; the normalised preferred language |
| SubscriptionEmails.ShouldSendEmail | functions/subscriptionEmails.js:154-193 | a processed event is never sent again; an unreadable marker store sends; outside billing issues only the marker matters |
| SubscriptionEmails.CooldownBoundary | functions/subscriptionEmails.js:170-180 | a payment-failed mail exactly one day old no longer blocks; one a millisecond younger does |
| SubscriptionEmails.FormatDate | functions/subscriptionEmails.js:127-146 | an absent or zero timestamp gives the empty string, otherwise the locale rendering |
| SubscriptionEmails.StartedMail | functions/subscriptionEmails.js:244-268 | a `subscription_started` mail to the user's address whose subject names the plan |
| SubscriptionEmails.StartedMailTrialTest | functions/subscriptionEmails.js:248-264 | the body is the started template with the trial flag set exactly for the period type `TRIAL`; with it the date is the trial's end, with any other period type the next billing date |
| SubscriptionEmails.ExpiredMail | functions/subscriptionEmails.js:276-297 | a `subscription_expired` mail to the user's address, in the user's language, with the template's subject; the body is the expired template filled with the user's name and the plan name, so it greets the user and names the plan |
| SubscriptionEmails.PaymentFailedMail | functions/subscriptionEmails.js:305-326 | a `payment_failed` mail to the user's address, in the user's language, with the template's subject; the body is the payment-failed template filled with the user's name and the plan name, so it greets the user and names the plan |
| SubscriptionEmails.DecidePlanChange | functions/subscriptionEmails.js:338-347 | deferred exactly when the expiry is set and more than a day away; an immediate change has no date; the new plan falls back to the old product |
| SubscriptionEmails.PlanChangedMail | functions/subscriptionEmails.js:334-366 | a `plan_changed` mail to the user's address, in the user's language, with the template's subject; the body is the plan-changed template filled with the decided old plan, new plan, date and immediacy, and shows the old product's plan name, the arrow, and the new product's (or, without one, the old product's) plan name |
| SubscriptionEmails.ShortPeriodIsImmediate | functions/subscriptionEmails.js:345-347 | a period ending within a day is immediate and its mail ignores the date formatter |
| SubscriptionEmails.DeferredChangeShowsDate | functions/subscriptionEmails.js:345-355 | a deferred change's mail shows the formatted expiry |
| SubscriptionEmails.Gate | functions/subscriptionEmails.js:402-418 | a user comes through exactly when the type is handled, the dedup and cooldown check passes, and the user exists with a truthy email, which is the one stored |
| SubscriptionEmails.OnRevenueCatEvent | functions/subscriptionEmails.js:376-464 | something happens exactly when the gate passes; then a queued write gives the event's mail followed by the marker, and a failed one gives only the error record with the write's message; unhandled types and processed events do nothing |
| SubscriptionEmails.QueuesExactlyWhenEligible | functions/subscriptionEmails.js:391-448 | a mail is queued exactly when the event is handled, may be sent, and has a user with an email; it goes to that address in the user's normalised language, with the type's mail type, and the marker follows |
| SubscriptionEmails.ReplayIsNoOp | functions/subscriptionEmails.js:160-165 | once its marker is written, replaying an event does nothing |
| SubscriptionEmails.BillingCooldownHolds | functions/subscriptionEmails.js:168-186 | a second billing issue within a day of a queued payment-failed mail does nothing |
| SubscriptionEmails.FailsOpen | functions/subscriptionEmails.js:189-192 | unreadable markers and queue do not stop a handled event for a user with an email |
| SubscriptionEmails.TemplateGetter | functions/subscriptionEmails.js:24-31 | each handler's getter is not among the names the template index exports |
| SubscriptionEmails.OnRevenueCatEventAsWritten | functions/subscriptionEmails.js:419-463 | as written, the only effect is an error record |
| SubscriptionEmails.AsWrittenNeverQueues | functions/subscriptionEmails.js:419-463 | where the intended handler queues a mail, the code as written only records `... is not a function` |
| SubscriptionEmails.TrialMail | functions/subscriptionEmails.js:546-563 | a `trial_ending` mail to the user's address and language, with the template's subject, naming the plan and the formatted expiry |
| SubscriptionEmails.Profiles | functions/subscriptionEmails.js:539 | the scan reads, for each user, exactly what `getUserData` returns |
| SubscriptionEmails.Effects | functions/subscriptionEmails.js:552-574 | the writes of a scan: for each reminder in turn, its `trial_ending` mail is queued and only then its marker written |
| SubscriptionEmails.TrialEndingWrites | functions/subscriptionEmails.js:527-574 | the i-th reminder of a run queues its mail to the user's stored address in the user's normalised language, then marks that trial's key for tomorrow, which was not marked before |
| SubscriptionEmails.Scan | functions/subscriptionEmails.js:504-578 | every reminder's key was not yet marked, is its candidate's key, and carries that user's data |
| SubscriptionEmails.ScanIsComplete | functions/subscriptionEmails.js:504-578 | a scan that ran to the end reminded every candidate that was due |
| SubscriptionEmails.ScanStopsOnlyOnFailedWrite | functions/subscriptionEmails.js:552-587 | each reminder stands for a successful queue write, and a scan stops short only at a failed one |
| SubscriptionEmails.CheckTrialEndingRemindsExactlyTheDue | functions/subscriptionEmails.js:476-589 | every reminder is for a due candidate; a finished run left none behind; a run stops short only when the dates cannot be represented or a queue write failed |
| SubscriptionEmails.CheckTrialEnding | functions/subscriptionEmails.js:476-589 | nothing happens past the last representable date; no reminder repeats a marked key |
| SubscriptionEmails.ScanSendsOnlyDue | functions/subscriptionEmails.js:512-543 | every reminder is for a candidate of the scan that was due: a `trial` ending tomorrow, not yet reminded, of a user with an email |
| SubscriptionEmails.ScanIsIdempotent | functions/subscriptionEmails.js:527-574 | a rerun with the markers of a completed run queues nothing |
| SubscriptionEmails.ReminderKeyNamesTomorrow | functions/subscriptionEmails.js:527 | the key is `trial_ending_<uid>_<productId>_` followed by tomorrow's ISO date |
| SubscriptionEmails.EndsTomorrowMeansNextDay | functions/subscriptionEmails.js:514-523 | the trial test is a lower-case `trial` expiring on the next UTC day |
| SubscriptionEmails.TrialSpellingsDiffer | functions/subscriptionEmails.js:514 | no subscription is both a scanned trial (`trial`) and a trial for the purchase mail (`TRIAL`, line 248); a purchase with the scanned spelling announces the date as the next billing date |
| SubscriptionEmails.ScanAsWritten | functions/subscriptionEmails.js:504-550 | as written the loop queues nothing and gets to the end exactly when no candidate is due |
| SubscriptionEmails.CheckTrialEndingAsWritten | functions/subscriptionEmails.js:476-589 | as written the scan queues nothing, and finishes exactly when the dates can be represented and no candidate is due |
| SubscriptionEmails.NothingDueSendsNothing | functions/subscriptionEmails.js:504-580 | with no candidate due, the intended scan finishes and sends nothing |
| SubscriptionEmails.AsWrittenCompletesOnlyWhenNothingIsDue | functions/subscriptionEmails.js:476-589 | the written scan finishes exactly when the intended one finishes without a reminder |
| SubscriptionEmails.AsWrittenTrialScanQueuesNothing | functions/subscriptionEmails.js:550 | a trial ending tomorrow gets a reminder from the intended scan, while the code as written stops short at it |
| MailQueue.IsValidEmailMatchesPattern | functions/index.js:20-23 | the address check accepts exactly the strings of `/^[^\s@]+@[^\s@]+\.[^\s@]+$/` |
| MailQueue.RenderQueued | functions/index.js:72-94 | the message goes to the given address; an OTP mail is the OTP template in the given language, filled with `userName` or `User` and the code or ""; a welcome mail is the welcome template filled with `userName`, else `template.data.userName`, else `User`; other types get no subject and no body |
| MailQueue.SendEmailFromQueue | functions/index.js:37-118 | the address is checked before the type; rejected documents are marked and never sent; accepted ones go to `to`, and the update reflects the transport's answer; only OTP and welcome mails get a subject |
| MailQueue.OtpMailCarriesCode | functions/index.js:75-83 | an OTP mail is in the normalised language and holds the code and the user name, or `User` |
| MailQueue.WelcomeFallsBackToTemplateName | functions/index.js:85-91 | without `userName` the welcome mail greets `template.data.userName` |
| MailQueue.WelcomeGreetsByPreference | functions/index.js:85-91 | the sent welcome mail is the welcome template in the normalised language and greets, in order of preference, `userName`, `template.data.userName`, then `User` |
| MailQueue.SubscriptionMailsRejected | functions/index.js:54-63 | every subscription mail type is marked `Invalid email type` and never sent |
| MailQueue.SendEmailFromQueueFixed | functions/index.js:54-63 | with the subscription types admitted, the address check still comes first and only valid documents are sent |
| MailQueue.QueuedSubscriptionMailIsSent | functions/subscriptionEmails.js:220-232 | with the fix, a queued subscription mail goes out with its own subject and body |
| MailQueue.FixKeepsOriginalTypes | functions/index.js:54-94 | the fix changes nothing for the original types |
| MailQueue.StartOfDay | functions/index.js:127-128 | midnight of the day holding `now` |
| MailQueue.CheckDailyEmailLimit | functions/index.js:121-156 | nothing without `to` or a readable queue; otherwise a cancellation and a log with the count exactly when more than ten documents went to the address today |
| MailQueue.LimitAdmitsTenPerDay | functions/index.js:131-138 | counting itself, a document is cancelled exactly when ten or more preceded it today, so the eleventh is the first cancelled |
| MailQueue.CountTodayGrows | functions/index.js:131-135 | adding documents to the queue never lowers today's count for an address |
| MailQueue.MoreMailKeepsCancelled | functions/index.js:131-138 | more documents never lift a cancellation |
| MailQueue.RateLimitOtp | functions/index.js:184-226 | a failing query does nothing; otherwise the new record is deleted and logged exactly when more than five records for the address are under an hour old |
| MailQueue.KeyedByAddressNeverLimited | functions/index.js:185-204 | when records live under their own address, at most one matches and the limit never fires |
| MailQueue.CleanupOldOtps | functions/index.js:159-181 | a failed query or commit deletes nothing; otherwise exactly the records created over an hour ago are deleted, and the rest are unchanged |
| MailQueue.CleanupIdempotent | functions/index.js:159-181 | a second cleanup at the same time deletes nothing more |
| MailQueue.CleanupKeepsRecentAttempts | functions/index.js:163-200 | cleanup never removes a record the rate limit counts at the same time or later |
| MailQueue.CustomPasswordReset | functions/index.js:277-344 | an invalid address is refused first; `not-found` exactly when Auth does not know the address; success exactly when every step works; the mail goes to the address; the log is written exactly on success |
| MailQueue.ResetMailRendered | functions/index.js:296-315 | with the account found and the link generated, the mail goes to the address as the reset template of the profile's, else the request's, language, filled with the profile's name (or `User`) and the link |
| MailQueue.ResetMailCarriesLink | functions/templates/passwordReset.js:93-125 | in every language, the rendered mail holds the link as the button's target and as text, and greets the user by name |
| MailQueue.ProfileLanguageWins | functions/index.js:304-305 | a profile's preferred language decides the mail, whatever the request asked |
| MailQueue.CheckEmailExists | functions/index.js:346-395 | an invalid address is refused; found exactly when Auth or a `users` document knows it; the location says which; Auth and query failures are the internal error |
| MailQueue.UnknownAddressCannotReset | functions/index.js:358-371 | with the same Auth answer, an address reported as unknown is refused by the reset as unknown |
| MailQueue.ProfileOnlyAddressCannotReset | functions/index.js:374-386 | an address known only from `users` exists for the check, yet the reset (lines 338-340) says no account |
| DeviceLogout.GetDeviceLogoutContent | functions/deviceLogout.js:14-39 | a supported code gives its own text, anything else the English text |
| DeviceLogout.SendDeviceLogoutNotification | functions/deviceLogout.js:45-140 | authentication first, then the token, then the platform; the message goes to the old token with `device_logout` data; an accepted send returns success with the message id; expired-token codes return `token_expired`; any other send error throws `internal` with the fixed message |
| DeviceLogout.SupportedLanguageGetsItsText | functions/deviceLogout.js:72-77 | each supported code, given exactly, picks its own text |
| DeviceLogout.UppercaseLanguageGetsEnglish | functions/deviceLogout.js:72-77 | `TR` gets English text, though `normalizeLanguage` would give Turkish |
| DeviceLogout.MessageIndependentOfAnswer | functions/deviceLogout.js:84-117 | the message sent does not depend on the messaging service's answer |

## Left out

- Template getters and `getLocalizedContent` look keys up as own entries only. In JavaScript, `templates[lang]` or `titles[lang]` with an inherited key such as `constructor` yields the prototype's value rather than the English entry. The mail getters are only called with normalised or filtered codes; the individual push path passes the unnormalised `preferredLanguage`, where such a key is not modelled.
- I/O: Firestore, FCM, SMTP (nodemailer) and Firebase Auth calls are not made. Their answers are parameters (`Snapshot`, `send`, `Delivery`, `AuthLookup`, `SendAnswer`), and server timestamps are left out.
- Concurrency: `checkDailyEmailLimit` and `sendEmailFromQueue` run on the same new document at the same time. The model treats them separately, so a cancellation that lands after the send is not represented.
- `onFeedbackCreated` and the `sendEmail` helper (functions/index.js:231-274) are outside the modelled core.
- Template styling is left out: CSS, the header logo, the support footer and the copyright line with the current year.
- Template text without parameters is partly left out: the signature paragraph of the welcome, started, expired, payment-failed, trial-ending and plan-changed mails (e.g. templates/planChanged.js:146), the payment-failed alert box and closing paragraph (templates/paymentFailed.js:137-139), and the trial-ending highlight box and cancel paragraph (templates/trialEnding.js:137-139). No modelled property depends on them.
- Calendar.TomorrowWindow: `setHours` works in the server's local time zone (functions/subscriptionEmails.js:490-493); the model reads it as UTC, which is what a Cloud Functions server runs in. Under another zone the window would shift by the zone offset.
- MailQueue.StartOfDay: the same `setHours` reading (functions/index.js:128) is modelled as UTC midnight.
- Android and APNs delivery options of push messages are left out; they are constants.
- Mail `from` addresses and the `metadata` fields of queued mails are left out.
- Strings.ToLower: folds ASCII letters only. A non-ASCII character never lower-cases into a supported code, so `normalizeLanguage` is unaffected.
- SubscriptionEmails.FormatDate: `toLocaleDateString` is the `render` parameter, because locale data is not available to the model.
- SubscriptionEmails.CheckTrialEnding: `expires_date` parsing is represented by an already-parsed `Option<int>`, with absent, empty and unparseable all `None`. Times before 1970 are not modelled. The reminder-marker reads and writes are assumed to succeed.
- PushNotifications.OnPushNotificationCreated: the user document read is assumed to succeed. Failures of the status update and of the log write after sending are not modelled.
- MailQueue.RateLimitOtp: the delete and the security-log write are assumed to succeed.
- MailQueue.CheckDailyEmailLimit: the cancellation and security-log writes are assumed to succeed.
- MailQueue.CustomPasswordReset: a failing Firestore read is a plain internal error rather than a coded error. No such code equals `auth/user-not-found`, so the outcome is the same.
- JavaScript values of unexpected types (a number in `code`, a non-string `to`) are treated as absent.

## Findings

| source | as written | input that shows it | evidently intended | confidence | as-written member | corrected member |
|---|---|---|---|---|---|---|
| functions/subscriptionEmails.js:24-31 | the four event handlers call `getSubscriptionStartedTemplate`, `getSubscriptionExpiredTemplate`, `getPaymentFailedTemplate` and `getPlanChangedTemplate`, destructured from `./templates`, whose index exports only the OTP, welcome and password-reset getters (functions/templates/index.js:25-32) | an `INITIAL_PURCHASE` event for a user with an email: the handler calls `undefined`, the catch records `getSubscriptionStartedTemplate is not a function`, and nothing is queued or marked | each handler renders its template and queues the mail | not executed | SubscriptionEmails.OnRevenueCatEventAsWritten, SubscriptionEmails.AsWrittenNeverQueues | SubscriptionEmails.OnRevenueCatEvent |
| functions/subscriptionEmails.js:550 | the trial scan calls `getTrialEndingTemplate`, imported from the same index, which does not export it | a customer with a `trial` subscription expiring tomorrow: the first due trial throws, the outer catch ends the run, and no reminder is queued | one reminder per due trial, marked by its key | not executed | SubscriptionEmails.CheckTrialEndingAsWritten, SubscriptionEmails.AsWrittenTrialScanQueuesNothing, SubscriptionEmails.AsWrittenCompletesOnlyWhenNothingIsDue | SubscriptionEmails.CheckTrialEnding, SubscriptionEmails.CheckTrialEndingRemindsExactlyTheDue |
| functions/index.js:54-63 | the sender admits only `otp`, `welcome`, `password_reset` and `password_reset_custom`, while the subscription handlers queue their mails for this sender (functions/subscriptionEmails.js:17,222-226) | a queued `subscription_started` document with a valid address is marked `Invalid email type` and never sent | subscription mails are sent with the subject and body they carry | not executed | MailQueue.SendEmailFromQueue, MailQueue.SubscriptionMailsRejected | MailQueue.SendEmailFromQueueFixed, MailQueue.QueuedSubscriptionMailIsSent |

=== FILE: calendar.dfy ===
/** The UTC calendar date of a millisecond timestamp and its `YYYY-MM-DD` form, as
    `new Date(ms).toISOString().split('T')[0]` produces it for the trial reminder
    key (functions/subscriptionEmails.js). Timestamps are at or after the epoch. */
module Calendar {
  import opened Strings

  const DayMs: nat := 86_400_000
  /** The largest time value a JavaScript `Date` can hold. */
  const MaxTimeMs: nat := 8_640_000_000_000_000
  const EpochYear: nat := 1970

  datatype Date = Date(year: nat, month: nat, day: nat)

  predicate IsLeap(y: nat) {
    y % 4 == 0 && (y % 100 != 0 || y % 400 == 0)
  }

  function DaysInYear(y: nat): nat {
    if IsLeap(y) then 366 else 365
  }

  function DaysInMonth(y: nat, m: nat): nat {
    if m == 2 then (if IsLeap(y) then 29 else 28)
    else if m == 4 || m == 6 || m == 9 || m == 11 then 30
    else 31
  }

  predicate Valid(d: Date) {
    d.year >= EpochYear && 1 <= d.month <= 12 && 1 <= d.day <= DaysInMonth(d.year, d.month)
  }

  /** The days of the months `a` up to but excluding `b` of year `y`. */
  function MonthSpan(y: nat, a: nat, b: nat): nat
    decreases b - a
  {
    if a >= b then 0 else DaysInMonth(y, a) + MonthSpan(y, a + 1, b)
  }

  /** The days of the years `a` up to but excluding `b`. */
  function YearSpan(a: nat, b: nat): nat
    decreases b - a
  {
    if a >= b then 0 else DaysInYear(a) + YearSpan(a + 1, b)
  }

  /** The date `days` days into year `y`, counting from month `m`. */
  function MonthDay(y: nat, m: nat, days: nat): Date
    requires 1 <= m <= 12
    decreases 12 - m
  {
    if m == 12 || days < DaysInMonth(y, m) then Date(y, m, days + 1)
    else MonthDay(y, m + 1, days - DaysInMonth(y, m))
  }

  /** The date `days` days after the first of January of year `y`. */
  function CivilFromDays(days: nat, y: nat): Date
    decreases days
  {
    if days < DaysInYear(y) then MonthDay(y, 1, days)
    else CivilFromDays(days - DaysInYear(y), y + 1)
  }

  /** The UTC date of a timestamp. */
  function DateOf(ms: nat): Date {
    CivilFromDays(ms / DayMs, EpochYear)
  }

  /** The number of days from 1970-01-01 to `d`: the inverse of `CivilFromDays`. */
  function DayNumber(d: Date): int {
    YearSpan(EpochYear, d.year) + MonthSpan(d.year, 1, d.month) + d.day - 1
  }

  lemma {:induction false} MonthSpanYear(y: nat)
    ensures MonthSpan(y, 1, 13) == DaysInYear(y)
  {
    assert MonthSpan(y, 13, 13) == 0;
    assert MonthSpan(y, 12, 13) == 31;
    assert MonthSpan(y, 11, 13) == 61;
    assert MonthSpan(y, 10, 13) == 92;
    assert MonthSpan(y, 9, 13) == 122;
    assert MonthSpan(y, 8, 13) == 153;
    assert MonthSpan(y, 7, 13) == 184;
    assert MonthSpan(y, 6, 13) == 214;
    assert MonthSpan(y, 5, 13) == 245;
    assert MonthSpan(y, 4, 13) == 275;
    assert MonthSpan(y, 3, 13) == 306;
  }

  lemma {:induction false} MonthSpanSplit(y: nat, a: nat, b: nat, c: nat)
    requires a <= b <= c
    ensures MonthSpan(y, a, c) == MonthSpan(y, a, b) + MonthSpan(y, b, c)
    decreases b - a
  {
    if a < b {
      MonthSpanSplit(y, a + 1, b, c);
    }
  }

  lemma {:induction false} MonthDayCorrect(y: nat, m: nat, days: nat)
    requires 1 <= m <= 12 && days < MonthSpan(y, m, 13)
    ensures var d := MonthDay(y, m, days);
      && d.year == y && m <= d.month <= 12 && 1 <= d.day <= DaysInMonth(y, d.month)
      && MonthSpan(y, m, d.month) + d.day - 1 == days
    decreases 12 - m
  {
    if m == 12 || days < DaysInMonth(y, m) {
      assert MonthSpan(y, m, m) == 0;
      if m == 12 {
        assert MonthSpan(y, 13, 13) == 0;
      }
    } else {
      MonthDayCorrect(y, m + 1, days - DaysInMonth(y, m));
    }
  }

  lemma {:induction false} CivilFromDaysCorrect(days: nat, y: nat)
    ensures var d := CivilFromDays(days, y);
      && d.year >= y && 1 <= d.month <= 12 && 1 <= d.day <= DaysInMonth(d.year, d.month)
      && YearSpan(y, d.year) + MonthSpan(d.year, 1, d.month) + d.day - 1 == days
    decreases days
  {
    if days < DaysInYear(y) {
      MonthSpanYear(y);
      MonthDayCorrect(y, 1, days);
      assert YearSpan(y, y) == 0;
    } else {
      CivilFromDaysCorrect(days - DaysInYear(y), y + 1);
    }
  }

  /** Every day number names a valid date, and counting the days back to the epoch
      gives the day number again. */
  lemma DateOfRoundTrip(days: nat)
    ensures Valid(CivilFromDays(days, EpochYear))
    ensures DayNumber(CivilFromDays(days, EpochYear)) == days
  {
    CivilFromDaysCorrect(days, EpochYear);
  }

  lemma {:induction false} MonthDayInverse(y: nat, m: nat, d: Date)
    requires 1 <= m <= d.month <= 12 && d.year == y && 1 <= d.day <= DaysInMonth(y, d.month)
    ensures MonthDay(y, m, MonthSpan(y, m, d.month) + d.day - 1) == d
    decreases 12 - m
  {
    if m < d.month {
      MonthSpanSplit(y, m, m + 1, d.month);
      assert MonthSpan(y, m, m + 1) == DaysInMonth(y, m) by {
        assert MonthSpan(y, m + 1, m + 1) == 0;
      }
      MonthDayInverse(y, m + 1, d);
    } else {
      assert MonthSpan(y, m, m) == 0;
    }
  }

  lemma {:induction false} MonthSpanBelowYear(y: nat, month: nat, day: nat)
    requires 1 <= month <= 12 && 1 <= day <= DaysInMonth(y, month)
    ensures MonthSpan(y, 1, month) + day - 1 < DaysInYear(y)
  {
    MonthSpanYear(y);
    MonthSpanSplit(y, 1, month, 13);
    MonthSpanSplit(y, month, month + 1, 13);
    assert MonthSpan(y, month, month + 1) == DaysInMonth(y, month) by {
      assert MonthSpan(y, month + 1, month + 1) == 0;
    }
  }

  lemma {:induction false} CivilFromDaysInverse(y: nat, d: Date)
    requires y <= d.year && 1 <= d.month <= 12 && 1 <= d.day <= DaysInMonth(d.year, d.month)
    ensures CivilFromDays(YearSpan(y, d.year) + MonthSpan(d.year, 1, d.month) + d.day - 1, y) == d
    decreases d.year - y
  {
    var rest := MonthSpan(d.year, 1, d.month) + d.day - 1;
    MonthSpanBelowYear(d.year, d.month, d.day);
    if y == d.year {
      assert YearSpan(y, y) == 0;
      MonthDayInverse(y, 1, d);
      assert MonthSpan(y, 1, 1) == 0;
    } else {
      CivilFromDaysInverse(y + 1, d);
    }
  }

  /** Every valid date is the date of its own day number. */
  lemma DayNumberRoundTrip(d: Date)
    requires Valid(d)
    ensures DayNumber(d) >= 0 && CivilFromDays(DayNumber(d), EpochYear) == d
  {
    CivilFromDaysInverse(EpochYear, d);
  }

  /** The ISO 8601 year: four digits, or a sign and six digits beyond year 9999. */
  function IsoYear(y: nat): string {
    if y <= 9999 then PadDecimal(y, 4) else "+" + PadDecimal(y, 6)
  }

  /** The date part of `toISOString()`. */
  function IsoDate(d: Date): string {
    IsoYear(d.year) + "-" + PadDecimal(d.month, 2) + "-" + PadDecimal(d.day, 2)
  }

  lemma {:induction false} DecimalLength(n: nat, width: nat, bound: nat)
    requires width >= 1 && bound == Pow10(width) && n < bound
    ensures |DecimalString(n)| <= width
    decreases width
  {
    if n >= 10 {
      DecimalLength(n / 10, width - 1, Pow10(width - 1));
    }
  }

  function Pow10(k: nat): nat {
    if k == 0 then 1 else 10 * Pow10(k - 1)
  }

  /** Dates of years up to 9999 print as `YYYY-MM-DD`. */
  lemma IsoDateShape(d: Date)
    requires Valid(d) && d.year <= 9999
    ensures |IsoDate(d)| == 10 && IsoDate(d)[4] == '-' && IsoDate(d)[7] == '-'
  {
    assert Pow10(4) == 10000 && Pow10(2) == 100;
    DecimalLength(d.year, 4, 10000);
    DecimalLength(d.month, 2, 100);
    DecimalLength(d.day, 2, 100);
  }

  /** The epoch day is 1970-01-01. */
  lemma EpochDate()
    ensures DateOf(0) == Date(1970, 1, 1)
  {
  }

  /** Midnight at the start of the day after `now`. */
  function TomorrowStart(now: nat): nat {
    now - now % DayMs + DayMs
  }

  /** The last millisecond of the day after `now`. */
  function TomorrowEnd(now: nat): nat {
    TomorrowStart(now) + DayMs - 1
  }

  /** A time lies in the inclusive span of tomorrow exactly when its day number is
      one past today's. */
  lemma TomorrowWindow(now: nat, t: int)
    ensures TomorrowStart(now) <= t <= TomorrowEnd(now) <==> t / DayMs == now / DayMs + 1
  {
    var today := now / DayMs;
    assert TomorrowStart(now) == (today + 1) * DayMs;
    if TomorrowStart(now) <= t <= TomorrowEnd(now) {
      assert (today + 1) * DayMs <= t < (today + 2) * DayMs;
    }
    if t / DayMs == today + 1 {
      assert t == (today + 1) * DayMs + t % DayMs;
    }
  }

  /** `now + 1 day` lies on the date after `now`'s. */
  lemma TomorrowIsNextDay(now: nat)
    ensures DateOf(now + DayMs) == CivilFromDays(now / DayMs + 1, EpochYear)
  {
    assert (now + DayMs) / DayMs == now / DayMs + 1;
  }
}

=== FILE: device_logout.dfy ===
/** The device-logout callable (functions/deviceLogout.js): when a user signs in on a
    new device, the app asks for a push to the old device's token. The caller's
    authentication, the request fields, the clock and the messaging service's answer
    are inputs. */
module DeviceLogout {
  import opened Wrappers
  import opened Strings
  import opened Languages

  /** The title and body of the notification. */
  datatype Content = Content(title: string, body: string)

  /** `DEVICE_LOGOUT_TEXTS[l]`. */
  function Texts(l: Lang): Content {
    match l
    case En => Content(
      "New Login Detected",
      "Your account was signed in from another device. If this wasn't you, please change your password.")
    case Tr => Content(
      "Yeni Cihaz Girişi",
      "Hesabınıza başka bir cihazdan giriş yapıldı. Siz değilseniz şifrenizi değiştirin.")
    case Ru => Content(
      "Новый вход в аккаунт",
      "В ваш аккаунт вошли с другого устройства. Если это не вы, смените пароль.")
    case Hi => Content(
      "नया लॉगिन",
      "आपके खाते में दूसरे डिवाइस से लॉगिन हुआ। अगर यह आप नहीं थे, तो पासवर्ड बदलें।")
  }

  /** `getDeviceLogoutContent(lang)`: the text of a supported code, English otherwise. */
  function GetDeviceLogoutContent(lang: string): (c: Content)
    ensures lang in SupportedLanguages ==> c == Texts(LangOf(lang).value)
    ensures lang !in SupportedLanguages ==> c == Texts(En)
  {
    Texts(EntryLang(lang))
  }

  /** The platforms a request may name. */
  const Platforms: seq<string> := ["ios", "android"]

  /** The messaging error codes that mean the old token is no longer valid. */
  const ExpiredTokenCodes: seq<string> :=
    ["messaging/invalid-registration-token", "messaging/registration-token-not-registered"]

  /** The fields of the call's `data`; a field that is absent or not a string is
      `None`. */
  datatype Request = Request(oldToken: Option<string>, platform: Option<string>, language: Option<string>)

  /** The message sent to the old device; Android and APNs delivery options are
      constants and left out. */
  datatype LogoutMessage = LogoutMessage(token: string, content: Content, data: map<string, string>)

  /** The messaging service's answer: a message id, or an error code. */
  datatype SendAnswer = Accepted(messageId: string) | SendFailed(code: string)

  /** The returned object: `{success, messageId}` or `{success, reason}`. */
  datatype LogoutReply = LogoutReply(success: bool, messageId: Option<string>, reason: Option<string>)

  datatype LogoutOutcome = LogoutOutcome(message: Option<LogoutMessage>, reply: CallResult<LogoutReply>)

  predicate ValidPlatform(platform: Option<string>) {
    platform.Some? && platform.value in Platforms
  }

  /** `sendDeviceLogoutNotification`, called at `now` by `callerUid` (absent when the
      call is unauthenticated). */
  function SendDeviceLogoutNotification(callerUid: Option<string>, req: Request, now: nat, answer: SendAnswer): (r: LogoutOutcome)
    ensures callerUid.None? ==>
      r == LogoutOutcome(None, Throws("unauthenticated", "User must be authenticated to call this function."))
    ensures callerUid.Some? && !Truthy(req.oldToken) ==>
      r == LogoutOutcome(None, Throws("invalid-argument", "oldToken is required and must be a string."))
    ensures callerUid.Some? && Truthy(req.oldToken) && !ValidPlatform(req.platform) ==>
      r == LogoutOutcome(None, Throws("invalid-argument", "platform must be \"ios\" or \"android\"."))
    ensures r.message.Some? <==> callerUid.Some? && Truthy(req.oldToken) && ValidPlatform(req.platform)
    ensures r.message.Some? ==>
      && r.message.value.token == req.oldToken.value
      && r.message.value.content == GetDeviceLogoutContent(ExactLanguage(req.language))
      && r.message.value.data == map["type" := "device_logout", "timestamp" := DecimalString(now)]
    ensures (r.reply.Returns? && r.reply.value.success) <==> r.message.Some? && answer.Accepted?
    ensures r.reply.Returns? && r.reply.value.success ==> r.reply.value.messageId == Some(answer.messageId)
    ensures r.reply == Returns(LogoutReply(false, None, Some("token_expired"))) <==>
      (r.message.Some? && answer.SendFailed? && answer.code in ExpiredTokenCodes)
    ensures r.reply.Throws? ==> r.reply.code in {"unauthenticated", "invalid-argument", "internal"}
    ensures r.message.Some? && answer.Accepted? ==> r.reply == Returns(LogoutReply(true, Some(answer.messageId), None))
    ensures r.message.Some? && answer.SendFailed? && answer.code !in ExpiredTokenCodes ==>
      r.reply == Throws("internal", "Failed to send device logout notification.")
  {
    if callerUid.None? then
      LogoutOutcome(None, Throws("unauthenticated", "User must be authenticated to call this function."))
    else if !Truthy(req.oldToken) then
      LogoutOutcome(None, Throws("invalid-argument", "oldToken is required and must be a string."))
    else if !ValidPlatform(req.platform) then
      LogoutOutcome(None, Throws("invalid-argument", "platform must be \"ios\" or \"android\"."))
    else
      var content := GetDeviceLogoutContent(ExactLanguage(req.language));
      var message := LogoutMessage(req.oldToken.value, content,
        map["type" := "device_logout", "timestamp" := DecimalString(now)]);
      match answer
      case Accepted(id) => LogoutOutcome(Some(message), Returns(LogoutReply(true, Some(id), None)))
      case SendFailed(code) =>
        if code in ExpiredTokenCodes then
          LogoutOutcome(Some(message), Returns(LogoutReply(false, None, Some("token_expired"))))
        else
          LogoutOutcome(Some(message), Throws("internal", "Failed to send device logout notification."))
  }

  /** Each supported code, given exactly, picks its own text. */
  lemma SupportedLanguageGetsItsText(l: Lang, callerUid: string, req: Request, now: nat, answer: SendAnswer)
    requires req.language == Some(Code(l)) && Truthy(req.oldToken) && ValidPlatform(req.platform)
    ensures SendDeviceLogoutNotification(Some(callerUid), req, now, answer).message.value.content == Texts(l)
  {
    CodeRoundTrip(l, Code(l));
  }

  /** Unlike the email handlers, the callable neither folds case nor trims: `TR`
      gets the English text. */
  lemma UppercaseLanguageGetsEnglish(callerUid: string, req: Request, now: nat, answer: SendAnswer)
    requires req.language == Some("TR") && Truthy(req.oldToken) && ValidPlatform(req.platform)
    ensures SendDeviceLogoutNotification(Some(callerUid), req, now, answer).message.value.content == Texts(En)
    ensures NormalizeLanguage(req.language) == "tr"
  {
    ExactLanguageIsCaseSensitive();
  }

  /** Which answer the messaging service gives changes only the reply: the same
      message goes out either way. */
  lemma MessageIndependentOfAnswer(callerUid: Option<string>, req: Request, now: nat, a1: SendAnswer, a2: SendAnswer)
    ensures SendDeviceLogoutNotification(callerUid, req, now, a1).message ==
      SendDeviceLogoutNotification(callerUid, req, now, a2).message
  {
  }
}

=== FILE: languages.dfy ===
/** Language codes and their resolution (functions/templates/index.js). */
module Languages {
  import opened Wrappers
  import opened Strings

  /** The four languages every template table and text table has an entry for. */
  datatype Lang = En | Tr | Ru | Hi

  /** The table key of a language. */
  function Code(l: Lang): string {
    match l
    case En => "en"
    case Tr => "tr"
    case Ru => "ru"
    case Hi => "hi"
  }

  const SupportedLanguages: seq<string> := ["en", "tr", "ru", "hi"]
  const DefaultLanguage: string := "en"

  /** Exact, case-sensitive key lookup of a code in a four-language table. */
  function LangOf(code: string): (r: Option<Lang>)
    ensures r.Some? <==> code in SupportedLanguages
    ensures r.Some? ==> Code(r.value) == code
  {
    if code == "en" then Some(En)
    else if code == "tr" then Some(Tr)
    else if code == "ru" then Some(Ru)
    else if code == "hi" then Some(Hi)
    else None
  }

  /** Codes and table entries are in one-to-one correspondence. */
  lemma CodeRoundTrip(l: Lang, code: string)
    ensures LangOf(Code(l)) == Some(l)
    ensures LangOf(code) == Some(l) ==> Code(l) == code
  {
  }

  /** The entry a template table yields for `lang`: `table[lang] || table.en`. */
  function EntryLang(lang: string): (l: Lang)
    ensures LangOf(lang).Some? ==> l == LangOf(lang).value
    ensures LangOf(lang).None? ==> l == En
  {
    LangOf(lang).GetOr(En)
  }

  /** `normalizeLanguage`: absent, empty or non-string input yields the default;
      otherwise the lower-cased, trimmed input if it is supported, else the default. */
  function NormalizeLanguage(lang: Option<string>): (r: string)
    ensures r in SupportedLanguages
    ensures !Truthy(lang) ==> r == DefaultLanguage
    ensures Truthy(lang) && Trim(ToLower(lang.value)) in SupportedLanguages ==>
              r == Trim(ToLower(lang.value))
    ensures Truthy(lang) && Trim(ToLower(lang.value)) !in SupportedLanguages ==>
              r == DefaultLanguage
  {
    if !Truthy(lang) then DefaultLanguage
    else
      var normalized := Trim(ToLower(lang.value));
      if normalized in SupportedLanguages then normalized else DefaultLanguage
  }

  /** A supported code never changes under lower-casing and trimming. */
  lemma {:induction false} SupportedIsNormal(code: string)
    requires code in SupportedLanguages
    ensures Trim(ToLower(code)) == code
  {
    assert ToLower(code) == code;
    TrimFixed(code);
  }

  /** Every supported lower-case code maps to itself. */
  lemma {:induction false} NormalizeFixesSupported(l: Lang)
    ensures NormalizeLanguage(Some(Code(l))) == Code(l)
  {
    SupportedIsNormal(Code(l));
  }

  /** Normalising twice is normalising once. */
  lemma {:induction false} NormalizeIdempotent(lang: Option<string>)
    ensures NormalizeLanguage(Some(NormalizeLanguage(lang))) == NormalizeLanguage(lang)
  {
    SupportedIsNormal(NormalizeLanguage(lang));
  }

  /** Surrounding white space and upper case are ignored: `" TR "` yields `"tr"`. */
  lemma {:induction false} NormalizeTrimsAndLowers()
    ensures NormalizeLanguage(Some(" TR ")) == "tr"
  {
    assert LowerChar('T') == 't' && LowerChar('R') == 'r' && LowerChar(' ') == ' ';
    var lowered := ToLower(" TR ");
    assert lowered == " tr ";
    assert !IsJsSpace('t') && !IsJsSpace('r') && IsJsSpace(' ');
    assert TrimStart(lowered) == TrimStart("tr ") == "tr ";
    assert TrimEnd("tr ") == TrimEnd("tr") == "tr";
  }

  /** The device-logout pick: the language only when it is exactly a supported code
      (no case folding, no trimming), else English. */
  function ExactLanguage(language: Option<string>): (r: string)
    ensures r in SupportedLanguages
    ensures language.Some? && language.value in SupportedLanguages ==> r == language.value
    ensures (language.None? || language.value !in SupportedLanguages) ==> r == DefaultLanguage
  {
    if Truthy(language) && language.value in SupportedLanguages then language.value else "en"
  }

  /** Unlike `NormalizeLanguage`, the exact pick does not fold case. */
  lemma ExactLanguageIsCaseSensitive()
    ensures ExactLanguage(Some("TR")) == "en"
    ensures NormalizeLanguage(Some("TR")) == "tr"
  {
    UpperTrUnsupported();
    NormalizeCaseExample();
  }

  lemma {:induction false} UpperTrUnsupported()
    ensures "TR" !in SupportedLanguages
  {
    var s := "TR";
    assert s[0] == 'T';
    assert s != "en" && s != "tr" && s != "ru" && s != "hi";
  }

  lemma {:induction false} NormalizeCaseExample()
    ensures NormalizeLanguage(Some("TR")) == "tr"
  {
    LowerTr();
    TrimTr();
  }

  lemma {:induction false} TrimTr()
    ensures Trim("tr") == "tr"
  {
    var s := "tr";
    assert s[0] == 't' && s[|s| - 1] == 'r';
    assert !IsJsSpace('t') && !IsJsSpace('r');
    TrimFixed(s);
  }

  lemma {:induction false} LowerTr()
    ensures ToLower("TR") == "tr"
  {
    var lowered := ToLower("TR");
    assert lowered[0] == LowerChar('T') == 't';
    assert lowered[1] == LowerChar('R') == 'r';
  }
}

=== FILE: mail_queue.dfy ===
/** The transactional mail path of functions/index.js: the `mail_queue` sender with
    its address check and type allow-list, the daily per-address limit, the OTP
    rate limit and hourly cleanup, the custom password reset and the account
    existence check. Store reads, the SMTP transport and Firebase Auth are answers
    passed in; the results are the writes and replies each handler makes. */
module MailQueue {
  import opened Wrappers
  import opened Strings
  import opened Languages
  import Calendar
  import Otp = OtpTemplate
  import Welcome = WelcomeTemplate
  import Reset = PasswordResetTemplate
  import Subscriptions = SubscriptionEmails

  // ------------------------------------------------------------ addresses

  /** A character of the address pattern's class `[^\s@]`. */
  predicate AddressChar(c: char) {
    !IsJsSpace(c) && c != '@'
  }

  /** The strings `/^[^\s@]+@[^\s@]+\.[^\s@]+$/` accepts, by the positions of the
      `@` (at `i`) and of a dot (at `j`): three non-empty runs of address
      characters around them. */
  ghost predicate MatchesEmailPattern(s: string) {
    exists i, j :: 0 < i && i + 1 < j < |s| - 1 && s[i] == '@' && s[j] == '.' &&
      (forall k :: 0 <= k < |s| && k != i ==> AddressChar(s[k]))
  }

  /** `isValidEmail(email)`: split at the first `@`; the local part is non-empty,
      no other character is `@` or white space, and the domain has a dot that is
      neither its first nor its last character. */
  function IsValidEmail(s: string): bool {
    var local := BeforeFirst(s, '@');
    && 0 < |local| < |s|
    && (forall k :: 0 <= k < |s| && k != |local| ==> AddressChar(s[k]))
    && var domain := s[|local| + 1..];
       |domain| >= 3 && '.' in domain[1..|domain| - 1]
  }

  /** An address the check accepts matches the regular expression. */
  lemma ValidEmailMatchesPattern(s: string)
    requires IsValidEmail(s)
    ensures MatchesEmailPattern(s)
  {
    var local := BeforeFirst(s, '@');
    var i := |local|;
    var domain := s[i + 1..];
    var inner := domain[1..|domain| - 1];
    var k :| 0 <= k < |inner| && inner[k] == '.';
    var j := i + 2 + k;
    assert s[j] == inner[k];
    assert s[i] == '@';
  }

  /** A string the regular expression matches passes the check. */
  lemma PatternMatchIsValidEmail(s: string)
    requires MatchesEmailPattern(s)
    ensures IsValidEmail(s)
  {
    var i, j :| 0 < i && i + 1 < j < |s| - 1 && s[i] == '@' && s[j] == '.' &&
      (forall k :: 0 <= k < |s| && k != i ==> AddressChar(s[k]));
    BeforeFirstAt(s, '@', i);
    var domain := s[i + 1..];
    assert domain[1..|domain| - 1][j - i - 2] == '.';
  }

  /** The address check accepts exactly the strings the regular expression matches. */
  lemma IsValidEmailMatchesPattern(s: string)
    ensures IsValidEmail(s) <==> MatchesEmailPattern(s)
  {
    if IsValidEmail(s) {
      ValidEmailMatchesPattern(s);
    }
    if MatchesEmailPattern(s) {
      PatternMatchIsValidEmail(s);
    }
  }

  /** `!x || !isValidEmail(x)` negated: a present, non-empty, well-formed address. */
  predicate AddressOk(to: Option<string>) {
    Truthy(to) && IsValidEmail(to.value)
  }

  // ------------------------------------------------------------ the sender

  /** The `type` values the sender delivers. */
  const AllowedTypes: seq<string> := ["otp", "welcome", "password_reset", "password_reset_custom"]

  /** The `type` values the subscription handlers queue. */
  const SubscriptionMailTypes: seq<string> :=
    ["subscription_started", "subscription_expired", "payment_failed", "plan_changed", "trial_ending"]

  /** The fields of a `mail_queue` document the sender reads; `templateUserName` is
      `template.data.userName`. */
  datatype MailDoc = MailDoc(
    to: Option<string>,
    mailType: Option<string>,
    lang: Option<string>,
    userName: Option<string>,
    code: Option<string>,
    templateUserName: Option<string>,
    subject: Option<string>,
    html: Option<string>)

  /** The message handed to the transport; an absent subject or body goes out as
      `undefined`. */
  datatype Outgoing = Outgoing(to: string, subject: Option<string>, html: Option<string>)

  /** The transport's answer to one `sendMail`. */
  datatype Delivery = Delivered(messageId: string) | Undelivered(message: string)

  /** The status written back onto the queued document. */
  datatype DocUpdate = MarkSent(messageId: string) | MarkError(error: string)

  datatype QueueResult = QueueResult(sent: Option<Outgoing>, update: DocUpdate)

  predicate TypeIn(mailType: Option<string>, types: seq<string>) {
    mailType.Some? && mailType.value in types
  }

  /** The message for an accepted document: the OTP and welcome types are rendered
      in `lang`, the normalised language; the password reset types get neither
      subject nor body. */
  function RenderQueued(doc: MailDoc, to: string, lang: string): (m: Outgoing)
    ensures m.to == to
    ensures m.subject.Some? <==> TypeIn(doc.mailType, ["otp", "welcome"])
    ensures m.html.Some? <==> m.subject.Some?
    ensures doc.mailType == Some("otp") ==> m.subject == Some(Otp.GetOtpTemplate(lang).subject)
    ensures doc.mailType == Some("welcome") ==> m.subject == Some(Welcome.GetWelcomeTemplate(lang).subject)
    ensures doc.mailType == Some("otp") ==>
      m.html == Some(Otp.Html(Otp.GetOtpTemplate(lang), OrElse(doc.userName, "User"), OrElse(doc.code, "")))
    ensures doc.mailType == Some("welcome") ==>
      m.html == Some(Welcome.Html(Welcome.GetWelcomeTemplate(lang), OrElse(doc.userName, OrElse(doc.templateUserName, "User"))))
  {
    if doc.mailType == Some("otp") then
      var t := Otp.GetOtpTemplate(lang);
      Outgoing(to, Some(t.subject), Some(Otp.Html(t, OrElse(doc.userName, "User"), OrElse(doc.code, ""))))
    else if doc.mailType == Some("welcome") then
      var t := Welcome.GetWelcomeTemplate(lang);
      Outgoing(to, Some(t.subject), Some(Welcome.Html(t, OrElse(doc.userName, OrElse(doc.templateUserName, "User")))))
    else
      Outgoing(to, None, None)
  }

  /** Hand `m` to the transport and record its answer. */
  function Deliver(m: Outgoing, delivery: Delivery): QueueResult {
    match delivery
    case Delivered(id) => QueueResult(Some(m), MarkSent(id))
    case Undelivered(message) => QueueResult(Some(m), MarkError(message))
  }

  /** `sendEmailFromQueue`: the address is checked before the type, and a rejected
      document is marked and never reaches the transport. */
  function SendEmailFromQueue(doc: MailDoc, delivery: Delivery): (r: QueueResult)
    ensures !AddressOk(doc.to) ==> r == QueueResult(None, MarkError("Invalid email address"))
    ensures AddressOk(doc.to) && !TypeIn(doc.mailType, AllowedTypes) ==>
      r == QueueResult(None, MarkError("Invalid email type"))
    ensures r.sent.Some? <==> AddressOk(doc.to) && TypeIn(doc.mailType, AllowedTypes)
    ensures r.sent.Some? ==> r.sent.value.to == doc.to.value
    ensures r.sent.Some? ==> (r.update.MarkSent? <==> delivery.Delivered?)
    ensures r.update.MarkSent? ==> delivery == Delivered(r.update.messageId)
    ensures r.sent.Some? && delivery.Undelivered? ==> r.update == MarkError(delivery.message)
    ensures r.sent.Some? ==> (r.sent.value.subject.Some? <==> TypeIn(doc.mailType, ["otp", "welcome"]))
  {
    if !AddressOk(doc.to) then QueueResult(None, MarkError("Invalid email address"))
    else if !TypeIn(doc.mailType, AllowedTypes) then QueueResult(None, MarkError("Invalid email type"))
    else Deliver(RenderQueued(doc, doc.to.value, NormalizeLanguage(doc.lang)), delivery)
  }

  /** An OTP mail is in the document's normalised language and carries its code in
      the code box, after a greeting to the user (or to `User`). */
  lemma OtpMailCarriesCode(doc: MailDoc, delivery: Delivery)
    requires AddressOk(doc.to) && doc.mailType == Some("otp")
    ensures var t := Otp.GetOtpTemplate(NormalizeLanguage(doc.lang));
      var m := SendEmailFromQueue(doc, delivery).sent;
      && m.Some? && m.value.subject == Some(t.subject) && m.value.html.Some?
      && Contains(m.value.html.value, Otp.CodeBox(OrElse(doc.code, "")))
      && Contains(m.value.html.value, t.greeting.lead + OrElse(doc.userName, "User"))
  {
    var lang := NormalizeLanguage(doc.lang);
    var t := Otp.GetOtpTemplate(lang);
    AcceptedIsRendered(doc, delivery);
    Otp.HtmlEmbedsUserNameAndCode(t, OrElse(doc.userName, "User"), OrElse(doc.code, ""));
  }

  /** A welcome mail without a `userName` greets the name under `template.data`. */
  lemma WelcomeFallsBackToTemplateName(doc: MailDoc, delivery: Delivery)
    requires AddressOk(doc.to) && doc.mailType == Some("welcome")
    requires !Truthy(doc.userName) && Truthy(doc.templateUserName)
    ensures var t := Welcome.GetWelcomeTemplate(NormalizeLanguage(doc.lang));
      var m := SendEmailFromQueue(doc, delivery).sent;
      && m.Some? && m.value.html.Some?
      && Contains(m.value.html.value, t.greeting.lead + doc.templateUserName.value)
  {
    var lang := NormalizeLanguage(doc.lang);
    var t := Welcome.GetWelcomeTemplate(lang);
    AcceptedIsRendered(doc, delivery);
    Welcome.HtmlEmbedsUserName(t, doc.templateUserName.value);
  }

  /** The name a welcome mail should greet: the document's `userName`, else the
      name under `template.data`, else `User`. */
  function WelcomeName(doc: MailDoc): string {
    if Truthy(doc.userName) then doc.userName.value
    else if Truthy(doc.templateUserName) then doc.templateUserName.value
    else "User"
  }

  /** The welcome greeting names, in order of preference, the document's
      `userName`, the name under `template.data`, and otherwise `User`. */
  lemma WelcomeGreetsByPreference(doc: MailDoc, delivery: Delivery)
    requires AddressOk(doc.to) && doc.mailType == Some("welcome")
    ensures var t := Welcome.GetWelcomeTemplate(NormalizeLanguage(doc.lang));
      var name := WelcomeName(doc);
      && SendEmailFromQueue(doc, delivery).sent == Some(Outgoing(doc.to.value, Some(t.subject), Some(Welcome.Html(t, name))))
      && Contains(Welcome.Html(t, name), t.greeting.lead + name)
  {
    var lang := NormalizeLanguage(doc.lang);
    var t := Welcome.GetWelcomeTemplate(lang);
    var name := OrElse(doc.userName, OrElse(doc.templateUserName, "User"));
    assert name == WelcomeName(doc);
    AcceptedIsRendered(doc, delivery);
    assert RenderQueued(doc, doc.to.value, lang).html == Some(Welcome.Html(t, name));
    Welcome.HtmlEmbedsUserName(t, name);
  }

  lemma AcceptedIsRendered(doc: MailDoc, delivery: Delivery)
    requires AddressOk(doc.to) && TypeIn(doc.mailType, AllowedTypes)
    ensures SendEmailFromQueue(doc, delivery).sent == Some(RenderQueued(doc, doc.to.value, NormalizeLanguage(doc.lang)))
  {
  }

  /** The document `queueEmail` writes for a subscription mail. */
  function QueuedDoc(m: Subscriptions.Mail): MailDoc {
    MailDoc(Some(m.to), Some(m.mailType), Some(m.lang), None, None, None, Some(m.subject), Some(m.html))
  }

  /** Every mail the subscription handlers queue is turned away by the sender's
      allow-list: it is marked `Invalid email type` and never sent. */
  lemma SubscriptionMailsRejected(m: Subscriptions.Mail, delivery: Delivery)
    requires m.mailType in SubscriptionMailTypes && AddressOk(Some(m.to))
    ensures SendEmailFromQueue(QueuedDoc(m), delivery) == QueueResult(None, MarkError("Invalid email type"))
  {
    assert m.mailType !in AllowedTypes;
  }

  /** The sender with the subscription types admitted: their documents already hold
      the rendered subject and body, which are sent as they are. */
  function SendEmailFromQueueFixed(doc: MailDoc, delivery: Delivery): (r: QueueResult)
    ensures !AddressOk(doc.to) ==> r == QueueResult(None, MarkError("Invalid email address"))
    ensures r.sent.Some? <==>
      AddressOk(doc.to) && (TypeIn(doc.mailType, AllowedTypes) || TypeIn(doc.mailType, SubscriptionMailTypes))
    ensures r.update.MarkSent? ==> delivery == Delivered(r.update.messageId)
  {
    if AddressOk(doc.to) && TypeIn(doc.mailType, SubscriptionMailTypes) then
      Deliver(Outgoing(doc.to.value, doc.subject, doc.html), delivery)
    else
      SendEmailFromQueue(doc, delivery)
  }

  /** With the fix, a queued subscription mail goes out with its own subject and body. */
  lemma QueuedSubscriptionMailIsSent(m: Subscriptions.Mail, id: string)
    requires m.mailType in SubscriptionMailTypes && AddressOk(Some(m.to))
    ensures SendEmailFromQueueFixed(QueuedDoc(m), Delivered(id)) ==
      QueueResult(Some(Outgoing(m.to, Some(m.subject), Some(m.html))), MarkSent(id))
  {
  }

  /** The fix changes nothing for the four original types. */
  lemma FixKeepsOriginalTypes(doc: MailDoc, delivery: Delivery)
    requires !TypeIn(doc.mailType, SubscriptionMailTypes)
    ensures SendEmailFromQueueFixed(doc, delivery) == SendEmailFromQueue(doc, delivery)
  {
  }

  // ------------------------------------------------------------ daily limit

  /** More than this many documents to one address since midnight cancel the newest. */
  const DailyLimit: nat := 10

  /** The fields of a `mail_queue` document the daily count filters on. */
  datatype QueueEntry = QueueEntry(to: Option<string>, createdAt: Option<int>)

  datatype LimitEffect = Cancel(error: string) | DailyLimitLog(email: string, count: nat)

  /** Midnight (UTC, the functions' zone) at the start of the day holding `now`. */
  function StartOfDay(now: int): (r: int)
    ensures r <= now < r + Calendar.DayMs
    ensures r % Calendar.DayMs == 0
  {
    now - now % Calendar.DayMs
  }

  predicate CountsToday(e: QueueEntry, to: string, start: int) {
    e.to == Some(to) && e.createdAt.Some? && e.createdAt.value >= start
  }

  /** The size of the query `to == to && createdAt >= start`. */
  function CountToday(queue: seq<QueueEntry>, to: string, start: int): (n: nat)
    ensures n <= |queue|
  {
    if |queue| == 0 then 0
    else CountToday(queue[..|queue| - 1], to, start) + (if CountsToday(queue[|queue| - 1], to, start) then 1 else 0)
  }

  lemma CountTodayAppend(queue: seq<QueueEntry>, e: QueueEntry, to: string, start: int)
    ensures CountToday(queue + [e], to, start) ==
      CountToday(queue, to, start) + (if CountsToday(e, to, start) then 1 else 0)
  {
    assert (queue + [e])[..|queue|] == queue;
  }

  lemma {:induction false} CountTodayGrows(queue: seq<QueueEntry>, extra: seq<QueueEntry>, to: string, start: int)
    ensures CountToday(queue + extra, to, start) >= CountToday(queue, to, start)
    decreases |extra|
  {
    if |extra| > 0 {
      var front := extra[..|extra| - 1];
      var last := extra[|extra| - 1];
      assert queue + extra == (queue + front) + [last];
      CountTodayAppend(queue + front, last, to, start);
      assert CountToday(queue + extra, to, start) >= CountToday(queue + front, to, start);
      CountTodayGrows(queue, front, to, start);
    } else {
      assert queue + extra == queue;
    }
  }

  /** `checkDailyEmailLimit`: a query that cannot run (no `to`, store unavailable)
      leaves the document alone; otherwise more than `DailyLimit` documents today
      cancel it and log the count. */
  function CheckDailyEmailLimit(doc: MailDoc, queue: Snapshot<seq<QueueEntry>>, now: int): (r: seq<LimitEffect>)
    ensures doc.to.None? || queue.Unavailable? ==> r == []
    ensures doc.to.Some? && queue.Read? ==>
      (r != [] <==> CountToday(queue.value, doc.to.value, StartOfDay(now)) > DailyLimit)
    ensures r != [] ==>
      (doc.to.Some? && queue.Read? && r ==
       [Cancel("Daily email limit exceeded"), DailyLimitLog(doc.to.value, CountToday(queue.value, doc.to.value, StartOfDay(now)))])
  {
    if doc.to.None? || queue.Unavailable? then []
    else
      var n := CountToday(queue.value, doc.to.value, StartOfDay(now));
      if n > DailyLimit then [Cancel("Daily email limit exceeded"), DailyLimitLog(doc.to.value, n)] else []
  }

  /** The new document counts itself: after `k` earlier documents to the same
      address today, it is cancelled exactly when `k` is at least ten, so the
      eleventh of the day is the first to go. */
  lemma LimitAdmitsTenPerDay(doc: MailDoc, earlier: seq<QueueEntry>, createdAt: int, now: int)
    requires doc.to.Some? && StartOfDay(now) <= createdAt
    ensures var k := CountToday(earlier, doc.to.value, StartOfDay(now));
      var r := CheckDailyEmailLimit(doc, Read(earlier + [QueueEntry(doc.to, Some(createdAt))]), now);
      && (r != [] <==> k >= DailyLimit)
      && (r != [] ==> r[1] == DailyLimitLog(doc.to.value, k + 1))
  {
    CountTodayAppend(earlier, QueueEntry(doc.to, Some(createdAt)), doc.to.value, StartOfDay(now));
  }

  /** Later documents never lift a cancellation: the count only grows. */
  lemma MoreMailKeepsCancelled(doc: MailDoc, queue: seq<QueueEntry>, extra: seq<QueueEntry>, now: int)
    requires CheckDailyEmailLimit(doc, Read(queue), now) != []
    ensures CheckDailyEmailLimit(doc, Read(queue + extra), now) != []
  {
    CountTodayGrows(queue, extra, doc.to.value, StartOfDay(now));
  }

  // ------------------------------------------------------------ OTP records

  const HourMs: nat := 3_600_000

  /** More than this many recent records for one address delete the new one. */
  const OtpAttemptLimit: nat := 5

  /** An `otp_verifications` document: its `email` field and creation time. */
  datatype OtpRecord = OtpRecord(email: Option<string>, createdAt: Option<int>)

  datatype OtpEffect = DeleteOtp(id: string) | RateLimitLog(email: string, attempts: nat)

  /** The query `email == email && createdAt > now - 1 hour`, as document ids. */
  function RecentAttempts(store: map<string, OtpRecord>, email: string, now: int): set<string> {
    set id | id in store && store[id].email == Some(email) &&
      store[id].createdAt.Some? && store[id].createdAt.value > now - HourMs
  }

  /** `rateLimitOTP`, triggered by the creation of `otp_verifications/{email}`: too
      many recent records delete that document and log the count; a failing query
      is swallowed. */
  function RateLimitOtp(email: string, store: Snapshot<map<string, OtpRecord>>, now: int): (r: seq<OtpEffect>)
    ensures store.Unavailable? ==> r == []
    ensures store.Read? ==> (r != [] <==> |RecentAttempts(store.value, email, now)| > OtpAttemptLimit)
    ensures r != [] ==>
      (store.Read? && r == [DeleteOtp(email), RateLimitLog(email, |RecentAttempts(store.value, email, now)|)])
  {
    match store
    case Unavailable => []
    case Read(docs) =>
      var n := |RecentAttempts(docs, email, now)|;
      if n > OtpAttemptLimit then [DeleteOtp(email), RateLimitLog(email, n)] else []
  }

  /** Records are stored under their own address, so the query finds at most the
      record just created, and the limit of five can never be exceeded. */
  lemma KeyedByAddressNeverLimited(email: string, store: map<string, OtpRecord>, now: int)
    requires forall id :: id in store && store[id].email.Some? ==> store[id].email.value == id
    ensures |RecentAttempts(store, email, now)| <= 1
    ensures RateLimitOtp(email, Read(store), now) == []
  {
    var s := RecentAttempts(store, email, now);
    assert s <= {email};
    assert s == {} || s == {email};
  }

  /** A record older than the cutoff; one without a creation time never matches. */
  predicate Stale(rec: OtpRecord, cutoff: int) {
    rec.createdAt.Some? && rec.createdAt.value < cutoff
  }

  /** `cleanupOldOTPs`: delete, in one batch, every record created more than an hour
      ago. If the query or the commit fails, nothing is deleted. */
  function CleanupOldOtps(store: map<string, OtpRecord>, now: int, committed: bool): (r: map<string, OtpRecord>)
    ensures !committed ==> r == store
    ensures forall id :: id in r ==> id in store && r[id] == store[id]
    ensures committed ==> forall id :: id in store ==> (id in r <==> !Stale(store[id], now - HourMs))
  {
    if committed then map id | id in store && !Stale(store[id], now - HourMs) :: store[id]
    else store
  }

  /** A second cleanup at the same time deletes nothing more. */
  lemma CleanupIdempotent(store: map<string, OtpRecord>, now: int)
    ensures CleanupOldOtps(CleanupOldOtps(store, now, true), now, true) == CleanupOldOtps(store, now, true)
  {
  }

  /** Cleanup never removes a record the rate limit counts at the same time or later. */
  lemma CleanupKeepsRecentAttempts(store: map<string, OtpRecord>, email: string, cleanupAt: int, now: int)
    requires cleanupAt <= now
    ensures RecentAttempts(CleanupOldOtps(store, cleanupAt, true), email, now) == RecentAttempts(store, email, now)
  {
  }

  // ------------------------------------------------------------ callables

  /** The error code Firebase Auth gives for an unknown address. */
  const UserNotFound: string := "auth/user-not-found"

  /** A Firebase Auth call: the user record, or the error's code. */
  datatype AuthLookup = Found(uid: string) | AuthFailed(code: string)

  datatype ResetLink = Link(url: string) | LinkFailed(code: string)

  /** The fields of `users/{uid}` the reset reads. */
  datatype ProfileDoc = ProfileDoc(name: Option<string>, preferredLanguage: Option<string>)

  datatype ResetAck = ResetAck(success: bool, message: string)

  /** A `password_reset_logs` document. */
  datatype ResetLog = ResetLog(email: string, userId: string)

  datatype ResetOutcome = ResetOutcome(mail: Option<Outgoing>, log: Option<ResetLog>, reply: CallResult<ResetAck>)

  /** The outer `catch`: only the Auth code for an unknown address is reported as
      such; every other failure becomes one generic error. */
  function Caught(code: string): CallResult<ResetAck> {
    if code == UserNotFound then Throws("not-found", "No account found with this email")
    else Throws("internal", "Failed to send reset email")
  }

  /** `a || b` for string fields. */
  function Either(a: Option<string>, b: Option<string>): (r: Option<string>)
    ensures Truthy(a) ==> r == a
    ensures !Truthy(a) ==> r == b
  {
    if Truthy(a) then a else b
  }

  /** `userDoc.exists ? userDoc.data().name : 'User'`; a profile without a name
      interpolates as `undefined`. */
  function ResetUserName(profile: Option<ProfileDoc>): string {
    match profile
    case None => "User"
    case Some(p) => p.name.GetOr("undefined")
  }

  /** The profile's language if truthy, else the request's, normalised. */
  function ResetLanguage(profile: Option<ProfileDoc>, requestLang: Option<string>): string {
    NormalizeLanguage(Either(if profile.Some? then profile.value.preferredLanguage else None, requestLang))
  }

  /** No account: Auth does not know the address, either at the lookup or when the
      link is generated. */
  predicate NoAccount(auth: AuthLookup, link: ResetLink) {
    || (auth.AuthFailed? && auth.code == UserNotFound)
    || (auth.Found? && link.LinkFailed? && link.code == UserNotFound)
  }

  /** `customPasswordReset`: validate the address, look the user up, generate the
      link, read the profile, send the mail, log it. A failed send and a failed log
      write both surface as the generic internal error. */
  function CustomPasswordReset(
    email: Option<string>, requestLang: Option<string>, auth: AuthLookup, link: ResetLink,
    profile: Snapshot<Option<ProfileDoc>>, delivery: Delivery, logWritten: bool): (r: ResetOutcome)
    ensures !AddressOk(email) ==>
      r == ResetOutcome(None, None, Throws("invalid-argument", "Valid email required"))
    ensures r.reply.Throws? ==> r.reply.code in {"invalid-argument", "not-found", "internal"}
    ensures (r.reply.Throws? && r.reply.code == "not-found") <==> AddressOk(email) && NoAccount(auth, link)
    ensures r.reply.Returns? <==>
      AddressOk(email) && auth.Found? && link.Link? && profile.Read? && delivery.Delivered? && logWritten
    ensures r.reply.Returns? ==> r.reply.value == ResetAck(true, "Password reset email sent!")
    ensures r.mail.Some? <==> AddressOk(email) && auth.Found? && link.Link? && profile.Read?
    ensures r.mail.Some? ==> r.mail.value.to == email.value
    ensures r.log.Some? <==> r.reply.Returns?
    ensures r.log.Some? ==> r.log.value == ResetLog(email.value, auth.uid)
  {
    if !AddressOk(email) then ResetOutcome(None, None, Throws("invalid-argument", "Valid email required"))
    else match auth
      case AuthFailed(code) => ResetOutcome(None, None, Caught(code))
      case Found(uid) =>
        match link
        case LinkFailed(code) => ResetOutcome(None, None, Caught(code))
        case Link(url) =>
          match profile
          case Unavailable => ResetOutcome(None, None, Throws("internal", "Failed to send reset email"))
          case Read(doc) =>
            var t := Reset.GetPasswordResetTemplate(ResetLanguage(doc, requestLang));
            var mail := Outgoing(email.value, Some(t.subject), Some(Reset.Html(t, ResetUserName(doc), url)));
            if delivery.Undelivered? || !logWritten then
              ResetOutcome(Some(mail), None, Throws("internal", "Failed to send reset email"))
            else
              ResetOutcome(Some(mail), Some(ResetLog(email.value, uid)), Returns(ResetAck(true, "Password reset email sent!")))
  }

  /** Whatever the language, a reset mail rendered from a template carries the
      generated link twice, as the button's target and as text, and greets the
      user by name. */
  lemma ResetMailCarriesLink(m: Outgoing, t: Reset.Template, name: string, url: string)
    requires m.subject == Some(t.subject) && m.html == Some(Reset.Html(t, name, url))
    ensures m.html.Some? && Contains(m.html.value, Reset.Href(url))
    ensures Contains(m.html.value, Reset.LinkLine(url))
    ensures Contains(m.html.value, t.greeting.lead + name)
  {
    Reset.HtmlEmbedsLinkTwice(t, name, url);
  }

  /** Once Auth knows the address and the link is generated, the mail is the reset
      template in the profile's (else the request's) language, filled with the
      profile's name (`User` without a profile) and the link. */
  lemma ResetMailRendered(
    email: Option<string>, requestLang: Option<string>, uid: string, url: string,
    profile: Option<ProfileDoc>, delivery: Delivery, logWritten: bool)
    requires AddressOk(email)
    ensures var t := Reset.GetPasswordResetTemplate(ResetLanguage(profile, requestLang));
      CustomPasswordReset(email, requestLang, Found(uid), Link(url), Read(profile), delivery, logWritten).mail
        == Some(Outgoing(email.value, Some(t.subject), Some(Reset.Html(t, ResetUserName(profile), url))))
  {
  }

  /** A profile with a preferred language decides the mail's language, whatever the
      request asked for. */
  lemma ProfileLanguageWins(
    email: Option<string>, lang1: Option<string>, lang2: Option<string>, uid: string, url: string,
    p: ProfileDoc, delivery: Delivery, logWritten: bool)
    requires Truthy(p.preferredLanguage)
    ensures CustomPasswordReset(email, lang1, Found(uid), Link(url), Read(Some(p)), delivery, logWritten) ==
      CustomPasswordReset(email, lang2, Found(uid), Link(url), Read(Some(p)), delivery, logWritten)
    ensures ResetLanguage(Some(p), lang1) == NormalizeLanguage(p.preferredLanguage)
  {
  }

  /** The `exists` reply, with `location` present exactly when found. */
  datatype Existence = Existence(found: bool, location: Option<string>)

  /** `checkEmailExists`: Firebase Auth first, then a `users` document with the same
      `email`; an Auth error other than an unknown address, or a failing query, is
      the generic internal error. */
  function CheckEmailExists(email: Option<string>, auth: AuthLookup, users: Snapshot<seq<Option<string>>>): (r: CallResult<Existence>)
    ensures !AddressOk(email) ==> r == Throws("invalid-argument", "Valid email required")
    ensures AddressOk(email) && r.Throws? ==> r == Throws("internal", "Failed to check email")
    ensures r.Throws? <==>
      (!AddressOk(email) || (auth.AuthFailed? && (auth.code != UserNotFound || users.Unavailable?)))
    ensures (r.Returns? && r.value.found) <==>
      (AddressOk(email) &&
       (auth.Found? || (auth.code == UserNotFound && users.Read? && Some(email.value) in users.value)))
    ensures r.Returns? ==> (r.value.location.Some? <==> r.value.found)
    ensures r.Returns? && auth.Found? ==> r.value.location == Some("firebase_auth")
  {
    if !AddressOk(email) then Throws("invalid-argument", "Valid email required")
    else match auth
      case Found(_) => Returns(Existence(true, Some("firebase_auth")))
      case AuthFailed(code) =>
        if code != UserNotFound then Throws("internal", "Failed to check email")
        else match users
          case Unavailable => Throws("internal", "Failed to check email")
          case Read(emails) =>
            if Some(email.value) in emails then Returns(Existence(true, Some("firestore_users")))
            else Returns(Existence(false, None))
  }

  /** Given the same answer from Auth, an address the existence check reports as
      unknown is refused by the password reset as unknown too. */
  lemma UnknownAddressCannotReset(
    email: Option<string>, requestLang: Option<string>, auth: AuthLookup, users: Snapshot<seq<Option<string>>>,
    link: ResetLink, profile: Snapshot<Option<ProfileDoc>>, delivery: Delivery, logWritten: bool)
    requires CheckEmailExists(email, auth, users) == Returns(Existence(false, None))
    ensures CustomPasswordReset(email, requestLang, auth, link, profile, delivery, logWritten).reply ==
      Throws("not-found", "No account found with this email")
  {
  }

  /** An address known only from a `users` document exists for the check but has no
      account to reset. */
  lemma ProfileOnlyAddressCannotReset(
    email: string, requestLang: Option<string>, emails: seq<Option<string>>,
    link: ResetLink, profile: Snapshot<Option<ProfileDoc>>, delivery: Delivery, logWritten: bool)
    requires AddressOk(Some(email)) && Some(email) in emails
    ensures CheckEmailExists(Some(email), AuthFailed(UserNotFound), Read(emails)) ==
      Returns(Existence(true, Some("firestore_users")))
    ensures CustomPasswordReset(Some(email), requestLang, AuthFailed(UserNotFound), link, profile, delivery, logWritten).reply ==
      Throws("not-found", "No account found with this email")
  {
  }
}

=== FILE: markup.dfy ===
/** The pieces of template text shared by the email templates: a sentence with one
    or two parameter slots, and the few HTML elements a parameter is embedded in. */
module Markup {
  import opened Strings

  /** A sentence with one slot: `lead ${x} tail`. */
  datatype Frame = Frame(lead: string, tail: string)

  /** A sentence with two slots: `lead ${x} mid ${y} tail`. */
  datatype Frame2 = Frame2(lead: string, mid: string, tail: string)

  function Fill(f: Frame, x: string): string {
    f.lead + x + f.tail
  }

  function Fill2(f: Frame2, x: string, y: string): string {
    f.lead + x + f.mid + y + f.tail
  }

  function Heading(text: string): string {
    "<h1 class=\"title\">" + text + "</h1>"
  }

  function Paragraph(text: string): string {
    "<p class=\"text\">" + text + "</p>"
  }

  /** A filled sentence holds its argument right after the lead text. */
  lemma FillEmbeds(f: Frame, x: string)
    ensures Contains(Fill(f, x), f.lead + x)
    ensures Contains(Fill(f, x), x)
  {
    ContainsWitness(Fill(f, x), f.lead + x, 0);
    ContainsInfix(f.lead, x, f.tail);
  }

  /** A filled two-slot sentence holds both arguments, each right after its lead text. */
  lemma Fill2Embeds(f: Frame2, x: string, y: string)
    ensures Contains(Fill2(f, x, y), f.lead + x)
    ensures Contains(Fill2(f, x, y), f.mid + y)
  {
    ContainsWitness(Fill2(f, x, y), f.lead + x, 0);
    assert Fill2(f, x, y) == (f.lead + x) + (f.mid + y) + f.tail;
    ContainsInfix(f.lead + x, f.mid + y, f.tail);
  }

  /** An email body: the modelled elements, in document order. */
  function Concat(parts: seq<string>): string {
    if |parts| == 0 then "" else parts[0] + Concat(parts[1..])
  }

  lemma {:induction false} ConcatAppend(a: seq<string>, b: seq<string>)
    ensures Concat(a + b) == Concat(a) + Concat(b)
  {
    if |a| == 0 {
      assert a + b == b;
    } else {
      assert (a + b)[0] == a[0];
      assert (a + b)[1..] == a[1..] + b;
      ConcatAppend(a[1..], b);
    }
  }

  /** Every element of a body occurs in the body. */
  lemma {:induction false} ConcatContainsPart(parts: seq<string>, i: nat)
    requires i < |parts|
    ensures Contains(Concat(parts), parts[i])
  {
    assert parts == parts[..i] + [parts[i]] + parts[i + 1..];
    ConcatAppend(parts[..i] + [parts[i]], parts[i + 1..]);
    ConcatAppend(parts[..i], [parts[i]]);
    assert Concat([parts[i]]) == parts[i];
    ContainsInfix(Concat(parts[..i]), parts[i], Concat(parts[i + 1..]));
  }

  /** Two bodies that agree everywhere except at element `i` are equal only if that
      element is equal too. */
  lemma {:induction false} ConcatDeterminesPart(a: seq<string>, b: seq<string>, i: nat)
    requires |a| == |b| && i < |a|
    requires forall k :: 0 <= k < |a| && k != i ==> a[k] == b[k]
    requires Concat(a) == Concat(b)
    ensures a[i] == b[i]
  {
    assert a == a[..i] + [a[i]] + a[i + 1..];
    assert b == b[..i] + [b[i]] + b[i + 1..];
    assert a[..i] == b[..i] && a[i + 1..] == b[i + 1..];
    ConcatAppend(a[..i] + [a[i]], a[i + 1..]);
    ConcatAppend(a[..i], [a[i]]);
    ConcatAppend(b[..i] + [b[i]], b[i + 1..]);
    ConcatAppend(b[..i], [b[i]]);
    assert Concat([a[i]]) == a[i] && Concat([b[i]]) == b[i];
    var p := Concat(a[..i]);
    var q := Concat(a[i + 1..]);
    assert p + a[i] + q == p + b[i] + q;
    assert |a[i]| == |b[i]|;
    assert a[i] == (p + a[i] + q)[|p|..|p| + |a[i]|];
    assert b[i] == (p + b[i] + q)[|p|..|p| + |b[i]|];
  }

  /** Occurrence is transitive: a part of a part is a part of the whole. */
  lemma ContainsTrans(text: string, mid: string, s: string)
    requires Contains(text, mid) && Contains(mid, s)
    ensures Contains(text, s)
  {
    var i :| 0 <= i <= |text| - |mid| && OccursAt(text, mid, i);
    var j :| 0 <= j <= |mid| - |s| && OccursAt(mid, s, j);
    assert mid <= text[i..] && s <= mid[j..];
    assert text[i + j..i + j + |s|] == mid[j..j + |s|];
    ContainsWitness(text, s, i + j);
  }

  /** Whatever occurs in one element of a body occurs in the body. */
  lemma PartHolds(parts: seq<string>, i: nat, s: string)
    requires i < |parts| && Contains(parts[i], s)
    ensures Contains(Concat(parts), s)
  {
    ConcatContainsPart(parts, i);
    ContainsTrans(Concat(parts), parts[i], s);
  }

  /** A paragraph element made of a filled sentence puts the argument, right after
      the lead text, into the body. */
  lemma ParagraphEmbeds(parts: seq<string>, i: nat, f: Frame, x: string)
    requires i < |parts| && parts[i] == Paragraph(Fill(f, x))
    ensures Contains(Concat(parts), f.lead + x)
  {
    ContainsInfix("<p class=\"text\">", Fill(f, x), "</p>");
    FillEmbeds(f, x);
    ContainsTrans(parts[i], Fill(f, x), f.lead + x);
    PartHolds(parts, i, f.lead + x);
  }
}

=== FILE: otp_template.dfy ===
/** The OTP verification email (functions/templates/otp.js). */
module OtpTemplate {
  import opened Languages
  import opened Strings
  import opened Markup

  /** The language-specific text of one entry of the OTP table. The greeting frame
      holds the user name; the code goes into the code box. */
  datatype Template = Template(
    subject: string,
    title: string,
    greeting: Frame,
    expires: string,
    note: string)

  function Entry(l: Lang): Template {
    match l
    case En => Template(
      "Your InsideX verification code",
      "Verification code",
      Frame("Hello ", ", use the code below to verify your email address."),
      "Expires in 10 minutes",
      "If you didn't request this code, you can safely ignore this email.")
    case Tr => Template(
      "InsideX doğrulama kodunuz",
      "Doğrulama kodu",
      Frame("Merhaba ", ", e-posta adresinizi doğrulamak için aşağıdaki kodu kullanın."),
      "10 dakika içinde geçerliliğini yitirir",
      "Bu kodu siz talep etmediyseniz, bu e-postayı güvenle yok sayabilirsiniz.")
    case Ru => Template(
      "Ваш код подтверждения InsideX",
      "Код подтверждения",
      Frame("Здравствуйте ", ", используйте код ниже для подтверждения вашего email."),
      "Действителен 10 минут",
      "Если вы не запрашивали этот код, просто проигнорируйте это письмо.")
    case Hi => Template(
      "आपका InsideX सत्यापन कोड",
      "सत्यापन कोड",
      Frame("नमस्ते ", ", अपना ईमेल सत्यापित करने के लिए नीचे दिए गए कोड का उपयोग करें।"),
      "10 मिनट में समाप्त हो जाएगा",
      "यदि आपने यह कोड नहीं मांगा है, तो आप इस ईमेल को सुरक्षित रूप से अनदेखा कर सकते हैं।")
  }

  /** `getOtpTemplate(lang)`: the entry of a supported code, the English entry for
      any other key. Omitting the argument means `'en'`. */
  function GetOtpTemplate(lang: string): (t: Template)
    ensures lang in SupportedLanguages ==> t == Entry(LangOf(lang).value)
    ensures lang !in SupportedLanguages ==> t == Entry(En)
  {
    Entry(EntryLang(lang))
  }

  const CodeBoxOpen: string := "<div class=\"code-box\"><div class=\"code\">"

  /** The code box element holding the one-time code. */
  function CodeBox(code: string): string {
    CodeBoxOpen + code + "</div>"
  }

  /** The text-carrying elements of `html(userName, code)`, in document order. */
  function Parts(t: Template, userName: string, code: string): seq<string> {
    [ Heading(t.title),
      Paragraph(Fill(t.greeting, userName)),
      CodeBox(code),
      "<div class=\"expires\">" + t.expires + "</div></div>",
      "<p class=\"footer-note\">" + t.note + "</p>" ]
  }

  /** `html(userName, code)`: the elements of the content block that carry text. */
  function Html(t: Template, userName: string, code: string): string {
    Concat(Parts(t, userName, code))
  }

  /** The user name follows the greeting, and the code sits in the code box. */
  lemma HtmlEmbedsUserNameAndCode(t: Template, userName: string, code: string)
    ensures Contains(Html(t, userName, code), t.greeting.lead + userName)
    ensures Contains(Html(t, userName, code), CodeBox(code))
  {
    var parts := Parts(t, userName, code);
    var greeting := Fill(t.greeting, userName);
    ConcatContainsPart(parts, 1);
    ContainsInfix("<p class=\"text\">", greeting, "</p>");
    ContainsTrans(Html(t, userName, code), parts[1], greeting);
    FillEmbeds(t.greeting, userName);
    ContainsTrans(Html(t, userName, code), greeting, t.greeting.lead + userName);
    ConcatContainsPart(parts, 2);
  }

  /** Different codes give different emails: the code can be read back from the html. */
  lemma HtmlDeterminesCode(t: Template, userName: string, code1: string, code2: string)
    requires Html(t, userName, code1) == Html(t, userName, code2)
    ensures code1 == code2
  {
    ConcatDeterminesPart(Parts(t, userName, code1), Parts(t, userName, code2), 2);
    assert CodeBox(code1) == CodeBox(code2);
    assert code1 == CodeBox(code1)[|CodeBoxOpen|..|CodeBoxOpen| + |code1|];
    assert code2 == CodeBox(code2)[|CodeBoxOpen|..|CodeBoxOpen| + |code2|];
  }
}

=== FILE: password_reset_template.dfy ===
/** The password reset email (functions/templates/passwordReset.js). */
module PasswordResetTemplate {
  import opened Languages
  import opened Strings
  import opened Markup

  /** The language-specific text of one entry of the password reset table. */
  datatype Template = Template(
    subject: string,
    title: string,
    greeting: Frame,
    button: string,
    linkText: string,
    note: string)

  function Entry(l: Lang): Template {
    match l
    case En => Template(
      "Reset your InsideX password",
      "Reset your password",
      Frame("Hello ", ", we received a request to reset your password. Click the button below to create a new password."),
      "Reset Password",
      "Or copy and paste this link:",
      "If you didn't request a password reset, you can safely ignore this email. Your password will remain unchanged.")
    case Tr => Template(
      "InsideX şifrenizi sıfırlayın",
      "Şifrenizi sıfırlayın",
      Frame("Merhaba ", ", şifrenizi sıfırlamak için bir istek aldık. Yeni bir şifre oluşturmak için aşağıdaki butona tıklayın."),
      "Şifreyi Sıfırla",
      "Veya bu linki kopyalayıp yapıştırın:",
      "Şifre sıfırlama talebinde bulunmadıysanız, bu e-postayı güvenle yok sayabilirsiniz. Şifreniz değişmeden kalacaktır.")
    case Ru => Template(
      "Сбросить пароль InsideX",
      "Сбросить пароль",
      Frame("Здравствуйте ", ", мы получили запрос на сброс пароля. Нажмите кнопку ниже, чтобы создать новый пароль."),
      "Сбросить пароль",
      "Или скопируйте и вставьте эту ссылку:",
      "Если вы не запрашивали сброс пароля, просто проигнорируйте это письмо. Ваш пароль останется прежним.")
    case Hi => Template(
      "अपना InsideX पासवर्ड रीसेट करें",
      "अपना पासवर्ड रीसेट करें",
      Frame("नमस्ते ", ", हमें आपका पासवर्ड रीसेट करने का अनुरोध मिला है। नया पासवर्ड बनाने के लिए नीचे दिए गए बटन पर क्लिक करें।"),
      "पासवर्ड रीसेट करें",
      "या इस लिंक को कॉपी और पेस्ट करें:",
      "यदि आपने पासवर्ड रीसेट का अनुरोध नहीं किया है, तो आप इस ईमेल को सुरक्षित रूप से अनदेखा कर सकते हैं। आपका पासवर्ड अपरिवर्तित रहेगा।")
  }

  /** `getPasswordResetTemplate(lang)`: the entry of a supported code, the English
      entry for any other key. Omitting the argument means `'en'`. */
  function GetPasswordResetTemplate(lang: string): (t: Template)
    ensures lang in SupportedLanguages ==> t == Entry(LangOf(lang).value)
    ensures lang !in SupportedLanguages ==> t == Entry(En)
  {
    Entry(EntryLang(lang))
  }

  /** The opening of the button anchor, whose target is the reset link. */
  function Href(resetLink: string): string {
    "<a href=\"" + resetLink + "\""
  }

  /** The paragraph that repeats the reset link as plain text. */
  function LinkLine(resetLink: string): string {
    "<p class=\"link\">" + resetLink + "</p>"
  }

  function Parts(t: Template, userName: string, resetLink: string): seq<string> {
    [ Heading(t.title),
      Paragraph(Fill(t.greeting, userName)),
      Href(resetLink) + " class=\"button\">" + t.button + "</a>",
      "<p class=\"link-text\">" + t.linkText + "</p>",
      LinkLine(resetLink),
      "<p class=\"footer-note\">" + t.note + "</p>" ]
  }

  /** `html(userName, resetLink)`: the elements of the content block that carry text. */
  function Html(t: Template, userName: string, resetLink: string): string {
    Concat(Parts(t, userName, resetLink))
  }

  /** The link is both the button's target and a line of plain text, and the user
      name follows the greeting. */
  lemma HtmlEmbedsLinkTwice(t: Template, userName: string, resetLink: string)
    ensures Contains(Html(t, userName, resetLink), Href(resetLink))
    ensures Contains(Html(t, userName, resetLink), LinkLine(resetLink))
    ensures Contains(Html(t, userName, resetLink), t.greeting.lead + userName)
  {
    var html := Html(t, userName, resetLink);
    var parts := Parts(t, userName, resetLink);
    ConcatContainsPart(parts, 2);
    ContainsWitness(parts[2], Href(resetLink), 0);
    ContainsTrans(html, parts[2], Href(resetLink));
    ConcatContainsPart(parts, 4);
    var greeting := Fill(t.greeting, userName);
    ConcatContainsPart(parts, 1);
    ContainsInfix("<p class=\"text\">", greeting, "</p>");
    ContainsTrans(html, parts[1], greeting);
    FillEmbeds(t.greeting, userName);
    ContainsTrans(html, greeting, t.greeting.lead + userName);
  }
}

=== FILE: payment_failed_template.dfy ===
/** The payment failed email (functions/templates/paymentFailed.js). */
module PaymentFailedTemplate {
  import opened Languages
  import opened Strings
  import opened Markup

  /** The language-specific text of one entry of the payment failed table. */
  datatype Template = Template(
    subject: string,
    title: string,
    salutation: Frame,
    failed: Frame)

  function Entry(l: Lang): Template {
    match l
    case En => Template(
      "Action required: Payment failed for InsideX",
      "Payment failed",
      Frame("Hi ", ","),
      Frame("We couldn't process your payment for ", "."))
    case Tr => Template(
      "İşlem gerekli: InsideX ödemeniz başarısız oldu",
      "Ödeme başarısız oldu",
      Frame("Merhaba ", ","),
      Frame("", " için ödemenizi işleyemedik."))
    case Ru => Template(
      "Требуется действие: ошибка оплаты InsideX",
      "Ошибка оплаты",
      Frame("Здравствуйте, ", "!"),
      Frame("Нам не удалось обработать ваш платеж за ", "."))
    case Hi => Template(
      "कार्रवाई आवश्यक: InsideX भुगतान विफल",
      "भुगतान विफल",
      Frame("नमस्ते ", ","),
      Frame("हम ", " के लिए आपका भुगतान संसाधित नहीं कर सके।"))
  }

  /** `getPaymentFailedTemplate(lang)`: the entry of a supported code, the English
      entry for any other key. Omitting the argument means `'en'`. */
  function GetPaymentFailedTemplate(lang: string): (t: Template)
    ensures lang in SupportedLanguages ==> t == Entry(LangOf(lang).value)
    ensures lang !in SupportedLanguages ==> t == Entry(En)
  {
    Entry(EntryLang(lang))
  }

  function Parts(t: Template, userName: string, planName: string): seq<string> {
    [ Heading(t.title),
      Paragraph(Fill(t.salutation, userName)),
      Paragraph(Fill(t.failed, planName)) ]
  }

  /** `html(userName, planName)`: the heading and the paragraphs that greet the user
      and name the plan. The alert box, the closing paragraph and the signature are
      not modelled. */
  function Html(t: Template, userName: string, planName: string): string {
    Concat(Parts(t, userName, planName))
  }

  /** The user name follows the salutation and the plan name is in the notice. */
  lemma HtmlEmbedsUserAndPlan(t: Template, userName: string, planName: string)
    ensures Contains(Html(t, userName, planName), t.salutation.lead + userName)
    ensures Contains(Html(t, userName, planName), t.failed.lead + planName)
  {
    var parts := Parts(t, userName, planName);
    ParagraphEmbeds(parts, 1, t.salutation, userName);
    ParagraphEmbeds(parts, 2, t.failed, planName);
  }
}

=== FILE: plan_changed_template.dfy ===
/** The plan changed email (functions/templates/planChanged.js). */
module PlanChangedTemplate {
  import opened Languages
  import opened Strings
  import opened Markup

  /** The language-specific text of one entry; `nowActive` and `willChange` are the
      two alternative info boxes, the second around the effective date. */
  datatype Template = Template(
    subject: string,
    title: string,
    salutation: Frame,
    confirmed: string,
    nowActive: string,
    willChange: Frame)

  function Entry(l: Lang): Template {
    match l
    case En => Template(
      "Your InsideX plan has been changed",
      "Your plan has been changed",
      Frame("Hi ", ","),
      "Your subscription plan change has been confirmed.",
      "Your new plan is now active.",
      Frame("Your plan will change on <strong>", "</strong>. Until then, you'll continue to enjoy your current plan benefits."))
    case Tr => Template(
      "InsideX planınız değiştirildi",
      "Planınız değiştirildi",
      Frame("Merhaba ", ","),
      "Plan değişikliği talebiniz onaylandı.",
      "Yeni planınız şu anda aktif.",
      Frame("Planınız <strong>", "</strong> tarihinde değişecek. O tarihe kadar mevcut plan avantajlarınızdan yararlanmaya devam edebilirsiniz."))
    case Ru => Template(
      "Ваш план InsideX изменен",
      "Ваш план изменен",
      Frame("Здравствуйте, ", "!"),
      "Изменение вашего плана подписки подтверждено.",
      "Ваш новый план уже активен.",
      Frame("Ваш план изменится <strong>", "</strong>. До этого момента вы продолжите пользоваться преимуществами текущего плана."))
    case Hi => Template(
      "आपका InsideX प्लान बदल दिया गया है",
      "आपका प्लान बदल दिया गया है",
      Frame("नमस्ते ", ","),
      "आपके प्लान परिवर्तन की पुष्टि हो गई है।",
      "आपका नया प्लान अब सक्रिय है।",
      Frame("आपका प्लान <strong>", "</strong> को बदल जाएगा। तब तक आप अपने वर्तमान प्लान के लाभों का आनंद लेते रहेंगे।"))
  }

  /** `getPlanChangedTemplate(lang)`: the entry of a supported code, the English
      entry for any other key. Omitting the argument means `'en'`. */
  function GetPlanChangedTemplate(lang: string): (t: Template)
    ensures lang in SupportedLanguages ==> t == Entry(LangOf(lang).value)
    ensures lang !in SupportedLanguages ==> t == Entry(En)
  {
    Entry(EntryLang(lang))
  }

  /** The old plan, an arrow, and the new plan, side by side. */
  function PlanArrow(oldPlan: string, newPlan: string): string {
    "<span class=\"plan\">" + oldPlan + "</span><span class=\"arrow\">→</span><span class=\"plan\">" + newPlan + "</span>"
  }

  function InfoBox(text: string): string {
    "<div class=\"info-box\"><p class=\"info-text\">" + text + "</p></div>"
  }

  function Parts(t: Template, userName: string, oldPlan: string, newPlan: string, effectiveDate: string, isImmediate: bool): seq<string> {
    [ Heading(t.title),
      Paragraph(Fill(t.salutation, userName)),
      Paragraph(t.confirmed),
      PlanArrow(oldPlan, newPlan),
      InfoBox(if isImmediate then t.nowActive else Fill(t.willChange, effectiveDate)) ]
  }

  /** `html(userName, oldPlan, newPlan, effectiveDate, isImmediate)`, without the
      signature. */
  function Html(t: Template, userName: string, oldPlan: string, newPlan: string, effectiveDate: string, isImmediate: bool): string {
    Concat(Parts(t, userName, oldPlan, newPlan, effectiveDate, isImmediate))
  }

  /** The email shows the old plan, then the arrow, then the new plan. */
  lemma HtmlShowsPlanTransition(t: Template, userName: string, oldPlan: string, newPlan: string, effectiveDate: string, isImmediate: bool)
    ensures Contains(Html(t, userName, oldPlan, newPlan, effectiveDate, isImmediate), PlanArrow(oldPlan, newPlan))
  {
    ConcatContainsPart(Parts(t, userName, oldPlan, newPlan, effectiveDate, isImmediate), 3);
  }

  /** A deferred change shows the box with the effective date in bold. */
  lemma DeferredShowsEffectiveDate(t: Template, userName: string, oldPlan: string, newPlan: string, effectiveDate: string)
    ensures Contains(Html(t, userName, oldPlan, newPlan, effectiveDate, false), t.willChange.lead + effectiveDate)
  {
    var parts := Parts(t, userName, oldPlan, newPlan, effectiveDate, false);
    var text := Fill(t.willChange, effectiveDate);
    ContainsInfix("<div class=\"info-box\"><p class=\"info-text\">", text, "</p></div>");
    FillEmbeds(t.willChange, effectiveDate);
    ContainsTrans(parts[4], text, t.willChange.lead + effectiveDate);
    PartHolds(parts, 4, t.willChange.lead + effectiveDate);
  }

  /** An immediate change shows the "now active" box, and the effective date plays no
      part in the email at all. */
  lemma ImmediateIgnoresEffectiveDate(t: Template, userName: string, oldPlan: string, newPlan: string, date1: string, date2: string)
    ensures Html(t, userName, oldPlan, newPlan, date1, true) == Html(t, userName, oldPlan, newPlan, date2, true)
    ensures Contains(Html(t, userName, oldPlan, newPlan, date1, true), InfoBox(t.nowActive))
  {
    ConcatContainsPart(Parts(t, userName, oldPlan, newPlan, date1, true), 4);
  }
}

=== FILE: push.dfy ===
/** Targeted push notifications (functions/pushNotifications.js): validation of a
    new `push_notifications` document, the FCM topic condition, the fan-out plan,
    and the counting that decides the document's status. */
module PushNotifications {
  import opened Wrappers
  import opened Strings

  const ValidLanguages: seq<string> := ["en", "tr", "ru", "hi"]
  const ValidTiers: seq<string> := ["all", "free", "lite", "standard"]
  const ValidPlatforms: seq<string> := ["all", "ios", "android"]
  const MaxConditionLength: nat := 5
  const ValidAudiences: seq<string> := ["all", "language", "tier", "platform", "custom", "individual"]
  const AllUsersTopic: string := "all_users"

  /** `target` of a notification. An absent facet list is the empty list: the
      source treats both alike. */
  datatype Target = Target(
    audience: Option<string>,
    languages: seq<string>,
    tiers: seq<string>,
    platforms: seq<string>,
    userId: Option<string>)

  /** A `push_notifications` document; `customData` is its `data` field. */
  datatype Notification = Notification(
    titles: map<string, string>,
    bodies: map<string, string>,
    target: Option<Target>,
    customData: map<string, string>,
    notificationType: Option<string>,
    createdBy: Option<string>)

  // ---------------------------------------------------------------- content

  function Lookup(m: map<string, string>, key: string): Option<string> {
    if key in m then Some(m[key]) else None
  }

  datatype Content = Content(title: string, body: string)

  /** `getLocalizedContent`: the text for `lang`, else the English text, else a
      fixed title and an empty body. An empty string counts as missing. */
  function GetLocalizedContent(titles: map<string, string>, bodies: map<string, string>, lang: string): (c: Content)
    ensures c.title != ""
    ensures c.title == "InsideX" || c.title in titles.Values
    ensures c.body == "" || c.body in bodies.Values
    ensures Truthy(Lookup(titles, lang)) ==> c.title == titles[lang]
    ensures Truthy(Lookup(bodies, lang)) ==> c.body == bodies[lang]
    ensures !Truthy(Lookup(titles, lang)) && Truthy(Lookup(titles, "en")) ==> c.title == titles["en"]
    ensures !Truthy(Lookup(bodies, lang)) && Truthy(Lookup(bodies, "en")) ==> c.body == bodies["en"]
    ensures !Truthy(Lookup(titles, lang)) && !Truthy(Lookup(titles, "en")) ==> c.title == "InsideX"
    ensures !Truthy(Lookup(bodies, lang)) && !Truthy(Lookup(bodies, "en")) ==> c.body == ""
  {
    Content(OrElse(Lookup(titles, lang), OrElse(Lookup(titles, "en"), "InsideX")),
            OrElse(Lookup(bodies, lang), OrElse(Lookup(bodies, "en"), "")))
  }

  /** A language without its own title or body gets the English one. */
  lemma FallsBackToEnglish(titles: map<string, string>, bodies: map<string, string>, lang: string)
    ensures !Truthy(Lookup(titles, lang)) ==>
      GetLocalizedContent(titles, bodies, lang).title == GetLocalizedContent(titles, bodies, "en").title
    ensures !Truthy(Lookup(bodies, lang)) ==>
      GetLocalizedContent(titles, bodies, lang).body == GetLocalizedContent(titles, bodies, "en").body
    ensures !Truthy(Lookup(titles, "en")) && !Truthy(Lookup(titles, lang)) ==>
      GetLocalizedContent(titles, bodies, lang).title == "InsideX"
    ensures !Truthy(Lookup(bodies, "en")) && !Truthy(Lookup(bodies, lang)) ==>
      GetLocalizedContent(titles, bodies, lang).body == ""
  {
  }

  // ------------------------------------------------------------- validation

  /** A document that the sender accepts. */
  predicate WellFormed(data: Option<Notification>) {
    && data.Some?
    && |data.value.titles| > 0
    && |data.value.bodies| > 0
    && data.value.target.Some?
    && Truthy(data.value.target.value.audience)
    && data.value.target.value.audience.value in ValidAudiences
    && (data.value.target.value.audience.value == "individual" ==> Truthy(data.value.target.value.userId))
  }

  /** `validateNotificationData`: the first failed check, in the order data,
      titles, bodies, audience present, audience known, user id for an individual;
      `None` for a valid document. */
  function ValidationError(data: Option<Notification>): (err: Option<string>)
    ensures err.None? <==> WellFormed(data)
    ensures data.None? ==> err == Some("No data provided")
    ensures data.Some? && |data.value.titles| == 0 ==> err == Some("At least one title is required")
    ensures data.Some? && |data.value.titles| > 0 && |data.value.bodies| == 0 ==>
      err == Some("At least one body is required")
    ensures (data.Some? && |data.value.titles| > 0 && |data.value.bodies| > 0
             && (data.value.target.None? || !Truthy(data.value.target.value.audience))) ==>
      err == Some("Target audience is required")
    ensures (data.Some? && |data.value.titles| > 0 && |data.value.bodies| > 0 && data.value.target.Some?
             && Truthy(data.value.target.value.audience)
             && data.value.target.value.audience.value !in ValidAudiences) ==>
      err == Some("Invalid audience: " + data.value.target.value.audience.value)
    ensures (data.Some? && |data.value.titles| > 0 && |data.value.bodies| > 0 && data.value.target.Some?
             && data.value.target.value.audience == Some("individual")
             && !Truthy(data.value.target.value.userId)) ==>
      err == Some("userId is required for individual target")
    ensures err.Some? ==> err.value != ""
  {
    if data.None? then Some("No data provided")
    else
      var d := data.value;
      if |d.titles| == 0 then Some("At least one title is required")
      else if |d.bodies| == 0 then Some("At least one body is required")
      else if d.target.None? || !Truthy(d.target.value.audience) then Some("Target audience is required")
      else
        var audience := d.target.value.audience.value;
        if audience !in ValidAudiences then Some("Invalid audience: " + audience)
        else if audience == "individual" && !Truthy(d.target.value.userId) then
          Some("userId is required for individual target")
        else None
  }

  /** Only the first failure is reported: a document with neither titles nor bodies
      is rejected for its titles, and an unknown audience is named in the error. */
  lemma ReportsFirstFailure(t: Target)
    ensures ValidationError(Some(Notification(map[], map[], None, map[], None, None))) ==
      Some("At least one title is required")
    ensures t.audience == Some("everyone") ==>
      ValidationError(Some(Notification(map["en" := "T"], map["en" := "B"], Some(t), map[], None, None))) ==
      Some("Invalid audience: everyone")
  {
    assert |map["en" := "T"]| == 1 && |map["en" := "B"]| == 1;
    assert "everyone" !in ValidAudiences && Truthy(Some("everyone"));
    assert "Invalid audience: " + "everyone" == "Invalid audience: everyone";
  }

  /** The error names the check that failed: an `Invalid audience` error quotes
      the document's own audience, which is not one of the six. */
  lemma InvalidAudienceIsQuoted(data: Option<Notification>, a: string)
    requires ValidationError(data) == Some("Invalid audience: " + a)
    ensures data.Some? && data.value.target.Some? && data.value.target.value.audience == Some(a)
    ensures a !in ValidAudiences
  {
    var prefix := "Invalid audience: ";
    var err := prefix + a;
    assert err[0] == 'I' && err[1] == 'n';
    var d := data.value;
    var audience := d.target.value.audience.value;
    assert (prefix + audience)[|prefix|..] == audience;
    assert err[|prefix|..] == a;
  }

  // -------------------------------------------------------- topic condition

  /** The elements of `values` that `keep` accepts, in their order. */
  function Filter(values: seq<string>, keep: string -> bool): (r: seq<string>)
    ensures |r| <= |values|
    ensures forall v :: v in r <==> v in values && keep(v)
  {
    if |values| == 0 then []
    else (if keep(values[0]) then [values[0]] else []) + Filter(values[1..], keep)
  }

  /** Filtering distributes over concatenation: the survivors keep the order of
      the input. */
  lemma {:induction false} FilterAppend(a: seq<string>, b: seq<string>, keep: string -> bool)
    ensures Filter(a + b, keep) == Filter(a, keep) + Filter(b, keep)
    decreases |a|
  {
    if |a| == 0 {
      assert a + b == b;
    } else {
      assert (a + b)[0] == a[0];
      assert (a + b)[1..] == a[1..] + b;
      FilterAppend(a[1..], b, keep);
    }
  }

  /** Nothing survives a filter that rejects every value. */
  lemma {:induction false} FilterRejectsAll(values: seq<string>, keep: string -> bool)
    requires forall v :: v in values ==> !keep(v)
    ensures Filter(values, keep) == []
  {
    if |values| > 0 {
      assert values[0] in values;
      FilterRejectsAll(values[1..], keep);
    }
  }

  predicate ValidLanguage(l: string) { l in ValidLanguages }
  predicate SelectableTier(t: string) { t in ValidTiers && t != "all" }
  predicate SelectablePlatform(p: string) { p in ValidPlatforms && p != "all" }

  function FilteredLanguages(t: Target): seq<string> { Filter(t.languages, ValidLanguage) }
  function FilteredTiers(t: Target): seq<string> { Filter(t.tiers, SelectableTier) }
  function FilteredPlatforms(t: Target): seq<string> { Filter(t.platforms, SelectablePlatform) }

  /** The FCM topic of a facet value: `<prefix>_<v>`. */
  function TopicName(prefix: string, v: string): string {
    prefix + "_" + v
  }

  /** The topics of a facet's values. */
  function Topics(prefix: string, values: seq<string>): (r: seq<string>)
    ensures |r| == |values|
  {
    seq(|values|, i requires 0 <= i < |values| => TopicName(prefix, values[i]))
  }

  /** `'<topic>' in topics`. */
  function Atom(topic: string): string {
    "'" + topic + "' in topics"
  }

  function Atoms(topics: seq<string>): (r: seq<string>)
    ensures |r| == |topics|
  {
    seq(|topics|, i requires 0 <= i < |topics| => Atom(topics[i]))
  }

  /** One clause: a bare atom for a single topic, a parenthesised disjunction for
      several. */
  function RenderClause(clause: seq<string>): string {
    if |clause| == 1 then Atom(clause[0]) else "(" + Join(Atoms(clause), " || ") + ")"
  }

  function Rendered(cnf: seq<seq<string>>): (r: seq<string>)
    ensures |r| == |cnf|
  {
    seq(|cnf|, i requires 0 <= i < |cnf| => RenderClause(cnf[i]))
  }

  /** A conjunction of clauses, each a disjunction of topics, in FCM syntax. */
  function RenderCnf(cnf: seq<seq<string>>): string {
    Join(Rendered(cnf), " && ")
  }

  /** The clause of one facet: none when no value survives filtering. */
  function FacetClause(prefix: string, values: seq<string>): (r: seq<seq<string>>)
    ensures |r| <= 1
  {
    if |values| == 0 then [] else [Topics(prefix, values)]
  }

  /** The clauses `buildTopicCondition` collects, in the order language, tier,
      platform. */
  function Cnf(t: Target): (r: seq<seq<string>>)
    ensures |r| <= 3
    ensures forall i :: 0 <= i < |r| ==> |r[i]| > 0
  {
    FacetClause("lang", FilteredLanguages(t))
      + FacetClause("tier", FilteredTiers(t))
      + FacetClause("platform", FilteredPlatforms(t))
  }

  /** `buildTopicCondition`: no condition for a missing target, for the `all`
      audience, or when every facet filters to nothing; otherwise the clauses,
      cut to `MaxConditionLength`, joined by `&&`. */
  function BuildTopicCondition(target: Option<Target>): (r: Option<string>)
    ensures r.None? <==>
      || target.None?
      || target.value.audience == Some("all")
      || (FilteredLanguages(target.value) == [] && FilteredTiers(target.value) == []
          && FilteredPlatforms(target.value) == [])
  {
    if target.None? || target.value.audience == Some("all") then None
    else
      var clauses := Cnf(target.value);
      if |clauses| == 0 then None
      else
        Some(RenderCnf(Truncate(clauses, MaxConditionLength)))
  }

  /** The first `limit` clauses: `conditions.length = limit` when there are more. */
  function Truncate(clauses: seq<seq<string>>, limit: nat): (r: seq<seq<string>>)
    ensures |r| == if |clauses| > limit then limit else |clauses|
    ensures r <= clauses
  {
    if |clauses| > limit then clauses[..limit] else clauses
  }

  /** At most three clauses are ever collected, so the truncation to five never
      fires and the condition is the whole conjunction. */
  lemma TruncationNeverFires(t: Target)
    ensures |Cnf(t)| < MaxConditionLength
    ensures |Cnf(t)| > 0 ==> BuildTopicCondition(Some(t)) == Some(RenderCnf(Cnf(t))) || t.audience == Some("all")
  {
  }

  /** A single surviving value gives a bare clause; several give a parenthesised
      disjunction in input order. */
  lemma ClauseShape(prefix: string, values: seq<string>)
    ensures |values| == 1 ==> RenderClause(Topics(prefix, values)) == "'" + prefix + "_" + values[0] + "' in topics"
    ensures |values| == 2 ==>
      (RenderClause(Topics(prefix, values)) ==
       "('" + prefix + "_" + values[0] + "' in topics || '" + prefix + "_" + values[1] + "' in topics)")
  {
    if |values| == 2 {
      var topics := Topics(prefix, values);
      var atoms := Atoms(topics);
      assert atoms[1..] == [atoms[1]];
      JoinPair(atoms, " || ");
      PairClause(prefix, values, atoms);
    }
  }

  lemma {:induction false} JoinPair(parts: seq<string>, sep: string)
    requires |parts| == 2
    ensures Join(parts, sep) == parts[0] + sep + parts[1]
  {
    assert parts[1..] == [parts[1]];
  }

  lemma {:induction false} PairClause(prefix: string, values: seq<string>, atoms: seq<string>)
    requires |values| == 2 && atoms == Atoms(Topics(prefix, values))
    ensures "(" + (atoms[0] + " || " + atoms[1]) + ")" ==
      "('" + prefix + "_" + values[0] + "' in topics || '" + prefix + "_" + values[1] + "' in topics)"
  {
    assert atoms[0] == "'" + (prefix + "_" + values[0]) + "' in topics";
    assert atoms[1] == "'" + (prefix + "_" + values[1]) + "' in topics";
  }

  // -------------------------------------------------------------- semantics

  /** A device subscribed to `topics` satisfies a condition when it holds one topic
      of every clause. */
  predicate Matches(topics: set<string>, cnf: seq<seq<string>>) {
    forall i :: 0 <= i < |cnf| ==> ClauseHolds(topics, cnf[i])
  }

  predicate ClauseHolds(topics: set<string>, clause: seq<string>) {
    exists j :: 0 <= j < |clause| && clause[j] in topics
  }

  /** A facet with surviving values admits a device holding any one of them. */
  predicate FacetAdmits(topics: set<string>, prefix: string, values: seq<string>) {
    |values| == 0 || exists v :: v in values && TopicName(prefix, v) in topics
  }

  lemma MatchesAppend(topics: set<string>, a: seq<seq<string>>, b: seq<seq<string>>)
    ensures Matches(topics, a + b) <==> Matches(topics, a) && Matches(topics, b)
  {
    if Matches(topics, a) && Matches(topics, b) {
      forall i | 0 <= i < |a + b|
        ensures ClauseHolds(topics, (a + b)[i])
      {
        if i < |a| {
          assert (a + b)[i] == a[i];
        } else {
          assert (a + b)[i] == b[i - |a|];
        }
      }
    }
    if Matches(topics, a + b) {
      forall i | 0 <= i < |b|
        ensures ClauseHolds(topics, b[i])
      {
        assert (a + b)[|a| + i] == b[i];
        assert ClauseHolds(topics, (a + b)[|a| + i]);
      }
      forall i | 0 <= i < |a|
        ensures ClauseHolds(topics, a[i])
      {
        assert (a + b)[i] == a[i];
        assert ClauseHolds(topics, (a + b)[i]);
      }
    }
  }

  lemma MatchesFacetClause(topics: set<string>, prefix: string, values: seq<string>)
    ensures Matches(topics, FacetClause(prefix, values)) <==> FacetAdmits(topics, prefix, values)
  {
    if |values| > 0 {
      var clause := Topics(prefix, values);
      if Matches(topics, FacetClause(prefix, values)) {
        assert FacetClause(prefix, values)[0] == clause;
        assert ClauseHolds(topics, clause);
        var j :| 0 <= j < |clause| && clause[j] in topics;
        assert values[j] in values && TopicName(prefix, values[j]) in topics;
      }
      if FacetAdmits(topics, prefix, values) {
        var v :| v in values && TopicName(prefix, v) in topics;
        var j :| 0 <= j < |values| && values[j] == v;
        assert clause[j] in topics;
        assert ClauseHolds(topics, clause);
      }
    }
  }

  /** The shared condition admits a device iff every facet with surviving values
      admits it: values of one facet are alternatives. */
  lemma {:induction false} ConditionMeaning(topics: set<string>, t: Target)
    ensures Matches(topics, Cnf(t)) <==>
      && FacetAdmits(topics, "lang", FilteredLanguages(t))
      && FacetAdmits(topics, "tier", FilteredTiers(t))
      && FacetAdmits(topics, "platform", FilteredPlatforms(t))
  {
    var a := FacetClause("lang", FilteredLanguages(t));
    var b := FacetClause("tier", FilteredTiers(t));
    var c := FacetClause("platform", FilteredPlatforms(t));
    MatchesAppend(topics, a + b, c);
    MatchesAppend(topics, a, b);
    MatchesFacetClause(topics, "lang", FilteredLanguages(t));
    MatchesFacetClause(topics, "tier", FilteredTiers(t));
    MatchesFacetClause(topics, "platform", FilteredPlatforms(t));
  }

  // ------------------------------------------------- per-language condition

  /** The condition of one message on the per-language path: the language topic,
      then every surviving tier, then every surviving platform, all joined by
      `&&`. */
  function MsgCondition(lang: string, t: Target): string {
    var tiers := Atoms(Topics("tier", FilteredTiers(t)));
    var platforms := Atoms(Topics("platform", FilteredPlatforms(t)));
    var withTiers := Atom(TopicName("lang", lang)) + (if |tiers| > 0 then " && " + Join(tiers, " && ") else "");
    withTiers + (if |platforms| > 0 then " && " + Join(platforms, " && ") else "")
  }

  function Singletons(topics: seq<string>): (r: seq<seq<string>>)
    ensures |r| == |topics|
  {
    seq(|topics|, i requires 0 <= i < |topics| => [topics[i]])
  }

  /** The clauses of `MsgCondition`: one per topic. */
  function MsgCnf(lang: string, t: Target): seq<seq<string>> {
    [[TopicName("lang", lang)]] + Singletons(Topics("tier", FilteredTiers(t)))
      + Singletons(Topics("platform", FilteredPlatforms(t)))
  }

  lemma RenderedSingletons(topics: seq<string>)
    ensures Rendered(Singletons(topics)) == Atoms(topics)
  {
  }

  lemma RenderedAppend(a: seq<seq<string>>, b: seq<seq<string>>)
    ensures Rendered(a + b) == Rendered(a) + Rendered(b)
  {
  }

  /** Joining a head with two possibly empty tails. */
  lemma {:induction false} JoinThree(first: string, xs: seq<string>, ys: seq<string>, sep: string)
    ensures Join([first] + xs + ys, sep) ==
      first + (if |xs| > 0 then sep + Join(xs, sep) else "") + (if |ys| > 0 then sep + Join(ys, sep) else "")
  {
    var withXs := first + (if |xs| > 0 then sep + Join(xs, sep) else "");
    if |xs| > 0 {
      JoinAppend([first], xs, sep);
    } else {
      assert [first] + xs == [first];
    }
    assert Join([first] + xs, sep) == withXs;
    if |ys| > 0 {
      JoinAppend([first] + xs, ys, sep);
    } else {
      assert [first] + xs + ys == [first] + xs;
    }
  }

  /** The per-language condition string is the conjunction of single-topic clauses. */
  lemma {:induction false} MsgConditionRendersCnf(lang: string, t: Target)
    ensures MsgCondition(lang, t) == RenderCnf(MsgCnf(lang, t))
  {
    var head: seq<seq<string>> := [[TopicName("lang", lang)]];
    var ts := Singletons(Topics("tier", FilteredTiers(t)));
    var ps := Singletons(Topics("platform", FilteredPlatforms(t)));
    RenderedAppend(head + ts, ps);
    RenderedAppend(head, ts);
    RenderedSingletons(Topics("tier", FilteredTiers(t)));
    RenderedSingletons(Topics("platform", FilteredPlatforms(t)));
    assert Rendered(head) == [Atom(TopicName("lang", lang))];
    JoinThree(Atom(TopicName("lang", lang)), Atoms(Topics("tier", FilteredTiers(t))),
      Atoms(Topics("platform", FilteredPlatforms(t))), " && ");
  }

  /** The per-language condition admits a device only if it holds the language topic
      and EVERY surviving tier and platform topic. */
  lemma {:induction false} MsgConditionMeaning(topics: set<string>, lang: string, t: Target)
    ensures Matches(topics, MsgCnf(lang, t)) <==>
      && TopicName("lang", lang) in topics
      && (forall v :: v in FilteredTiers(t) ==> TopicName("tier", v) in topics)
      && (forall v :: v in FilteredPlatforms(t) ==> TopicName("platform", v) in topics)
  {
    var head: seq<seq<string>> := [[TopicName("lang", lang)]];
    MatchesAppend(topics, head + Singletons(Topics("tier", FilteredTiers(t))),
      Singletons(Topics("platform", FilteredPlatforms(t))));
    MatchesAppend(topics, head, Singletons(Topics("tier", FilteredTiers(t))));
    assert Matches(topics, head) <==> TopicName("lang", lang) in topics by {
      if TopicName("lang", lang) in topics {
        assert head[0][0] in topics;
        assert ClauseHolds(topics, head[0]);
      }
      if Matches(topics, head) {
        assert ClauseHolds(topics, head[0]);
        var j :| 0 <= j < |head[0]| && head[0][j] in topics;
        assert j == 0;
      }
    }
    MatchesSingletons(topics, "tier", FilteredTiers(t));
    MatchesSingletons(topics, "platform", FilteredPlatforms(t));
  }

  lemma MatchesSingletons(topics: set<string>, prefix: string, values: seq<string>)
    ensures Matches(topics, Singletons(Topics(prefix, values))) <==>
      forall v :: v in values ==> TopicName(prefix, v) in topics
  {
    var s := Singletons(Topics(prefix, values));
    if Matches(topics, s) {
      forall v | v in values
        ensures TopicName(prefix, v) in topics
      {
        var i :| 0 <= i < |values| && values[i] == v;
        assert s[i] == [TopicName(prefix, v)];
        assert ClauseHolds(topics, s[i]);
      }
    }
    if forall v :: v in values ==> prefix + "_" + v in topics {
      forall i | 0 <= i < |s|
        ensures ClauseHolds(topics, s[i])
      {
        assert values[i] in values;
        assert s[i][0] == TopicName(prefix, values[i]);
      }
    }
  }

  /** The two paths disagree on tiers: with tiers `free` and `lite`, a free-tier
      English device satisfies the shared condition (tiers are alternatives) but
      not the per-language one (tiers are all required). */
  lemma {:induction false} LanguagePathAndsTiers()
    ensures
      var t := Target(Some("language"), ["en"], ["free", "lite"], [], None);
      var topics := {"lang_en", "tier_free"};
      Matches(topics, Cnf(t)) && !Matches(topics, MsgCnf("en", t))
  {
    var t := Target(Some("language"), ["en"], ["free", "lite"], [], None);
    var topics := {"lang_en", "tier_free"};
    assert SelectableTier("free") && SelectableTier("lite");
    assert "en" in FilteredLanguages(t) && "free" in FilteredTiers(t) && "lite" in FilteredTiers(t);
    assert FilteredPlatforms(t) == [];
    assert TopicName("lang", "en") == "lang_en" && TopicName("tier", "free") == "tier_free";
    assert TopicName("tier", "lite") == "tier_lite" && "tier_lite" !in topics;
    assert FacetAdmits(topics, "lang", FilteredLanguages(t));
    assert FacetAdmits(topics, "tier", FilteredTiers(t));
    assert FacetAdmits(topics, "platform", FilteredPlatforms(t));
    ConditionMeaning(topics, t);
    MsgConditionMeaning(topics, "en", t);
  }

  // ------------------------------------------------------------------ fan-out

  /** Where FCM delivers a message. */
  datatype Destination = Topic(name: string) | Condition(condition: string) | Device(token: string)

  datatype Message = Message(dest: Destination, title: string, body: string, data: map<string, string>)

  /** The data payload: the custom data, overridden by the notification id, the type
      and, except on the `all_users` path, the language. */
  function MessageData(docId: string, n: Notification, lang: Option<string>): (d: map<string, string>)
    ensures d.Keys == n.customData.Keys + {"notificationId", "type"} + (if lang.Some? then {"lang"} else {})
    ensures d["notificationId"] == docId && d["type"] == OrElse(n.notificationType, "general")
    ensures lang.Some? ==> d["lang"] == lang.value
    ensures forall k :: k in n.customData && k !in {"notificationId", "type", "lang"} ==> d[k] == n.customData[k]
  {
    var base := n.customData + map["notificationId" := docId, "type" := OrElse(n.notificationType, "general")];
    if lang.Some? then base + map["lang" := lang.value] else base
  }

  function LocalizedMessage(docId: string, n: Notification, dest: Destination, lang: string): Message {
    var c := GetLocalizedContent(n.titles, n.bodies, lang);
    Message(dest, c.title, c.body, MessageData(docId, n, Some(lang)))
  }

  /** The audience `language` with a non-empty language list: one message per
      language, each under its own condition. */
  predicate PerLanguage(t: Target) {
    t.audience == Some("language") && |t.languages| > 0
  }

  /** The languages of the shared-condition path: the valid requested ones, or
      English when none were requested. */
  function SharedLanguages(t: Target): seq<string> {
    if |t.languages| > 0 then FilteredLanguages(t) else ["en"]
  }

  /** The messages `sendViaTopic` attempts, in order. */
  function TopicPlan(docId: string, n: Notification, t: Target): (plan: seq<Message>)
    ensures BuildTopicCondition(Some(t)).None? ==>
      && |plan| == 1
      && plan[0].dest == Topic(AllUsersTopic)
      && plan[0].title == GetLocalizedContent(n.titles, n.bodies, "en").title
      && plan[0].body == GetLocalizedContent(n.titles, n.bodies, "en").body
    ensures BuildTopicCondition(Some(t)).Some? && PerLanguage(t) ==>
      && |plan| == |FilteredLanguages(t)|
      && forall i :: 0 <= i < |plan| ==>
           plan[i] == LocalizedMessage(docId, n, Condition(MsgCondition(FilteredLanguages(t)[i], t)), FilteredLanguages(t)[i])
    ensures BuildTopicCondition(Some(t)).Some? && !PerLanguage(t) ==>
      && |plan| == |SharedLanguages(t)|
      && forall i :: 0 <= i < |plan| ==>
           plan[i] == LocalizedMessage(docId, n, Condition(BuildTopicCondition(Some(t)).value), SharedLanguages(t)[i])
    ensures forall i :: 0 <= i < |plan| ==>
      "notificationId" in plan[i].data && plan[i].data["notificationId"] == docId
  {
    var condition := BuildTopicCondition(Some(t));
    if condition.None? then
      var c := GetLocalizedContent(n.titles, n.bodies, "en");
      [Message(Topic(AllUsersTopic), c.title, c.body, MessageData(docId, n, None))]
    else if PerLanguage(t) then
      var langs := FilteredLanguages(t);
      seq(|langs|, i requires 0 <= i < |langs| =>
        LocalizedMessage(docId, n, Condition(MsgCondition(langs[i], t)), langs[i]))
    else
      var langs := SharedLanguages(t);
      seq(|langs|, i requires 0 <= i < |langs| =>
        LocalizedMessage(docId, n, Condition(condition.value), langs[i]))
  }

  /** Every language-tagged message on the condition paths carries a valid language. */
  lemma PlanLanguagesAreValid(docId: string, n: Notification, t: Target, i: nat)
    requires BuildTopicCondition(Some(t)).Some? && i < |TopicPlan(docId, n, t)|
    ensures TopicPlan(docId, n, t)[i].data["lang"] in ValidLanguages
  {
    if PerLanguage(t) {
      assert FilteredLanguages(t)[i] in FilteredLanguages(t);
    } else if |t.languages| > 0 {
      assert SharedLanguages(t)[i] in FilteredLanguages(t);
    }
  }

  /** The fan-out attempts nothing exactly when a condition exists but a non-empty
      language list holds no valid language. */
  lemma {:induction false} EmptyPlan(docId: string, n: Notification, t: Target)
    ensures |TopicPlan(docId, n, t)| == 0 <==>
      BuildTopicCondition(Some(t)).Some? && |t.languages| > 0 && FilteredLanguages(t) == []
  {
  }

  /** Only invalid languages and no other facet: the condition is absent, and one
      English message goes to every user. */
  lemma InvalidLanguagesReachEveryone(docId: string, n: Notification, langs: seq<string>)
    requires |langs| > 0 && forall l :: l in langs ==> l !in ValidLanguages
    ensures var t := Target(Some("language"), langs, [], [], None);
      && |TopicPlan(docId, n, t)| == 1
      && TopicPlan(docId, n, t)[0].dest == Topic(AllUsersTopic)
  {
    var t := Target(Some("language"), langs, [], [], None);
    FilterRejectsAll(langs, ValidLanguage);
  }

  // ---------------------------------------------------------------- counting

  /** What the messaging service does with the k-th send attempt. */
  datatype SendResult = Accepted(messageId: string) | Rejected(error: string)

  /** The indices of the accepted attempts among the first `n`. */
  ghost function AcceptedSet(send: nat -> SendResult, n: nat): set<nat> {
    set k: nat | k < n && send(k).Accepted?
  }

  /** The number of accepted attempts among the first `n`. */
  function Accepted(send: nat -> SendResult, n: nat): (r: nat)
    ensures r <= n
    ensures r == |AcceptedSet(send, n)|
    ensures r == n <==> forall k :: 0 <= k < n ==> send(k).Accepted?
    ensures r > 0 <==> exists k :: 0 <= k < n && send(k).Accepted?
  {
    if n == 0 then 0
    else
      assert AcceptedSet(send, n) == AcceptedSet(send, n - 1) + (if send(n - 1).Accepted? then {n - 1} else {});
      Accepted(send, n - 1) + (if send(n - 1).Accepted? then 1 else 0)
  }

  datatype Counts = Counts(success: nat, failure: nat)

  /** The counting loop of the per-language and shared paths: a rejected send is
      counted and the loop goes on. */
  method CountSends(attempts: nat, send: nat -> SendResult) returns (c: Counts)
    ensures c == Tally(attempts, send)
    ensures c.success + c.failure == attempts
    ensures c.success == Accepted(send, attempts)
    ensures c.failure == 0 <==> forall k :: 0 <= k < attempts ==> send(k).Accepted?
  {
    var success := 0;
    var failure := 0;
    var k := 0;
    while k < attempts
      invariant k <= attempts
      invariant success + failure == k
      invariant success == Accepted(send, k)
      invariant failure == 0 <==> forall j :: 0 <= j < k ==> send(j).Accepted?
    {
      if send(k).Accepted? {
        success := success + 1;
      } else {
        failure := failure + 1;
      }
      k := k + 1;
    }
    c := Counts(success, failure);
  }

  /** The counts of a run of attempts. */
  function Tally(attempts: nat, send: nat -> SendResult): (c: Counts)
    ensures c.success + c.failure == attempts
    ensures c.success == |AcceptedSet(send, attempts)|
    ensures c.failure == 0 <==> forall k :: 0 <= k < attempts ==> send(k).Accepted?
  {
    Counts(Accepted(send, attempts), attempts - Accepted(send, attempts))
  }

  // ------------------------------------------------------------------ handler

  /** `users/{uid}` as far as the individual path reads it. */
  datatype UserRecord = UserRecord(activeDeviceToken: Option<string>, preferredLanguage: Option<string>)

  /** The update written to the notification document. */
  datatype StatusUpdate = StatusUpdate(status: string, error: Option<string>, counts: Option<Counts>)

  /** The `push_notification_logs` record. */
  datatype LogEntry = LogEntry(notificationId: string, condition: string, counts: Counts, createdBy: string)

  /** Everything one trigger run does, in order: the send attempts, the status
      update, then the log record. */
  datatype PushOutcome = PushOutcome(sends: seq<Message>, update: StatusUpdate, log: Option<LogEntry>)

  function Failure(sends: seq<Message>, error: string): PushOutcome {
    PushOutcome(sends, StatusUpdate("error", Some(error), None), None)
  }

  function Completed(docId: string, n: Notification, t: Target, sends: seq<Message>, c: Counts): PushOutcome {
    var condition :=
      if t.audience == Some("individual") then "individual:" + t.userId.GetOr("")
      else OrElse(BuildTopicCondition(Some(t)), "topic:all_users");
    PushOutcome(sends,
      StatusUpdate(if c.success > 0 then "sent" else "failed", None, Some(c)),
      Some(LogEntry(docId, condition, c, OrElse(n.createdBy, "unknown"))))
  }

  /** `sendToIndividual`: the user's active device token and preferred language
      (not normalised, defaulting to English). */
  function SendToIndividual(docId: string, n: Notification, t: Target, users: map<string, UserRecord>,
                            send: nat -> SendResult): (r: PushOutcome)
    ensures t.userId.GetOr("") !in users ==> r == Failure([], "User not found: " + t.userId.GetOr(""))
    ensures (t.userId.GetOr("") in users && !Truthy(users[t.userId.GetOr("")].activeDeviceToken)) ==>
      r == Failure([], "No active device/token for user: " + t.userId.GetOr(""))
    ensures r.sends != [] <==> t.userId.GetOr("") in users && Truthy(users[t.userId.GetOr("")].activeDeviceToken)
    ensures r.sends != [] ==>
      var user := users[t.userId.GetOr("")];
      var c := GetLocalizedContent(n.titles, n.bodies, OrElse(user.preferredLanguage, "en"));
      && r.sends == [Message(Device(user.activeDeviceToken.value), c.title, c.body, MessageData(docId, n, None))]
      && (send(0).Accepted? ==> r.update == StatusUpdate("sent", None, Some(Counts(1, 0))) && r.log.Some?)
      && (send(0).Rejected? ==> r.update == StatusUpdate("error", Some(send(0).error), None) && r.log.None?)
  {
    var uid := t.userId.GetOr("");
    if uid !in users then Failure([], "User not found: " + uid)
    else if !Truthy(users[uid].activeDeviceToken) then Failure([], "No active device/token for user: " + uid)
    else
      var lang := OrElse(users[uid].preferredLanguage, "en");
      var c := GetLocalizedContent(n.titles, n.bodies, lang);
      var msg := Message(Device(users[uid].activeDeviceToken.value), c.title, c.body, MessageData(docId, n, None));
      if send(0).Rejected? then Failure([msg], send(0).error)
      else Completed(docId, n, t, [msg], Counts(1, 0))
  }

  /** `sendViaTopic`: the plan is attempted in order; on the `all_users` path a
      rejection throws, on the condition paths it is counted. */
  function SendViaTopic(docId: string, n: Notification, t: Target, send: nat -> SendResult): (r: PushOutcome)
    ensures r.sends == TopicPlan(docId, n, t)
    ensures BuildTopicCondition(Some(t)).None? ==>
      && (send(0).Accepted? ==> r.update == StatusUpdate("sent", None, Some(Counts(1, 0))) && r.log.Some?)
      && (send(0).Rejected? ==> r.update == StatusUpdate("error", Some(send(0).error), None) && r.log.None?)
    ensures BuildTopicCondition(Some(t)).Some? ==>
      && r.update.counts == Some(Tally(|r.sends|, send))
      && (r.update.status == "sent" <==> exists k :: 0 <= k < |r.sends| && send(k).Accepted?)
      && r.log.Some?
      && (t.audience != Some("individual") ==> r.log.value.condition == BuildTopicCondition(Some(t)).value)
  {
    var plan := TopicPlan(docId, n, t);
    if BuildTopicCondition(Some(t)).None? then
      if send(0).Rejected? then Failure(plan, send(0).error)
      else Completed(docId, n, t, plan, Counts(1, 0))
    else
      Completed(docId, n, t, plan, Tally(|plan|, send))
  }

  /** `onPushNotificationCreated`. */
  function OnPushNotificationCreated(docId: string, data: Option<Notification>, users: map<string, UserRecord>,
                                     send: nat -> SendResult): (r: PushOutcome)
    ensures r.update.status in {"sent", "failed", "error"}
    ensures r.update.status == "error" <==> r.log.None?
    ensures !WellFormed(data) ==> r == PushOutcome([], StatusUpdate("error", ValidationError(data), None), None)
    ensures r.update.counts.Some? ==>
      && (r.update.status == "sent" <==> r.update.counts.value.success > 0)
      && r.update.counts.value.success + r.update.counts.value.failure == |r.sends|
    ensures r.log.Some? ==> r.update.counts == Some(r.log.value.counts) && r.log.value.notificationId == docId
    ensures r.log.Some? && data.value.target.value.audience == Some("individual") ==>
      r.log.value.condition == "individual:" + data.value.target.value.userId.value
    ensures r.log.Some? && data.value.target.value.audience != Some("individual") ==>
      r.log.value.condition == OrElse(BuildTopicCondition(data.value.target), "topic:all_users")
    ensures WellFormed(data) && data.value.target.value.audience != Some("individual") ==>
      r.sends == TopicPlan(docId, data.value, data.value.target.value)
    ensures (WellFormed(data) && data.value.target.value.audience != Some("individual")
             && BuildTopicCondition(data.value.target).Some?) ==>
      r.update.counts == Some(Tally(|r.sends|, send))
    ensures (WellFormed(data) && data.value.target.value.audience != Some("individual")
             && BuildTopicCondition(data.value.target).None?) ==>
      && |r.sends| == 1 && r.sends[0].dest == Topic(AllUsersTopic)
      && (r.update.status == "sent" <==> send(0).Accepted?)
      && (send(0).Rejected? ==> r.update.error == Some(send(0).error))
    ensures WellFormed(data) && data.value.target.value.audience == Some("individual") ==>
      var uid := data.value.target.value.userId.value;
      && (r.sends != [] <==> uid in users && Truthy(users[uid].activeDeviceToken))
      && (r.sends != [] ==>
            && |r.sends| == 1 && r.sends[0].dest == Device(users[uid].activeDeviceToken.value)
            && (r.update.status == "sent" <==> send(0).Accepted?))
  {
    if !WellFormed(data) then
      PushOutcome([], StatusUpdate("error", ValidationError(data), None), None)
    else
      var t := data.value.target.value;
      if t.audience == Some("individual") then SendToIndividual(docId, data.value, t, users, send)
      else SendViaTopic(docId, data.value, t, send)
  }

  /** An unknown user or a user without a device token ends in `error`, with no send. */
  lemma IndividualFailures(docId: string, n: Notification, uid: string, users: map<string, UserRecord>,
                           send: nat -> SendResult)
    requires |n.titles| > 0 && |n.bodies| > 0 && uid != ""
    requires n.target == Some(Target(Some("individual"), [], [], [], Some(uid)))
    ensures uid !in users ==>
      OnPushNotificationCreated(docId, Some(n), users, send) == Failure([], "User not found: " + uid)
    ensures uid in users && !Truthy(users[uid].activeDeviceToken) ==>
      OnPushNotificationCreated(docId, Some(n), users, send) == Failure([], "No active device/token for user: " + uid)
  {
  }

  /** On the condition paths one rejected send does not stop the others: the status
      is `sent` as long as some attempt was accepted. */
  lemma {:induction false} PartialFailureStillSent(docId: string, n: Notification, users: map<string, UserRecord>,
                                                   send: nat -> SendResult, k: nat)
    requires WellFormed(Some(n)) && n.target.value.audience != Some("individual")
    requires BuildTopicCondition(n.target).Some?
    requires k < |TopicPlan(docId, n, n.target.value)| && send(k).Accepted?
    ensures OnPushNotificationCreated(docId, Some(n), users, send).update.status == "sent"
    ensures |OnPushNotificationCreated(docId, Some(n), users, send).sends| == |TopicPlan(docId, n, n.target.value)|
  {
    AcceptedPositive(send, |TopicPlan(docId, n, n.target.value)|, k);
  }

  /** A messaging service that rejects everything: the `all_users` send throws and
      the run ends in `error`, while the condition paths count every attempt as a
      failure and end in `failed`. */
  lemma AllRejected(docId: string, n: Notification, users: map<string, UserRecord>, send: nat -> SendResult)
    requires WellFormed(Some(n)) && n.target.value.audience != Some("individual")
    requires forall k :: send(k).Rejected?
    ensures BuildTopicCondition(n.target).None? ==>
      OnPushNotificationCreated(docId, Some(n), users, send).update == StatusUpdate("error", Some(send(0).error), None)
    ensures BuildTopicCondition(n.target).Some? ==>
      var r := OnPushNotificationCreated(docId, Some(n), users, send);
      r.update == StatusUpdate("failed", None, Some(Counts(0, |TopicPlan(docId, n, n.target.value)|)))
  {
    var t := n.target.value;
    assert OnPushNotificationCreated(docId, Some(n), users, send) == SendViaTopic(docId, n, t, send);
    if BuildTopicCondition(n.target).Some? {
      var m := |SendViaTopic(docId, n, t, send).sends|;
      assert !exists k :: 0 <= k < m && send(k).Accepted?;
      assert Accepted(send, m) == 0;
    }
  }

  lemma {:induction false} AcceptedPositive(send: nat -> SendResult, n: nat, k: nat)
    requires k < n && send(k).Accepted?
    ensures Accepted(send, n) > 0
  {
    if k < n - 1 {
      AcceptedPositive(send, n - 1, k);
    }
  }
}

=== FILE: strings.dfy ===
/** The JavaScript string operations the handlers rely on, over `seq<char>`. */
module Strings {

  /** ECMAScript WhiteSpace and LineTerminator code points: the characters `trim()`
      removes and the regular-expression class `\s` matches. */
  predicate IsJsSpace(c: char) {
    || c == '\t' || c == '\n' || c == '\U{000B}' || c == '\U{000C}' || c == '\r'
    || c == ' ' || c == '\U{00A0}' || c == '\U{1680}'
    || ('\U{2000}' <= c <= '\U{200A}')
    || c == '\U{2028}' || c == '\U{2029}' || c == '\U{202F}' || c == '\U{205F}'
    || c == '\U{3000}' || c == '\U{FEFF}'
  }

  predicate NoSpace(s: string) {
    forall i :: 0 <= i < |s| ==> !IsJsSpace(s[i])
  }

  /** `String.prototype.trimStart`. */
  function TrimStart(s: string): (r: string)
    ensures |r| <= |s| && r == s[|s| - |r|..]
    ensures |r| > 0 ==> !IsJsSpace(r[0])
    ensures forall i :: 0 <= i < |s| - |r| ==> IsJsSpace(s[i])
  {
    if |s| > 0 && IsJsSpace(s[0]) then TrimStart(s[1..]) else s
  }

  /** `String.prototype.trimEnd`. */
  function TrimEnd(s: string): (r: string)
    ensures |r| <= |s| && r == s[..|r|]
    ensures |r| > 0 ==> !IsJsSpace(r[|r| - 1])
    ensures forall i :: |r| <= i < |s| ==> IsJsSpace(s[i])
  {
    if |s| > 0 && IsJsSpace(s[|s| - 1]) then TrimEnd(s[..|s| - 1]) else s
  }

  /** `String.prototype.trim`: drops leading and trailing white space and keeps the
      rest verbatim. */
  function Trim(s: string): (r: string)
    ensures |r| > 0 ==> !IsJsSpace(r[0]) && !IsJsSpace(r[|r| - 1])
    ensures Contains(s, r)
  {
    var t := TrimStart(s);
    var r := TrimEnd(t);
    assert s[|s| - |t|..][..|r|] == r;
    ContainsWitness(s, r, |s| - |t|);
    r
  }

  /** A string with no white space at either end is its own trim. */
  lemma {:induction false} TrimFixed(s: string)
    requires |s| > 0 ==> !IsJsSpace(s[0]) && !IsJsSpace(s[|s| - 1])
    ensures Trim(s) == s
  {
  }

  function LowerChar(c: char): char {
    if 'A' <= c <= 'Z' then (c as int + 32) as char else c
  }

  /** `String.prototype.toLowerCase` on the ASCII letters; other characters are kept. */
  function ToLower(s: string): (r: string)
    ensures |r| == |s|
    ensures forall i :: 0 <= i < |s| ==> r[i] == LowerChar(s[i])
  {
    seq(|s|, i requires 0 <= i < |s| => LowerChar(s[i]))
  }

  /** `s` occurs in `text` starting at index `i`. */
  predicate OccursAt(text: string, s: string, i: int) {
    0 <= i <= |text| - |s| && s <= text[i..]
  }

  /** `s` occurs in `text` as a contiguous run: JavaScript's `text.includes(s)`. */
  predicate Contains(text: string, s: string) {
    exists i | 0 <= i <= |text| - |s| :: OccursAt(text, s, i)
  }

  lemma ContainsWitness(text: string, s: string, i: int)
    requires 0 <= i <= |text| - |s| && text[i..i + |s|] == s
    ensures Contains(text, s)
  {
    assert OccursAt(text, s, i);
  }

  /** A string occurs in any concatenation that has it as its middle part. */
  lemma ContainsInfix(a: string, s: string, b: string)
    ensures Contains(a + s + b, s)
  {
    ContainsWitness(a + s + b, s, |a|);
  }

  /** The elements of `parts` with `sep` between consecutive ones: `parts.join(sep)`. */
  function Join(parts: seq<string>, sep: string): (r: string)
    ensures |parts| == 0 ==> r == ""
    ensures |parts| == 1 ==> r == parts[0]
  {
    if |parts| == 0 then ""
    else if |parts| == 1 then parts[0]
    else parts[0] + sep + Join(parts[1..], sep)
  }

  /** Joining two non-empty lists is joining each and putting one separator between. */
  lemma {:induction false} JoinAppend(a: seq<string>, b: seq<string>, sep: string)
    requires |a| > 0 && |b| > 0
    ensures Join(a + b, sep) == Join(a, sep) + sep + Join(b, sep)
  {
    if |a| == 1 {
      assert (a + b)[0] == a[0] && (a + b)[1..] == b;
    } else {
      assert (a + b)[0] == a[0] && (a + b)[1..] == a[1..] + b;
      JoinAppend(a[1..], b, sep);
    }
  }

  /** The part of `s` before the first `c`, or all of `s`: `s.split(c)[0]`. */
  function BeforeFirst(s: string, c: char): (r: string)
    ensures r <= s
    ensures c !in r
    ensures |r| < |s| ==> s[|r|] == c
    ensures c !in s ==> r == s
  {
    if |s| == 0 then ""
    else if s[0] == c then ""
    else [s[0]] + BeforeFirst(s[1..], c)
  }

  /** `c`'s first occurrence at `i` makes the part before it `i` long. */
  lemma {:induction false} BeforeFirstAt(s: string, c: char, i: nat)
    requires i < |s| && s[i] == c
    requires forall k :: 0 <= k < i ==> s[k] != c
    ensures |BeforeFirst(s, c)| == i
  {
    if i > 0 {
      BeforeFirstAt(s[1..], c, i - 1);
    }
  }

  function DigitChar(d: nat): char
    requires d < 10
  {
    "0123456789"[d]
  }

  /** `n.toString()` for a non-negative integer. */
  function DecimalString(n: nat): (r: string)
    ensures |r| > 0
    ensures forall i :: 0 <= i < |r| ==> '0' <= r[i] <= '9'
  {
    if n < 10 then [DigitChar(n)] else DecimalString(n / 10) + [DigitChar(n % 10)]
  }

  /** `n` in decimal, left-padded with zeros to at least `width` digits. */
  function PadDecimal(n: nat, width: nat): (r: string)
    ensures |r| >= width
    ensures |DecimalString(n)| <= width ==> |r| == width
  {
    var d := DecimalString(n);
    if |d| >= width then d else seq(width - |d|, _ => '0') + d
  }
}

=== FILE: subscription.dfy ===
/** RevenueCat-driven subscription emails (functions/subscriptionEmails.js): the
    event filter, the idempotency marker and billing cooldown, plan names, the
    plan-change deferral, and the daily trial-ending reminder. Every handler queues
    a `mail_queue` document rather than sending. */
module SubscriptionEmails {
  import opened Wrappers
  import opened Strings
  import opened Languages
  import opened Calendar
  import Started = SubscriptionStartedTemplate
  import Expired = SubscriptionExpiredTemplate
  import PaymentFailed = PaymentFailedTemplate
  import PlanChanged = PlanChangedTemplate
  import TrialEnding = TrialEndingTemplate

  const InitialPurchase: string := "INITIAL_PURCHASE"
  const Expiration: string := "EXPIRATION"
  const BillingIssue: string := "BILLING_ISSUE"
  const ProductChange: string := "PRODUCT_CHANGE"

  /** The event types that produce an email; RENEWAL, CANCELLATION and the others
      are ignored. */
  const HandledEvents: seq<string> := [InitialPurchase, Expiration, BillingIssue, ProductChange]

  // ------------------------------------------------------------ plan names

  /** The product ids with a localised plan name. */
  const KnownProducts: seq<string> := ["insidex_lite_monthly", "insidex_standard_monthly", "insidex_standard_yearly"]

  /** `PRODUCT_NAMES[id][l]`. */
  function ProductName(id: string, l: Lang): Option<string> {
    if id == "insidex_lite_monthly" then
      Some(match l case En => "Lite Monthly" case Tr => "Lite Aylık" case Ru => "Lite Ежемесячный" case Hi => "Lite मासिक")
    else if id == "insidex_standard_monthly" then
      Some(match l case En => "Standard Monthly" case Tr => "Standard Aylık" case Ru => "Standard Ежемесячный" case Hi => "Standard मासिक")
    else if id == "insidex_standard_yearly" then
      Some(match l case En => "Standard Yearly" case Tr => "Standard Yıllık" case Ru => "Standard Годовой" case Hi => "Standard वार्षिक")
    else None
  }

  /** `getPlanName`: no product gives the brand name; otherwise the id is cut at
      its first `:`, an unknown id is returned as it is, and a known id gives its
      name in `lang`, falling back to English. */
  function GetPlanName(productId: Option<string>, lang: string): (r: string)
    ensures !Truthy(productId) ==> r == "InsideX"
    ensures Truthy(productId) && BeforeFirst(productId.value, ':') !in KnownProducts ==>
      r == BeforeFirst(productId.value, ':') && r <= productId.value && ':' !in r
    ensures Truthy(productId) && BeforeFirst(productId.value, ':') in KnownProducts ==>
      r == ProductName(BeforeFirst(productId.value, ':'), EntryLang(lang)).value
  {
    if !Truthy(productId) then "InsideX"
    else
      var clean := BeforeFirst(productId.value, ':');
      match ProductName(clean, EntryLang(lang))
      case None => clean
      case Some(name) => name
  }

  lemma {:induction false} BeforeFirstOfSeparated(id: string, c: char, suffix: string)
    requires c !in id
    ensures BeforeFirst(id + [c] + suffix, c) == id
  {
    if |id| == 0 {
      assert (id + [c] + suffix)[0] == c;
    } else {
      assert (id + [c] + suffix)[0] == id[0];
      assert (id + [c] + suffix)[1..] == id[1..] + [c] + suffix;
      BeforeFirstOfSeparated(id[1..], c, suffix);
    }
  }

  /** A store suffix such as `:monthly-base` does not change the plan name. */
  lemma PlanNameIgnoresSuffix(id: string, suffix: string, lang: string)
    requires id != "" && ':' !in id
    ensures GetPlanName(Some(id + ":" + suffix), lang) == GetPlanName(Some(id), lang)
  {
    BeforeFirstOfSeparated(id, ':', suffix);
    assert id + ":" + suffix == id + [':'] + suffix;
  }

  /** A known product is named in the user's language: `insidex_standard_yearly` in
      Turkish is `Standard Yıllık`. */
  lemma KnownPlanIsLocalised()
    ensures GetPlanName(Some("insidex_standard_yearly"), "tr") == "Standard Yıllık"
  {
    var id := "insidex_standard_yearly";
    assert ':' !in id;
    assert LangOf("tr") == Some(Tr);
    assert ProductName(id, Tr) == Some("Standard Yıllık");
  }

  /** A known product falls back to its English name for an unsupported language. */
  lemma KnownPlanFallsBackToEnglish(lang: string)
    requires lang !in SupportedLanguages
    ensures GetPlanName(Some("insidex_lite_monthly"), lang) == "Lite Monthly"
  {
    var id := "insidex_lite_monthly";
    assert ':' !in id;
    assert ProductName(id, En) == Some("Lite Monthly");
  }

  /** A product id that begins with `:` cleans to the empty string, and the plan
      name is then empty. */
  lemma LeadingColonGivesEmptyName(suffix: string, lang: string)
    ensures GetPlanName(Some(":" + suffix), lang) == ""
  {
    assert (":" + suffix)[0] == ':';
    assert "" !in KnownProducts;
  }

  /** `getTierFromProductId`: `standard` wins over `lite`; anything else is free. */
  function GetTierFromProductId(productId: string): (r: string)
    ensures r in ["standard", "lite", "free"]
    ensures r == "standard" <==> Contains(productId, "standard")
    ensures r == "lite" <==> !Contains(productId, "standard") && Contains(productId, "lite")
  {
    if Contains(productId, "standard") then "standard"
    else if Contains(productId, "lite") then "lite"
    else "free"
  }

  /** The tier of each product of the catalogue is the one its name suggests. */
  lemma CatalogueTiers()
    ensures GetTierFromProductId("insidex_lite_monthly") == "lite"
    ensures GetTierFromProductId("insidex_standard_monthly") == "standard"
    ensures GetTierFromProductId("insidex_standard_yearly") == "standard"
  {
    ContainsWitness("insidex_lite_monthly", "lite", 8);
    ContainsWitness("insidex_standard_monthly", "standard", 8);
    ContainsWitness("insidex_standard_yearly", "standard", 8);
    NoStandardInLite();
  }

  lemma NoStandardInLite()
    ensures !Contains("insidex_lite_monthly", "standard")
  {
    var s := "insidex_lite_monthly";
    assert 'a' !in s;
    forall i | 0 <= i <= |s| - 8
      ensures !OccursAt(s, "standard", i)
    {
      assert s[i + 2] in s;
      assert s[i + 2] != "standard"[2];
    }
  }

  /** A product id naming both tiers counts as standard. */
  lemma StandardTakesPrecedence(productId: string)
    requires Contains(productId, "standard") && Contains(productId, "lite")
    ensures GetTierFromProductId(productId) == "standard"
  {
  }

  // ------------------------------------------------------------- the store

  /** A `mail_queue` document as the billing cooldown reads it. */
  datatype QueuedMail = QueuedMail(userId: Option<string>, mailType: string, createdAt: int)

  /** `users/{uid}` as `getUserData` reads it. */
  datatype UserDoc = UserDoc(email: Option<string>, name: Option<string>, preferredLanguage: Option<string>)

  /** The reads the event trigger makes. Each of the first two may fail. */
  datatype Store = Store(
    processed: Snapshot<set<string>>,
    mailQueue: Snapshot<seq<QueuedMail>>,
    users: map<string, UserDoc>)

  /** What `getUserData` returns for a user that exists. */
  datatype UserData = UserData(email: Option<string>, name: string, lang: string)

  /** `getUserData`: the email as stored, the name defaulting to `User`, the
      preferred language normalised. A missing user and a failed read both give
      nothing. */
  function GetUserData(users: map<string, UserDoc>, userId: Option<string>): (r: Option<UserData>)
    ensures r.Some? <==> userId.Some? && userId.value in users
    ensures r.Some? ==> r.value.name != "" && r.value.lang in SupportedLanguages
    ensures r.Some? ==> r.value.email == users[userId.value].email
    ensures r.Some? && Truthy(users[userId.value].name) ==> r.value.name == users[userId.value].name.value
    ensures r.Some? && !Truthy(users[userId.value].name) ==> r.value.name == "User"
    ensures r.Some? ==> r.value.lang == NormalizeLanguage(users[userId.value].preferredLanguage)
  {
    if userId.None? || userId.value !in users then None
    else
      var doc := users[userId.value];
      Some(UserData(doc.email, OrElse(doc.name, "User"), NormalizeLanguage(doc.preferredLanguage)))
  }

  // ------------------------------------------------------ dedup and cooldown

  /** A `payment_failed` mail for `userId` created strictly within the last day. */
  predicate RecentPaymentFailed(queue: seq<QueuedMail>, userId: string, now: int) {
    exists i :: 0 <= i < |queue| && queue[i].userId == Some(userId) && queue[i].mailType == "payment_failed"
      && queue[i].createdAt > now - DayMs
  }

  /** `shouldSendEmail`: an event already marked processed is never sent again; a
      billing issue waits a day after the last payment-failed mail. A failing read
      lets the mail through. */
  function ShouldSendEmail(eventId: string, eventType: string, userId: Option<string>, store: Store, now: int): (r: bool)
    ensures store.processed.Read? && eventId in store.processed.value ==> !r
    ensures store.processed.Unavailable? ==> r
    ensures eventType != BillingIssue ==> (r <==> !(store.processed.Read? && eventId in store.processed.value))
    ensures eventType == BillingIssue && store.processed.Read? && eventId !in store.processed.value ==>
      (r <==> !(userId.Some? && store.mailQueue.Read? && RecentPaymentFailed(store.mailQueue.value, userId.value, now)))
  {
    match store.processed
    case Unavailable => true
    case Read(markers) =>
      if eventId in markers then false
      else if eventType != BillingIssue then true
      else
        // a query for an undefined user id throws, and the error lets the mail through
        if userId.None? then true
        else
          match store.mailQueue
          case Unavailable => true
          case Read(queue) => !RecentPaymentFailed(queue, userId.value, now)
  }

  /** The cooldown window is open on the left: a payment-failed mail exactly one day
      old no longer blocks, one a millisecond younger does. */
  lemma CooldownBoundary(eventId: string, uid: string, now: int)
    ensures var queue := [QueuedMail(Some(uid), "payment_failed", now - DayMs)];
      ShouldSendEmail(eventId, BillingIssue, Some(uid), Store(Read({}), Read(queue), map[]), now)
    ensures var queue := [QueuedMail(Some(uid), "payment_failed", now - DayMs + 1)];
      !ShouldSendEmail(eventId, BillingIssue, Some(uid), Store(Read({}), Read(queue), map[]), now)
  {
    var queue := [QueuedMail(Some(uid), "payment_failed", now - DayMs + 1)];
    assert queue[0].userId == Some(uid);
  }

  // ------------------------------------------------------------- the mails

  /** A `mail_queue` document written by this module. */
  datatype Mail = Mail(to: string, mailType: string, subject: string, html: string, userId: Option<string>, lang: string)

  /** A RevenueCat event document. */
  datatype Event = Event(
    eventType: Option<string>,
    appUserId: Option<string>,
    productId: Option<string>,
    newProductId: Option<string>,
    periodType: Option<string>,
    expirationAtMs: Option<int>)

  /** A number field read for truth: absent and zero are falsy. */
  predicate TruthyNumber(x: Option<int>) {
    x.Some? && x.value != 0
  }

  /** `formatDate(ts, lang)`: empty for a falsy timestamp, otherwise the locale
      rendering, which `render` stands for. */
  function FormatDate(render: (int, string) -> string, ts: Option<int>, lang: string): (r: string)
    ensures !TruthyNumber(ts) ==> r == ""
    ensures TruthyNumber(ts) ==> r == render(ts.value, lang)
  {
    if TruthyNumber(ts) then render(ts.value, lang) else ""
  }

  /** `handleInitialPurchase`; note that the trial test is on upper-case `TRIAL`. */
  function StartedMail(ev: Event, user: UserData, render: (int, string) -> string): (m: Mail)
    ensures m.mailType == "subscription_started"
    ensures m.to == user.email.GetOr("")
    ensures Contains(m.subject, GetPlanName(ev.productId, user.lang))
  {
    var isTrial := ev.periodType == Some("TRIAL");
    var planName := GetPlanName(ev.productId, user.lang);
    var expiryDate := FormatDate(render, ev.expirationAtMs, user.lang);
    var t := Started.GetSubscriptionStartedTemplate(user.lang);
    Started.SubjectNamesPlan(user.lang, planName);
    Mail(user.email.GetOr(""), "subscription_started", Started.Subject(t, planName),
      Started.Html(t, user.name, planName, expiryDate, isTrial), ev.appUserId, user.lang)
  }

  /** The purchase mail is the started template filled with the user's name, the
      plan, the formatted expiry, and a trial flag that holds only for the period
      type `TRIAL`: the trial paragraph then shows the date as the trial's end,
      and for any other period type, lower-case `trial` included, as the next
      billing date. */
  lemma StartedMailTrialTest(ev: Event, user: UserData, render: (int, string) -> string)
    ensures var t := Started.GetSubscriptionStartedTemplate(user.lang);
      StartedMail(ev, user, render).html ==
        Started.Html(t, user.name, GetPlanName(ev.productId, user.lang),
                     FormatDate(render, ev.expirationAtMs, user.lang), ev.periodType == Some("TRIAL"))
    ensures var t := Started.GetSubscriptionStartedTemplate(user.lang);
      ev.periodType == Some("TRIAL") ==>
        Contains(StartedMail(ev, user, render).html, t.trial.lead + FormatDate(render, ev.expirationAtMs, user.lang))
    ensures var t := Started.GetSubscriptionStartedTemplate(user.lang);
      ev.periodType != Some("TRIAL") ==>
        Contains(StartedMail(ev, user, render).html, t.billing.lead + FormatDate(render, ev.expirationAtMs, user.lang))
  {
    var t := Started.GetSubscriptionStartedTemplate(user.lang);
    Started.HtmlTrialBranch(t, user.name, GetPlanName(ev.productId, user.lang),
                            FormatDate(render, ev.expirationAtMs, user.lang), ev.periodType == Some("TRIAL"));
  }

  /** `handleExpiration`: the expired template in the user's language, greeting the
      user and naming the plan. */
  function ExpiredMail(ev: Event, user: UserData): (m: Mail)
    ensures m.mailType == "subscription_expired"
    ensures m.to == user.email.GetOr("")
    ensures m.subject == Expired.GetSubscriptionExpiredTemplate(user.lang).subject
    ensures m.userId == ev.appUserId && m.lang == user.lang
    ensures var t := Expired.GetSubscriptionExpiredTemplate(user.lang);
      m.html == Expired.Html(t, user.name, GetPlanName(ev.productId, user.lang))
    ensures var t := Expired.GetSubscriptionExpiredTemplate(user.lang);
      && Contains(m.html, t.salutation.lead + user.name)
      && Contains(m.html, t.expired.lead + GetPlanName(ev.productId, user.lang))
  {
    var planName := GetPlanName(ev.productId, user.lang);
    var t := Expired.GetSubscriptionExpiredTemplate(user.lang);
    Expired.HtmlEmbedsUserAndPlan(t, user.name, planName);
    Mail(user.email.GetOr(""), "subscription_expired", t.subject, Expired.Html(t, user.name, planName),
      ev.appUserId, user.lang)
  }

  /** `handleBillingIssue`: the payment-failed template in the user's language,
      greeting the user and naming the plan. */
  function PaymentFailedMail(ev: Event, user: UserData): (m: Mail)
    ensures m.mailType == "payment_failed"
    ensures m.to == user.email.GetOr("")
    ensures m.subject == PaymentFailed.GetPaymentFailedTemplate(user.lang).subject
    ensures m.userId == ev.appUserId && m.lang == user.lang
    ensures var t := PaymentFailed.GetPaymentFailedTemplate(user.lang);
      m.html == PaymentFailed.Html(t, user.name, GetPlanName(ev.productId, user.lang))
    ensures var t := PaymentFailed.GetPaymentFailedTemplate(user.lang);
      && Contains(m.html, t.salutation.lead + user.name)
      && Contains(m.html, t.failed.lead + GetPlanName(ev.productId, user.lang))
  {
    var planName := GetPlanName(ev.productId, user.lang);
    var t := PaymentFailed.GetPaymentFailedTemplate(user.lang);
    PaymentFailed.HtmlEmbedsUserAndPlan(t, user.name, planName);
    Mail(user.email.GetOr(""), "payment_failed", t.subject, PaymentFailed.Html(t, user.name, planName),
      ev.appUserId, user.lang)
  }

  /** What `handleProductChange` decides before rendering. */
  datatype PlanChange = PlanChange(oldPlan: string, newPlan: string, effectiveDate: string, isImmediate: bool)

  /** `handleProductChange`'s decision: the change is deferred when the current
      period ends more than a day from now; only then is a date shown. The new plan
      comes from `new_product_id`, falling back to `product_id`. */
  function DecidePlanChange(ev: Event, lang: string, now: int, render: (int, string) -> string): (c: PlanChange)
    ensures !c.isImmediate <==> TruthyNumber(ev.expirationAtMs) && ev.expirationAtMs.value - now > DayMs
    ensures c.isImmediate ==> c.effectiveDate == ""
    ensures !c.isImmediate ==> c.effectiveDate == render(ev.expirationAtMs.value, lang)
    ensures c.oldPlan == GetPlanName(ev.productId, lang)
    ensures Truthy(ev.newProductId) ==> c.newPlan == GetPlanName(ev.newProductId, lang)
    ensures !Truthy(ev.newProductId) ==> c.newPlan == GetPlanName(ev.productId, lang)
  {
    var isDeferred := TruthyNumber(ev.expirationAtMs) && ev.expirationAtMs.value - now > DayMs;
    PlanChange(
      GetPlanName(ev.productId, lang),
      GetPlanName(if Truthy(ev.newProductId) then ev.newProductId else ev.productId, lang),
      if isDeferred then FormatDate(render, ev.expirationAtMs, lang) else "",
      !isDeferred)
  }

  /** `handleProductChange`: the plan-changed template in the user's language,
      filled with the decision on the old plan, the new plan and the date. */
  function PlanChangedMail(ev: Event, user: UserData, now: int, render: (int, string) -> string): (m: Mail)
    ensures m.mailType == "plan_changed"
    ensures m.to == user.email.GetOr("")
    ensures m.subject == PlanChanged.GetPlanChangedTemplate(user.lang).subject
    ensures m.userId == ev.appUserId && m.lang == user.lang
    ensures var t := PlanChanged.GetPlanChangedTemplate(user.lang);
      var c := DecidePlanChange(ev, user.lang, now, render);
      m.html == PlanChanged.Html(t, user.name, c.oldPlan, c.newPlan, c.effectiveDate, c.isImmediate)
    ensures var newProduct := if Truthy(ev.newProductId) then ev.newProductId else ev.productId;
      Contains(m.html, PlanChanged.PlanArrow(GetPlanName(ev.productId, user.lang), GetPlanName(newProduct, user.lang)))
  {
    var c := DecidePlanChange(ev, user.lang, now, render);
    var t := PlanChanged.GetPlanChangedTemplate(user.lang);
    assert c.newPlan == GetPlanName(if Truthy(ev.newProductId) then ev.newProductId else ev.productId, user.lang);
    PlanChanged.HtmlShowsPlanTransition(t, user.name, c.oldPlan, c.newPlan, c.effectiveDate, c.isImmediate);
    Mail(user.email.GetOr(""), "plan_changed", t.subject,
      PlanChanged.Html(t, user.name, c.oldPlan, c.newPlan, c.effectiveDate, c.isImmediate), ev.appUserId, user.lang)
  }

  /** A change whose period ends within a day, or has no end, takes effect at once,
      and the mail then reads the same whatever the date renderer says. */
  lemma ShortPeriodIsImmediate(ev: Event, user: UserData, now: int, r1: (int, string) -> string, r2: (int, string) -> string)
    requires !TruthyNumber(ev.expirationAtMs) || ev.expirationAtMs.value <= now + DayMs
    ensures DecidePlanChange(ev, user.lang, now, r1).isImmediate
    ensures PlanChangedMail(ev, user, now, r1) == PlanChangedMail(ev, user, now, r2)
  {
  }

  /** A deferred change shows the date the period ends. */
  lemma DeferredChangeShowsDate(ev: Event, user: UserData, now: int, render: (int, string) -> string)
    requires TruthyNumber(ev.expirationAtMs) && ev.expirationAtMs.value > now + DayMs
    ensures var t := PlanChanged.GetPlanChangedTemplate(user.lang);
      Contains(PlanChangedMail(ev, user, now, render).html, t.willChange.lead + render(ev.expirationAtMs.value, user.lang))
  {
    var c := DecidePlanChange(ev, user.lang, now, render);
    var t := PlanChanged.GetPlanChangedTemplate(user.lang);
    PlanChanged.DeferredShowsEffectiveDate(t, user.name, c.oldPlan, c.newPlan, c.effectiveDate);
  }

  /** The mail a handled event type produces. */
  function EventMail(eventType: string, ev: Event, user: UserData, now: int, render: (int, string) -> string): (m: Mail)
    ensures m.mailType == MailTypeOf(eventType)
    ensures m.to == user.email.GetOr("")
    ensures m.userId == ev.appUserId && m.lang == user.lang
  {
    if eventType == InitialPurchase then StartedMail(ev, user, render)
    else if eventType == Expiration then ExpiredMail(ev, user)
    else if eventType == BillingIssue then PaymentFailedMail(ev, user)
    else PlanChangedMail(ev, user, now, render)
  }

  /** The `mail_queue` type each handled event is mailed under. */
  function MailTypeOf(eventType: string): string {
    if eventType == InitialPurchase then "subscription_started"
    else if eventType == Expiration then "subscription_expired"
    else if eventType == BillingIssue then "payment_failed"
    else "plan_changed"
  }

  // ------------------------------------------------------------ the trigger

  /** The outcome of the `mail_queue` write. */
  datatype QueueWrite = Queued | QueueFailed(message: string)

  datatype Effect =
    | QueueMail(mail: Mail)
    | WriteMarker(id: string)
    | AppendError(eventId: string, eventType: string, userId: Option<string>, message: string)

  /** The gates before any handler runs: a handled type, the dedup and cooldown
      check, and a user with an email address. */
  function Gate(eventId: string, ev: Event, store: Store, now: int): (u: Option<UserData>)
    ensures u.Some? <==>
      && ev.eventType.Some? && ev.eventType.value in HandledEvents
      && ShouldSendEmail(eventId, ev.eventType.value, ev.appUserId, store, now)
      && ev.appUserId.Some? && ev.appUserId.value in store.users
      && Truthy(store.users[ev.appUserId.value].email)
    ensures u.Some? ==> u.value.email == store.users[ev.appUserId.value].email
  {
    if ev.eventType.None? || ev.eventType.value !in HandledEvents then None
    else if !ShouldSendEmail(eventId, ev.eventType.value, ev.appUserId, store, now) then None
    else
      var user := GetUserData(store.users, ev.appUserId);
      if user.None? || !Truthy(user.value.email) then None else user
  }

  /** `onRevenueCatEvent`, with the templates taken from their own modules. The
      marker is written only after the mail was queued; a failed queue write is
      recorded in `subscription_email_errors` and leaves the event unmarked. */
  function OnRevenueCatEvent(eventId: string, ev: Event, store: Store, now: int,
                             render: (int, string) -> string, queue: QueueWrite): (effects: seq<Effect>)
    ensures ev.eventType.None? || ev.eventType.value !in HandledEvents ==> effects == []
    ensures store.processed.Read? && eventId in store.processed.value ==> effects == []
    ensures effects != [] ==> ShouldSendEmail(eventId, ev.eventType.value, ev.appUserId, store, now)
    ensures effects != [] ==>
      ev.appUserId.Some? && ev.appUserId.value in store.users && Truthy(store.users[ev.appUserId.value].email)
    ensures queue.Queued? && effects != [] ==>
      |effects| == 2 && effects[0].QueueMail? && effects[1] == WriteMarker(eventId)
      && effects[0].mail.mailType == MailTypeOf(ev.eventType.value)
      && effects[0].mail.to == store.users[ev.appUserId.value].email.value
    ensures queue.QueueFailed? ==> forall e :: e in effects ==> e.AppendError? && e.message == queue.message
    ensures |effects| <= 2
    ensures effects != [] <==> Gate(eventId, ev, store, now).Some?
    ensures queue.Queued? && effects != [] ==>
      effects[0].mail == EventMail(ev.eventType.value, ev, Gate(eventId, ev, store, now).value, now, render)
    ensures queue.QueueFailed? && effects != [] ==>
      effects == [AppendError(eventId, ev.eventType.value, ev.appUserId, queue.message)]
  {
    var user := Gate(eventId, ev, store, now);
    if user.None? then []
    else
      var mail := EventMail(ev.eventType.value, ev, user.value, now, render);
      match queue
      case Queued => [QueueMail(mail), WriteMarker(eventId)]
      case QueueFailed(message) => [AppendError(eventId, ev.eventType.value, ev.appUserId, message)]
  }

  /** The intended handler queues a mail exactly when the event is handled, passes
      the dedup and cooldown check, and belongs to a user with an email address;
      the mail goes to that address, in the user's normalised language, and the
      event is marked right after it. */
  lemma QueuesExactlyWhenEligible(eventId: string, ev: Event, store: Store, now: int,
                                  render: (int, string) -> string)
    ensures var effects := OnRevenueCatEvent(eventId, ev, store, now, render, Queued);
      effects != [] <==>
        && ev.eventType.Some? && ev.eventType.value in HandledEvents
        && ShouldSendEmail(eventId, ev.eventType.value, ev.appUserId, store, now)
        && ev.appUserId.Some? && ev.appUserId.value in store.users
        && Truthy(store.users[ev.appUserId.value].email)
    ensures var effects := OnRevenueCatEvent(eventId, ev, store, now, render, Queued);
      effects != [] ==>
        var doc := store.users[ev.appUserId.value];
        && effects == [QueueMail(effects[0].mail), WriteMarker(eventId)]
        && effects[0].mail.to == doc.email.value
        && effects[0].mail.lang == NormalizeLanguage(doc.preferredLanguage)
        && effects[0].mail.userId == ev.appUserId
        && effects[0].mail.mailType == MailTypeOf(ev.eventType.value)
  {
    var effects := OnRevenueCatEvent(eventId, ev, store, now, render, Queued);
    if effects != [] {
      var user := Gate(eventId, ev, store, now).value;
      assert user == GetUserData(store.users, ev.appUserId).value;
    }
  }

  /** Replaying an event after its marker was written does nothing. */
  lemma ReplayIsNoOp(eventId: string, ev: Event, store: Store, now: int, render: (int, string) -> string,
                     queue: QueueWrite, markers: set<string>)
    requires store.processed == Read(markers)
    ensures var replayed := Store(Read(markers + {eventId}), store.mailQueue, store.users);
      OnRevenueCatEvent(eventId, ev, replayed, now, render, queue) == []
  {
  }

  /** After a payment-failed mail is queued for a user, another billing issue for
      that user within a day (under a new event id) queues nothing, as long as the
      store answers. */
  lemma BillingCooldownHolds(eventId: string, ev: Event, store: Store, now: int, render: (int, string) -> string,
                             queue: QueueWrite, earlier: int, queued: seq<QueuedMail>)
    requires ev.eventType == Some(BillingIssue) && ev.appUserId.Some? && store.processed.Read?
    requires store.mailQueue == Read(queued + [QueuedMail(ev.appUserId, "payment_failed", earlier)])
    requires now - DayMs < earlier
    ensures OnRevenueCatEvent(eventId, ev, store, now, render, queue) == []
  {
    var q := queued + [QueuedMail(ev.appUserId, "payment_failed", earlier)];
    assert q[|queued|].userId == ev.appUserId;
    assert RecentPaymentFailed(q, ev.appUserId.value, now);
    assert Gate(eventId, ev, store, now) == None;
  }

  /** A store that cannot be read does not stop a handled event for a user with an
      email: the check fails open. */
  lemma FailsOpen(eventId: string, ev: Event, users: map<string, UserDoc>, now: int,
                  render: (int, string) -> string)
    requires ev.eventType.Some? && ev.eventType.value in HandledEvents
    requires ev.appUserId.Some? && ev.appUserId.value in users && Truthy(users[ev.appUserId.value].email)
    ensures OnRevenueCatEvent(eventId, ev, Store(Unavailable, Unavailable, users), now, render, Queued) != []
  {
  }

  // --------------------------------------------- the code as it is written

  /** The names `functions/templates/index.js` exports. */
  const TemplatesIndexExports: set<string> :=
    {"getOtpTemplate", "getWelcomeTemplate", "getPasswordResetTemplate", "normalizeLanguage",
     "SUPPORTED_LANGUAGES", "DEFAULT_LANGUAGE"}

  /** The template getter each handler calls, as imported from that index. */
  function TemplateGetter(eventType: string): (name: string)
    ensures eventType in HandledEvents ==> name !in TemplatesIndexExports
  {
    if eventType == InitialPurchase then "getSubscriptionStartedTemplate"
    else if eventType == Expiration then "getSubscriptionExpiredTemplate"
    else if eventType == BillingIssue then "getPaymentFailedTemplate"
    else "getPlanChangedTemplate"
  }

  /** `onRevenueCatEvent` as written: the getter is destructured from an index that
      does not export it (see `TemplateGetter`), so it is `undefined`, and calling it
      throws a TypeError inside the handler, before the mail is queued. */
  function OnRevenueCatEventAsWritten(eventId: string, ev: Event, store: Store, now: int): (effects: seq<Effect>)
    ensures forall e :: e in effects ==> e.AppendError?
    ensures |effects| <= 1
  {
    var user := Gate(eventId, ev, store, now);
    if user.None? then []
    else [AppendError(eventId, ev.eventType.value, ev.appUserId, TemplateGetter(ev.eventType.value) + " is not a function")]
  }

  /** As written, no subscription mail is ever queued and no event is ever marked:
      wherever the intended handler queues a mail, the written one records a
      TypeError instead. */
  lemma AsWrittenNeverQueues(eventId: string, ev: Event, store: Store, now: int,
                             render: (int, string) -> string)
    ensures var intended := OnRevenueCatEvent(eventId, ev, store, now, render, Queued);
      var written := OnRevenueCatEventAsWritten(eventId, ev, store, now);
      && (intended != [] ==> intended[0].QueueMail? && intended[1] == WriteMarker(eventId))
      && (intended != [] ==>
            written == [AppendError(eventId, ev.eventType.value, ev.appUserId,
                                    TemplateGetter(ev.eventType.value) + " is not a function")])
      && (intended == [] ==> written == [])
  {
  }

  // ---------------------------------------------------- trial reminder scan

  /** One entry of `revenuecat_customers/{uid}.subscriptions`, with `expires_date`
      already read as a time (absent, empty and unparseable are all `None`). */
  datatype Subscription = Subscription(productId: string, periodType: Option<string>, expiresAt: Option<int>)

  datatype Customer = Customer(userId: string, subscriptions: seq<Subscription>)

  /** One subscription in scan order, with the customer it belongs to. */
  datatype Candidate = Candidate(userId: string, sub: Subscription)

  function CandidatesOf(customers: seq<Customer>): seq<Candidate> {
    if |customers| == 0 then []
    else
      var c := customers[0];
      seq(|c.subscriptions|, i requires 0 <= i < |c.subscriptions| => Candidate(c.userId, c.subscriptions[i]))
        + CandidatesOf(customers[1..])
  }

  /** A trial, in lower case, whose expiry falls on tomorrow. */
  predicate EndsTomorrow(sub: Subscription, now: nat) {
    sub.periodType == Some("trial") && sub.expiresAt.Some?
      && TomorrowStart(now) <= sub.expiresAt.value <= TomorrowEnd(now)
  }

  /** `trial_ending_<uid>_<productId>_<day>`, `day` being tomorrow's `YYYY-MM-DD`. */
  function ReminderKey(c: Candidate, day: string): string {
    "trial_ending_" + c.userId + "_" + c.sub.productId + "_" + day
  }

  /** The date part of `tomorrow.toISOString()`. */
  function TomorrowIso(now: nat): string {
    IsoDate(DateOf(now + DayMs))
  }

  /** The reminder mail: to the user's address, in the user's language, naming the
      plan and the day the trial ends. */
  function TrialMail(c: Candidate, user: UserData, render: (int, string) -> string): (m: Mail)
    ensures m.mailType == "trial_ending" && m.to == user.email.GetOr("")
    ensures m.userId == Some(c.userId) && m.lang == user.lang
    ensures m.subject == TrialEnding.GetTrialEndingTemplate(user.lang).subject
    ensures Contains(m.html, TrialEnding.GetTrialEndingTemplate(user.lang).ends.lead
                             + GetPlanName(Some(c.sub.productId), user.lang))
    ensures Contains(m.html, TrialEnding.GetTrialEndingTemplate(user.lang).ends.mid
                             + render(c.sub.expiresAt.GetOr(0), user.lang))
  {
    var planName := GetPlanName(Some(c.sub.productId), user.lang);
    var expiryDate := render(c.sub.expiresAt.GetOr(0), user.lang);
    var t := TrialEnding.GetTrialEndingTemplate(user.lang);
    TrialEnding.HtmlEmbedsPlanAndDate(t, user.name, planName, expiryDate);
    Mail(user.email.GetOr(""), "trial_ending", t.subject, TrialEnding.Html(t, user.name, planName, expiryDate),
      Some(c.userId), user.lang)
  }

  /** One reminder: the candidate, the user data read for it, and the marker key.
      Its mail is `TrialMail` of the first two. */
  datatype Reminder = Reminder(cand: Candidate, user: UserData, key: string)

  /** The reminders of a scan, in order, and whether it ran to the end. */
  datatype ScanResult = ScanResult(reminders: seq<Reminder>, complete: bool)

  /** Each mail followed by its marker, in order. */
  function Interleave(mails: seq<Mail>, keys: seq<string>): (effects: seq<Effect>)
    requires |mails| == |keys|
    ensures |effects| == 2 * |mails|
    ensures forall i :: 0 <= i < |mails| ==>
      effects[2 * i] == QueueMail(mails[i]) && effects[2 * i + 1] == WriteMarker(keys[i])
  {
    if |mails| == 0 then []
    else [QueueMail(mails[0]), WriteMarker(keys[0])] + Interleave(mails[1..], keys[1..])
  }

  /** The store writes of a scan: each reminder's mail is queued and only then its
      marker written, reminder after reminder. */
  function Effects(reminders: seq<Reminder>, render: (int, string) -> string): (effects: seq<Effect>)
    ensures |effects| == 2 * |reminders|
    ensures forall i :: 0 <= i < |reminders| ==>
      && effects[2 * i] == QueueMail(TrialMail(reminders[i].cand, reminders[i].user, render))
      && effects[2 * i + 1] == WriteMarker(reminders[i].key)
  {
    var mails := seq(|reminders|, i requires 0 <= i < |reminders| => TrialMail(reminders[i].cand, reminders[i].user, render));
    var keys := seq(|reminders|, i requires 0 <= i < |reminders| => reminders[i].key);
    assert forall i :: 0 <= i < |reminders| ==>
      mails[i] == TrialMail(reminders[i].cand, reminders[i].user, render) && keys[i] == reminders[i].key;
    Interleave(mails, keys)
  }

  /** A candidate that reaches the mail: due tomorrow, not yet reminded, and with a
      user that has an email address. */
  predicate Due(c: Candidate, now: nat, day: string, markers: set<string>, users: map<string, UserData>) {
    && EndsTomorrow(c.sub, now)
    && ReminderKey(c, day) !in markers
    && c.userId in users
    && Truthy(users[c.userId].email)
  }

  /** The loop of `checkTrialEnding` over `cands`; `k` counts the queue writes so
      far and `queueOk(k)` says whether the k-th one succeeds. A failed write
      throws out of the loop. */
  function Scan(cands: seq<Candidate>, now: nat, day: string, markers: set<string>, users: map<string, UserData>,
                queueOk: nat -> bool, k: nat): (r: ScanResult)
    ensures forall i :: 0 <= i < |r.reminders| ==>
      && r.reminders[i].key !in markers
      && r.reminders[i].key == ReminderKey(r.reminders[i].cand, day)
      && r.reminders[i].cand.userId in users && r.reminders[i].user == users[r.reminders[i].cand.userId]
    ensures |r.reminders| <= |cands|
    decreases |cands|
  {
    if |cands| == 0 then ScanResult([], true)
    else
      var c := cands[0];
      if !Due(c, now, day, markers, users) then Scan(cands[1..], now, day, markers, users, queueOk, k)
      else if !queueOk(k) then ScanResult([], false)
      else
        var key := ReminderKey(c, day);
        var rest := Scan(cands[1..], now, day, markers + {key}, users, queueOk, k + 1);
        ScanResult([Reminder(c, users[c.userId], key)] + rest.reminders, rest.complete)
  }

  /** What `getUserData` returns for each user: the scan reads these. */
  function Profiles(users: map<string, UserDoc>): (profiles: map<string, UserData>)
    ensures profiles.Keys == users.Keys
    ensures forall uid :: uid in profiles ==> GetUserData(users, Some(uid)) == Some(profiles[uid])
  {
    map uid | uid in users :: GetUserData(users, Some(uid)).value
  }

  /** `checkTrialEnding`: nothing happens when tomorrow's end lies past the last
      representable time (the date conversion throws). */
  function CheckTrialEnding(now: nat, customers: seq<Customer>, markers: set<string>, users: map<string, UserDoc>,
                            queueOk: nat -> bool): (r: ScanResult)
    ensures TomorrowEnd(now) > MaxTimeMs ==> r == ScanResult([], false)
    ensures forall i :: 0 <= i < |r.reminders| ==> r.reminders[i].key !in markers
  {
    if TomorrowEnd(now) > MaxTimeMs then ScanResult([], false)
    else Scan(CandidatesOf(customers), now, TomorrowIso(now), markers, Profiles(users), queueOk, 0)
  }

  function KeysOf(reminders: seq<Reminder>): set<string> {
    set i | 0 <= i < |reminders| :: reminders[i].key
  }

  /** Every reminder is for a candidate of the scan that was due when the scan
      started: a trial ending tomorrow, not yet reminded, of a user with an email
      address. */
  lemma {:induction false} ScanSendsOnlyDue(cands: seq<Candidate>, now: nat, day: string, markers: set<string>,
                                            users: map<string, UserData>, queueOk: nat -> bool, k: nat, i: nat)
    requires i < |Scan(cands, now, day, markers, users, queueOk, k).reminders|
    ensures var rem := Scan(cands, now, day, markers, users, queueOk, k).reminders[i];
      rem.cand in cands && Due(rem.cand, now, day, markers, users)
    decreases |cands|
  {
    var c := cands[0];
    var r := Scan(cands, now, day, markers, users, queueOk, k);
    if !Due(c, now, day, markers, users) {
      ScanSendsOnlyDue(cands[1..], now, day, markers, users, queueOk, k, i);
      assert r.reminders[i].cand in cands[1..];
    } else {
      var key := ReminderKey(c, day);
      var rest := Scan(cands[1..], now, day, markers + {key}, users, queueOk, k + 1);
      if i > 0 {
        ScanSendsOnlyDue(cands[1..], now, day, markers + {key}, users, queueOk, k + 1, i - 1);
        assert r.reminders[i] == rest.reminders[i - 1];
        assert rest.reminders[i - 1].cand in cands[1..];
      }
    }
  }

  /** A scan that ran to the end left no due candidate behind: every trial that
      ended tomorrow, had not been reminded and had a user with an address got a
      reminder under its key. */
  lemma {:induction false} ScanIsComplete(cands: seq<Candidate>, now: nat, day: string, markers: set<string>,
                                          users: map<string, UserData>,
                                          queueOk: nat -> bool, k: nat)
    ensures var r := Scan(cands, now, day, markers, users, queueOk, k);
      r.complete ==> forall c :: c in cands && Due(c, now, day, markers, users) ==> ReminderKey(c, day) in KeysOf(r.reminders)
    decreases |cands|
  {
    var r := Scan(cands, now, day, markers, users, queueOk, k);
    if |cands| > 0 && r.complete {
      var c0 := cands[0];
      if !Due(c0, now, day, markers, users) {
        var rest := Scan(cands[1..], now, day, markers, users, queueOk, k);
        ScanIsComplete(cands[1..], now, day, markers, users, queueOk, k);
        forall c | c in cands && Due(c, now, day, markers, users)
          ensures ReminderKey(c, day) in KeysOf(r.reminders)
        {
          assert c in cands[1..] by {
            var i :| 0 <= i < |cands| && cands[i] == c;
            assert i != 0;
            assert cands[1..][i - 1] == c;
          }
        }
      } else {
        var key := ReminderKey(c0, day);
        var rest := Scan(cands[1..], now, day, markers + {key}, users, queueOk, k + 1);
        ScanIsComplete(cands[1..], now, day, markers + {key}, users, queueOk, k + 1);
        assert r.reminders[0].key == key;
        forall c | c in cands && Due(c, now, day, markers, users)
          ensures ReminderKey(c, day) in KeysOf(r.reminders)
        {
          if ReminderKey(c, day) != key {
            var i :| 0 <= i < |cands| && cands[i] == c;
            assert i != 0;
            assert cands[1..][i - 1] == c;
            assert Due(c, now, day, markers + {key}, users);
            var j :| 0 <= j < |rest.reminders| && rest.reminders[j].key == ReminderKey(c, day);
            assert r.reminders[j + 1] == rest.reminders[j];
          }
        }
      }
    }
  }

  /** Each reminder stands for a queue write that succeeded, and a scan stops short
      only at the first write that failed. */
  lemma {:induction false} ScanStopsOnlyOnFailedWrite(cands: seq<Candidate>, now: nat, day: string,
                                                      markers: set<string>, users: map<string, UserData>,
                                                      queueOk: nat -> bool, k: nat)
    ensures var r := Scan(cands, now, day, markers, users, queueOk, k);
      forall j :: k <= j < k + |r.reminders| ==> queueOk(j)
    ensures var r := Scan(cands, now, day, markers, users, queueOk, k);
      !r.complete ==> !queueOk(k + |r.reminders|)
    decreases |cands|
  {
    var r := Scan(cands, now, day, markers, users, queueOk, k);
    if |cands| == 0 {
      assert r.complete;
    } else if !Due(cands[0], now, day, markers, users) {
      ScanStopsOnlyOnFailedWrite(cands[1..], now, day, markers, users, queueOk, k);
    } else if queueOk(k) {
      var key := ReminderKey(cands[0], day);
      var rest := Scan(cands[1..], now, day, markers + {key}, users, queueOk, k + 1);
      assert |r.reminders| == 1 + |rest.reminders| && r.complete == rest.complete;
      ScanStopsOnlyOnFailedWrite(cands[1..], now, day, markers + {key}, users, queueOk, k + 1);
    }
  }

  /** `checkTrialEnding` reminds exactly the due trials: every reminder is for a
      due candidate, a run that finished left none behind, and a run stops short
      only when the dates cannot be represented or a queue write failed. */
  lemma CheckTrialEndingRemindsExactlyTheDue(now: nat, customers: seq<Customer>, markers: set<string>,
                                             users: map<string, UserDoc>, queueOk: nat -> bool)
    ensures var r := CheckTrialEnding(now, customers, markers, users, queueOk);
      forall i :: 0 <= i < |r.reminders| ==>
        r.reminders[i].cand in CandidatesOf(customers)
        && Due(r.reminders[i].cand, now, TomorrowIso(now), markers, Profiles(users))
    ensures var r := CheckTrialEnding(now, customers, markers, users, queueOk);
      r.complete ==>
        forall c :: c in CandidatesOf(customers) && Due(c, now, TomorrowIso(now), markers, Profiles(users)) ==>
          ReminderKey(c, TomorrowIso(now)) in KeysOf(r.reminders)
    ensures var r := CheckTrialEnding(now, customers, markers, users, queueOk);
      !r.complete ==> TomorrowEnd(now) > MaxTimeMs || !queueOk(|r.reminders|)
  {
    if TomorrowEnd(now) <= MaxTimeMs {
      var cands := CandidatesOf(customers);
      var day := TomorrowIso(now);
      var profiles := Profiles(users);
      var r := Scan(cands, now, day, markers, profiles, queueOk, 0);
      forall i | 0 <= i < |r.reminders|
        ensures r.reminders[i].cand in cands && Due(r.reminders[i].cand, now, day, markers, profiles)
      {
        ScanSendsOnlyDue(cands, now, day, markers, profiles, queueOk, 0, i);
      }
      ScanIsComplete(cands, now, day, markers, profiles, queueOk, 0);
      ScanStopsOnlyOnFailedWrite(cands, now, day, markers, profiles, queueOk, 0);
    }
  }

  /** The writes of a run: the i-th reminder queues a `trial_ending` mail to the
      user's stored address, in the user's normalised language, and then marks the
      key of that trial for tomorrow, which was not marked before. */
  lemma TrialEndingWrites(now: nat, customers: seq<Customer>, markers: set<string>, users: map<string, UserDoc>,
                          queueOk: nat -> bool, render: (int, string) -> string, i: nat)
    requires i < |CheckTrialEnding(now, customers, markers, users, queueOk).reminders|
    ensures var reminders := CheckTrialEnding(now, customers, markers, users, queueOk).reminders;
      var effects := Effects(reminders, render);
      && effects[2 * i] == QueueMail(TrialMail(reminders[i].cand, reminders[i].user, render))
      && effects[2 * i + 1] == WriteMarker(ReminderKey(reminders[i].cand, TomorrowIso(now)))
      && ReminderKey(reminders[i].cand, TomorrowIso(now)) !in markers
    ensures var rem := CheckTrialEnding(now, customers, markers, users, queueOk).reminders[i];
      && rem.cand.userId in users
      && Truthy(users[rem.cand.userId].email)
      && TrialMail(rem.cand, rem.user, render).to == users[rem.cand.userId].email.value
      && TrialMail(rem.cand, rem.user, render).lang == NormalizeLanguage(users[rem.cand.userId].preferredLanguage)
  {
    var r := CheckTrialEnding(now, customers, markers, users, queueOk);
    var rem := r.reminders[i];
    var profiles := Profiles(users);
    CheckTrialEndingRemindsExactlyTheDue(now, customers, markers, users, queueOk);
    assert rem.user == profiles[rem.cand.userId];
    assert GetUserData(users, Some(rem.cand.userId)) == Some(rem.user);
  }

  /** A second run with the markers of a completed first run queues nothing: every
      reminder is sent at most once per day. */
  lemma {:induction false} ScanIsIdempotent(cands: seq<Candidate>, now: nat, day: string, markers: set<string>,
                                            later: set<string>, users: map<string, UserData>,
                                            queueOk: nat -> bool, k: nat, k2: nat)
    requires Scan(cands, now, day, markers, users, queueOk, k).complete
    requires markers + KeysOf(Scan(cands, now, day, markers, users, queueOk, k).reminders) <= later
    ensures Scan(cands, now, day, later, users, queueOk, k2).reminders == []
    decreases |cands|
  {
    if |cands| > 0 {
      var c := cands[0];
      if !Due(c, now, day, markers, users) {
        ScanIsIdempotent(cands[1..], now, day, markers, later, users, queueOk, k, k2);
      } else {
        var key := ReminderKey(c, day);
        var rest := Scan(cands[1..], now, day, markers + {key}, users, queueOk, k + 1);
        var reminders := Scan(cands, now, day, markers, users, queueOk, k).reminders;
        assert reminders[0].key == key;
        assert KeysOf(rest.reminders) <= KeysOf(reminders) by {
          forall id | id in KeysOf(rest.reminders)
            ensures id in KeysOf(reminders)
          {
            var j :| 0 <= j < |rest.reminders| && rest.reminders[j].key == id;
            assert reminders[j + 1] == rest.reminders[j];
          }
        }
        ScanIsIdempotent(cands[1..], now, day, markers + {key}, later, users, queueOk, k + 1, k2);
      }
    }
  }

  /** The reminder key carries tomorrow's date, so the same trial is reminded again
      on another day only under a new key. */
  lemma ReminderKeyNamesTomorrow(c: Candidate, now: nat)
    ensures ReminderKey(c, TomorrowIso(now)) == "trial_ending_" + c.userId + "_" + c.sub.productId + "_"
      + IsoDate(CivilFromDays(now / DayMs + 1, EpochYear))
  {
    TomorrowIsNextDay(now);
  }

  /** The window test is "expires on the next UTC day". */
  lemma EndsTomorrowMeansNextDay(sub: Subscription, now: nat)
    ensures EndsTomorrow(sub, now) <==>
      sub.periodType == Some("trial") && sub.expiresAt.Some? && sub.expiresAt.value / DayMs == now / DayMs + 1
  {
    if sub.expiresAt.Some? {
      TomorrowWindow(now, sub.expiresAt.value);
    }
  }

  /** The reminder looks for lower-case `trial`, while the purchase mail treats only
      upper-case `TRIAL` as a trial: one period type never satisfies both, and a
      purchase whose period type is the one the scan reminds about announces the
      expiry date as the next billing date. */
  lemma TrialSpellingsDiffer(sub: Subscription, ev: Event, now: nat, user: UserData, render: (int, string) -> string)
    requires ev.periodType == sub.periodType
    ensures !(EndsTomorrow(sub, now) && ev.periodType == Some("TRIAL"))
    ensures EndsTomorrow(sub, now) ==>
      Contains(StartedMail(ev, user, render).html,
               Started.GetSubscriptionStartedTemplate(user.lang).billing.lead
               + FormatDate(render, ev.expirationAtMs, user.lang))
  {
    StartedMailTrialTest(ev, user, render);
  }

  /** The loop of `checkTrialEnding` as written: `getTrialEndingTemplate` is not
      exported by the index it is imported from, so the first due candidate calls
      `undefined`, which throws before anything is queued, and the outer catch ends
      the run. The run gets to the end only when no candidate is due. */
  function ScanAsWritten(cands: seq<Candidate>, now: nat, day: string, markers: set<string>,
                         users: map<string, UserData>): (r: ScanResult)
    ensures r.reminders == []
    ensures r.complete <==> forall i :: 0 <= i < |cands| ==> !Due(cands[i], now, day, markers, users)
    decreases |cands|
  {
    if |cands| == 0 then ScanResult([], true)
    else if Due(cands[0], now, day, markers, users) then ScanResult([], false)
    else
      var r := ScanAsWritten(cands[1..], now, day, markers, users);
      assert forall i :: 1 <= i < |cands| ==> cands[i] == cands[1..][i - 1];
      r
  }

  /** `checkTrialEnding` as written. */
  function CheckTrialEndingAsWritten(now: nat, customers: seq<Customer>, markers: set<string>,
                                     users: map<string, UserDoc>): (r: ScanResult)
    ensures r.reminders == []
    ensures r.complete <==>
      (TomorrowEnd(now) <= MaxTimeMs
       && forall c :: c in CandidatesOf(customers) ==> !Due(c, now, TomorrowIso(now), markers, Profiles(users)))
  {
    if TomorrowEnd(now) > MaxTimeMs then ScanResult([], false)
    else ScanAsWritten(CandidatesOf(customers), now, TomorrowIso(now), markers, Profiles(users))
  }

  /** With no candidate due, the intended scan runs to the end and sends nothing. */
  lemma {:induction false} NothingDueSendsNothing(cands: seq<Candidate>, now: nat, day: string,
                                                  markers: set<string>, users: map<string, UserData>,
                                                  queueOk: nat -> bool, k: nat)
    requires forall c :: c in cands ==> !Due(c, now, day, markers, users)
    ensures Scan(cands, now, day, markers, users, queueOk, k) == ScanResult([], true)
    decreases |cands|
  {
    if |cands| > 0 {
      assert cands[0] in cands;
      NothingDueSendsNothing(cands[1..], now, day, markers, users, queueOk, k);
    }
  }

  /** The written scan gets to the end exactly when the intended one gets to the
      end without sending anything; whenever the intended scan has a reminder to
      send, the written one stops short. */
  lemma AsWrittenCompletesOnlyWhenNothingIsDue(now: nat, customers: seq<Customer>, markers: set<string>,
                                               users: map<string, UserDoc>, queueOk: nat -> bool)
    ensures var intended := CheckTrialEnding(now, customers, markers, users, queueOk);
      CheckTrialEndingAsWritten(now, customers, markers, users).complete <==>
        intended.complete && intended.reminders == []
  {
    var cands := CandidatesOf(customers);
    var day := TomorrowIso(now);
    var profiles := Profiles(users);
    if TomorrowEnd(now) <= MaxTimeMs {
      var intended := Scan(cands, now, day, markers, profiles, queueOk, 0);
      if forall c :: c in cands ==> !Due(c, now, day, markers, profiles) {
        NothingDueSendsNothing(cands, now, day, markers, profiles, queueOk, 0);
      } else {
        ScanIsComplete(cands, now, day, markers, profiles, queueOk, 0);
        var c :| c in cands && Due(c, now, day, markers, profiles);
        if intended.complete {
          assert ReminderKey(c, day) in KeysOf(intended.reminders);
        }
      }
    }
  }

  /** As written the scan queues nothing, even for a customer whose trial ends
      tomorrow and who has an email address, where the intended scan sends one
      reminder. */
  lemma AsWrittenTrialScanQueuesNothing(now: nat)
    requires TomorrowEnd(now) <= MaxTimeMs
    ensures var customers := [Customer("u", [Subscription("p", Some("trial"), Some(TomorrowStart(now)))])];
      var users := map["u" := UserDoc(Some("u@example.com"), None, None)];
      && |CheckTrialEnding(now, customers, {}, users, _ => true).reminders| == 1
      && !CheckTrialEndingAsWritten(now, customers, {}, users).complete
  {
    var sub := Subscription("p", Some("trial"), Some(TomorrowStart(now)));
    var customers := [Customer("u", [sub])];
    var users := map["u" := UserDoc(Some("u@example.com"), None, None)];
    var cands := CandidatesOf(customers);
    assert CandidatesOf(customers[1..]) == [];
    assert cands == [Candidate("u", sub)];
    assert GetUserData(users, Some("u")).value.email == Some("u@example.com");
    assert Due(cands[0], now, TomorrowIso(now), {}, Profiles(users));
    assert cands[1..] == [];
  }
}

=== FILE: subscription_expired_template.dfy ===
/** The subscription expired email (functions/templates/subscriptionExpired.js). */
module SubscriptionExpiredTemplate {
  import opened Languages
  import opened Strings
  import opened Markup

  /** The language-specific text of one entry of the subscription expired table. */
  datatype Template = Template(
    subject: string,
    title: string,
    salutation: Frame,
    expired: Frame,
    comeBack: string)

  function Entry(l: Lang): Template {
    match l
    case En => Template(
      "Your InsideX subscription has ended",
      "Your subscription has ended",
      Frame("Hi ", ","),
      Frame("Your ", " subscription has expired. You now have access to demo sessions only."),
      "We'd love to have you back anytime.")
    case Tr => Template(
      "InsideX aboneliğiniz sona erdi",
      "Aboneliğiniz sona erdi",
      Frame("Merhaba ", ","),
      Frame("", " aboneliğiniz sona erdi. Artık yalnızca demo oturumlara erişebilirsiniz."),
      "Sizi tekrar aramızda görmekten mutluluk duyarız.")
    case Ru => Template(
      "Ваша подписка InsideX закончилась",
      "Ваша подписка закончилась",
      Frame("Здравствуйте, ", "!"),
      Frame("Срок действия вашей подписки ", " истек. Теперь вам доступны только демо-сессии."),
      "Мы будем рады видеть вас снова.")
    case Hi => Template(
      "आपकी InsideX सदस्यता समाप्त हो गई है",
      "आपकी सदस्यता समाप्त हो गई है",
      Frame("नमस्ते ", ","),
      Frame("आपकी ", " सदस्यता समाप्त हो गई है। अब आपके पास केवल डेमो सत्रों तक पहुंच है।"),
      "हमें आपको वापस पाकर खुशी होगी।")
  }

  /** `getSubscriptionExpiredTemplate(lang)`: the entry of a supported code, the
      English entry for any other key. Omitting the argument means `'en'`. */
  function GetSubscriptionExpiredTemplate(lang: string): (t: Template)
    ensures lang in SupportedLanguages ==> t == Entry(LangOf(lang).value)
    ensures lang !in SupportedLanguages ==> t == Entry(En)
  {
    Entry(EntryLang(lang))
  }

  function Parts(t: Template, userName: string, planName: string): seq<string> {
    [ Heading(t.title),
      Paragraph(Fill(t.salutation, userName)),
      Paragraph(Fill(t.expired, planName)),
      Paragraph(t.comeBack) ]
  }

  /** `html(userName, planName)`, without the signature. */
  function Html(t: Template, userName: string, planName: string): string {
    Concat(Parts(t, userName, planName))
  }

  /** The user name follows the salutation and the plan name is in the notice. */
  lemma HtmlEmbedsUserAndPlan(t: Template, userName: string, planName: string)
    ensures Contains(Html(t, userName, planName), t.salutation.lead + userName)
    ensures Contains(Html(t, userName, planName), t.expired.lead + planName)
  {
    var parts := Parts(t, userName, planName);
    ParagraphEmbeds(parts, 1, t.salutation, userName);
    ParagraphEmbeds(parts, 2, t.expired, planName);
  }
}

=== FILE: subscription_started_template.dfy ===
/** The subscription started email (functions/templates/subscriptionStarted.js). */
module SubscriptionStartedTemplate {
  import opened Languages
  import opened Strings
  import opened Markup

  /** The language-specific text of one entry. The `welcome` frame is both the
      subject and the heading, each filled with the plan name; `trial` and `billing`
      are the two alternative paragraphs around the expiry date. */
  datatype Template = Template(
    welcome: Frame,
    salutation: Frame,
    active: Frame,
    trial: Frame,
    billing: Frame,
    questions: string)

  function Entry(l: Lang): Template {
    match l
    case En => Template(
      Frame("Welcome to InsideX ", ""),
      Frame("Hi ", ","),
      Frame("Your ", " subscription is now active."),
      Frame("Your 7-day free trial has started. Your trial ends on <strong>", "</strong>."),
      Frame("Thank you for subscribing. Your next billing date is <strong>", "</strong>."),
      "If you have any questions, reply to this email.")
    case Tr => Template(
      Frame("InsideX ", " Planına Hoş Geldiniz"),
      Frame("Merhaba ", ","),
      Frame("", " aboneliğiniz aktif edildi."),
      Frame("7 günlük ücretsiz deneme süreniz başladı. Deneme süreniz <strong>", "</strong> tarihinde sona erecek."),
      Frame("Abone olduğunuz için teşekkürler. Bir sonraki ödeme tarihiniz: <strong>", "</strong>."),
      "Sorularınız varsa bu e-postayı yanıtlayabilirsiniz.")
    case Ru => Template(
      Frame("Добро пожаловать в InsideX ", ""),
      Frame("Здравствуйте, ", "!"),
      Frame("Ваша подписка ", " активирована."),
      Frame("Ваш 7-дневный бесплатный период начался. Пробный период заканчивается <strong>", "</strong>."),
      Frame("Спасибо за подписку. Следующая дата оплаты: <strong>", "</strong>."),
      "Если у вас есть вопросы, ответьте на это письмо.")
    case Hi => Template(
      Frame("InsideX ", " में आपका स्वागत है"),
      Frame("नमस्ते ", ","),
      Frame("आपकी ", " सदस्यता सक्रिय हो गई है।"),
      Frame("आपका 7 दिन का निःशुल्क परीक्षण शुरू हो गया है। परीक्षण <strong>", "</strong> को समाप्त होगा।"),
      Frame("सदस्यता के लिए धन्यवाद। अगली बिलिंग तिथि: <strong>", "</strong>।"),
      "कोई प्रश्न हो तो इस ईमेल का जवाब दें।")
  }

  /** `getSubscriptionStartedTemplate(lang)`: the entry of a supported code, the
      English entry for any other key. Omitting the argument means `'en'`. */
  function GetSubscriptionStartedTemplate(lang: string): (t: Template)
    ensures lang in SupportedLanguages ==> t == Entry(LangOf(lang).value)
    ensures lang !in SupportedLanguages ==> t == Entry(En)
  {
    Entry(EntryLang(lang))
  }

  /** `subject(planName)`: unlike the other templates the subject names the plan. */
  function Subject(t: Template, planName: string): string {
    Fill(t.welcome, planName)
  }

  /** The subject always contains the plan name; in English it is
      `Welcome to InsideX ${planName}`. */
  lemma SubjectNamesPlan(lang: string, planName: string)
    ensures Contains(Subject(GetSubscriptionStartedTemplate(lang), planName), planName)
    ensures lang !in {"tr", "ru", "hi"} ==>
              Subject(GetSubscriptionStartedTemplate(lang), planName) == "Welcome to InsideX " + planName
  {
    FillEmbeds(GetSubscriptionStartedTemplate(lang).welcome, planName);
    if lang !in {"tr", "ru", "hi"} {
      EnglishSubject(lang, planName);
    }
  }

  lemma EnglishSubject(lang: string, planName: string)
    requires lang !in {"tr", "ru", "hi"}
    ensures Subject(GetSubscriptionStartedTemplate(lang), planName) == "Welcome to InsideX " + planName
  {
    var t := GetSubscriptionStartedTemplate(lang);
    assert t == Entry(En) by {
      if lang in SupportedLanguages {
        assert lang == "en";
      }
    }
    assert t.welcome == Frame("Welcome to InsideX ", "");
    assert "Welcome to InsideX " + planName + "" == "Welcome to InsideX " + planName;
  }

  function Parts(t: Template, userName: string, planName: string, expiryDate: string, isTrial: bool): seq<string> {
    [ Heading(Fill(t.welcome, planName)),
      Paragraph(Fill(t.salutation, userName)),
      Paragraph(Fill(t.active, planName)),
      Paragraph(if isTrial then Fill(t.trial, expiryDate) else Fill(t.billing, expiryDate)),
      Paragraph(t.questions) ]
  }

  /** `html(userName, planName, expiryDate, isTrial)`, without the signature. */
  function Html(t: Template, userName: string, planName: string, expiryDate: string, isTrial: bool): string {
    Concat(Parts(t, userName, planName, expiryDate, isTrial))
  }

  /** The plan name is in the heading and in the body, and the user name follows
      the salutation. */
  lemma HtmlNamesPlanTwice(t: Template, userName: string, planName: string, expiryDate: string, isTrial: bool)
    ensures Contains(Html(t, userName, planName, expiryDate, isTrial), Heading(Fill(t.welcome, planName)))
    ensures Contains(Html(t, userName, planName, expiryDate, isTrial), t.active.lead + planName)
    ensures Contains(Html(t, userName, planName, expiryDate, isTrial), t.salutation.lead + userName)
  {
    var parts := Parts(t, userName, planName, expiryDate, isTrial);
    ConcatContainsPart(parts, 0);
    ParagraphEmbeds(parts, 2, t.active, planName);
    ParagraphEmbeds(parts, 1, t.salutation, userName);
  }

  /** `isTrial` selects the paragraph where the trial ends on `expiryDate`; otherwise
      the same date is announced as the next billing date. */
  lemma HtmlTrialBranch(t: Template, userName: string, planName: string, expiryDate: string, isTrial: bool)
    ensures isTrial ==> Contains(Html(t, userName, planName, expiryDate, isTrial), t.trial.lead + expiryDate)
    ensures !isTrial ==> Contains(Html(t, userName, planName, expiryDate, isTrial), t.billing.lead + expiryDate)
  {
    var parts := Parts(t, userName, planName, expiryDate, isTrial);
    ParagraphEmbeds(parts, 3, if isTrial then t.trial else t.billing, expiryDate);
  }
}

=== FILE: trial_ending_template.dfy ===
/** The trial ending reminder email (functions/templates/trialEnding.js). */
module TrialEndingTemplate {
  import opened Languages
  import opened Strings
  import opened Markup

  /** The language-specific text of one entry; `ends` holds the plan name and then
      the expiry date. */
  datatype Template = Template(
    subject: string,
    title: string,
    salutation: Frame,
    ends: Frame2)

  function Entry(l: Lang): Template {
    match l
    case En => Template(
      "Your InsideX trial ends tomorrow",
      "Your trial ends tomorrow",
      Frame("Hi ", ","),
      Frame2("Your ", " free trial ends on <strong>", "</strong>."))
    case Tr => Template(
      "InsideX deneme süreniz yarın bitiyor",
      "Deneme süreniz yarın bitiyor",
      Frame("Merhaba ", ","),
      Frame2("", " ücretsiz deneme süreniz <strong>", "</strong> tarihinde sona eriyor."))
    case Ru => Template(
      "Ваш пробный период InsideX заканчивается завтра",
      "Ваш пробный период заканчивается завтра",
      Frame("Здравствуйте, ", "!"),
      Frame2("Ваш бесплатный пробный период ", " заканчивается <strong>", "</strong>."))
    case Hi => Template(
      "आपका InsideX परीक्षण कल समाप्त हो रहा है",
      "आपका परीक्षण कल समाप्त हो रहा है",
      Frame("नमस्ते ", ","),
      Frame2("आपका ", " निःशुल्क परीक्षण <strong>", "</strong> को समाप्त हो रहा है।"))
  }

  /** `getTrialEndingTemplate(lang)`: the entry of a supported code, the English
      entry for any other key. Omitting the argument means `'en'`. */
  function GetTrialEndingTemplate(lang: string): (t: Template)
    ensures lang in SupportedLanguages ==> t == Entry(LangOf(lang).value)
    ensures lang !in SupportedLanguages ==> t == Entry(En)
  {
    Entry(EntryLang(lang))
  }

  function Parts(t: Template, userName: string, planName: string, expiryDate: string): seq<string> {
    [ Heading(t.title),
      Paragraph(Fill(t.salutation, userName)),
      Paragraph(Fill2(t.ends, planName, expiryDate)) ]
  }

  /** `html(userName, planName, expiryDate)`: the heading and the paragraphs that
      greet the user and name the plan and the date. The highlight box, the
      paragraph on cancelling and the signature are not modelled. */
  function Html(t: Template, userName: string, planName: string, expiryDate: string): string {
    Concat(Parts(t, userName, planName, expiryDate))
  }

  /** The notice names the plan and, in bold, the expiry date. */
  lemma HtmlEmbedsPlanAndDate(t: Template, userName: string, planName: string, expiryDate: string)
    ensures Contains(Html(t, userName, planName, expiryDate), t.ends.lead + planName)
    ensures Contains(Html(t, userName, planName, expiryDate), t.ends.mid + expiryDate)
    ensures Contains(Html(t, userName, planName, expiryDate), t.salutation.lead + userName)
  {
    var parts := Parts(t, userName, planName, expiryDate);
    var notice := Fill2(t.ends, planName, expiryDate);
    ContainsInfix("<p class=\"text\">", notice, "</p>");
    Fill2Embeds(t.ends, planName, expiryDate);
    ContainsTrans(parts[2], notice, t.ends.lead + planName);
    ContainsTrans(parts[2], notice, t.ends.mid + expiryDate);
    PartHolds(parts, 2, t.ends.lead + planName);
    PartHolds(parts, 2, t.ends.mid + expiryDate);
    ParagraphEmbeds(parts, 1, t.salutation, userName);
  }
}

=== FILE: welcome_template.dfy ===
/** The welcome email (functions/templates/welcome.js). */
module WelcomeTemplate {
  import opened Languages
  import opened Strings
  import opened Markup

  /** The language-specific text of one entry of the welcome table. */
  datatype Template = Template(subject: string, title: string, greeting: Frame)

  function Entry(l: Lang): Template {
    match l
    case En => Template(
      "Welcome to InsideX",
      "Welcome to InsideX",
      Frame("Hello ", ", your account has been created successfully. Start your journey with HypnoTrack audio sessions designed to transform your wellbeing."))
    case Tr => Template(
      "InsideX'e hoş geldiniz",
      "InsideX'e hoş geldiniz",
      Frame("Merhaba ", ", hesabınız başarıyla oluşturuldu. Yaşamınızı dönüştürmek için tasarlanmış Hipnotrek ses seanslarıyla yolculuğunuza başlayın."))
    case Ru => Template(
      "Добро пожаловать в InsideX",
      "Добро пожаловать в InsideX",
      Frame("Здравствуйте ", ", ваш аккаунт успешно создан. Начните свой путь с аудиосессий Гипнотрек, созданных для улучшения вашего самочувствия."))
    case Hi => Template(
      "InsideX में आपका स्वागत है",
      "InsideX में आपका स्वागत है",
      Frame("नमस्ते ", ", आपका खाता सफलतापूर्वक बनाया गया है। अपनी भलाई को बदलने के लिए डिज़ाइन किए गए हिप्नोट्रैक ऑडियो सत्रों के साथ अपनी यात्रा शुरू करें।"))
  }

  /** `getWelcomeTemplate(lang)`: the entry of a supported code, the English entry
      for any other key. Omitting the argument means `'en'`. */
  function GetWelcomeTemplate(lang: string): (t: Template)
    ensures lang in SupportedLanguages ==> t == Entry(LangOf(lang).value)
    ensures lang !in SupportedLanguages ==> t == Entry(En)
  {
    Entry(EntryLang(lang))
  }

  function Parts(t: Template, userName: string): seq<string> {
    [ Heading(t.title), Paragraph(Fill(t.greeting, userName)) ]
  }

  /** `html(userName)`, without the signature. */
  function Html(t: Template, userName: string): string {
    Concat(Parts(t, userName))
  }

  /** The user name follows the greeting. */
  lemma HtmlEmbedsUserName(t: Template, userName: string)
    ensures Contains(Html(t, userName), t.greeting.lead + userName)
  {
    var greeting := Fill(t.greeting, userName);
    ConcatContainsPart(Parts(t, userName), 1);
    ContainsInfix("<p class=\"text\">", greeting, "</p>");
    ContainsTrans(Html(t, userName), Paragraph(greeting), greeting);
    FillEmbeds(t.greeting, userName);
    ContainsTrans(Html(t, userName), greeting, t.greeting.lead + userName);
  }
}

=== FILE: wrappers.dfy ===
/** Optional values and fallible store reads shared by every handler. */
module Wrappers {

  /** A value that may be absent: a missing field, `null` or `undefined`. */
  datatype Option<+T> = None | Some(value: T) {

    /** The value, or `default` when absent. */
    function GetOr(default: T): T {
      match this
      case Some(v) => v
      case None => default
    }
  }

  /** One read of the document store, which either answers or throws. */
  datatype Snapshot<+T> = Read(value: T) | Unavailable

  /** A JavaScript string field read with `||`: absent and empty are both falsy. */
  predicate Truthy(s: Option<string>) {
    s.Some? && s.value != ""
  }

  /** `s || fallback` for a string field. */
  function OrElse(s: Option<string>, fallback: string): (r: string)
    ensures Truthy(s) ==> r == s.value
    ensures !Truthy(s) ==> r == fallback
  {
    if Truthy(s) then s.value else fallback
  }

  /** The answer of an HTTPS callable function: a returned value, or a thrown
      `HttpsError` with its code and message. */
  datatype CallResult<+T> = Returns(value: T) | Throws(code: string, message: string)
}
